=== FILE: README.md ===
# jirax webhook decoder — a Dafny model

jirax turns the JSON body of a Jira webhook into typed records. A payload is
an untyped map. A *field mover* pops its fields one at a time: it checks each
value's type, optionally passes it through a filter, and writes it into the
constructor arguments of the record being built. Whatever the mover has not
consumed is checked against a three-way strictness policy and kept as the
record's `extras`. On top of this, the package has:

- a changelog decoder, which folds the changelog items into a map keyed by
  field ID;
- an issue-link decoder with a nested link-type decode;
- a dispatcher that picks one of 24 event classes from the payload's
  `webhookEvent` tag;
- a numbering scheme for extra logging levels.

The project models these pieces module by module:

| module | file | models |
|---|---|---|
| `Util` | util.dfy | raw JSON values, the closed class hierarchy they are tested against, `is_of_type`, `type_names`, `check_type` |
| `Records` | records.dfy | the records, the `InvalidRawData` error family, the faults a filter raises, the `kind` fallback |
| `RawData` | raw.dfy | `RawFieldMover` as a class over `remaining`/`target` maps; its functional definition (`MoveStep`, `RunMoves`, `Close`); `FromRaw.from_raw` |
| `PyInt` | pyint.dfy | `int(...)` on a string, as used by the changelog `id` filter |
| `Changelog` | changelog.dfy | `FieldChange`, `FieldValue`, `Change` and `__convert_items_to_fields` |
| `IssueLinks` | issuelink.dfy | `IssueLinkType`, `IssueLink`, and the nested link-type filter |
| `Webhook` | webhook.dfy | the event classes, their `super()`-chained move sequences, `COMMENT_REQUIRED`, `KNOWN_WEBHOOK_EVENTS`, `webhook_event_from_raw` |
| `LogLevels` | logging.dfy | `_add_level_name` and `_add_level_names` over the logging library's two level dictionaries and the module globals |

Each stateful operation is written twice:

- An imperative method on the `RawFieldMover` or `LevelRegistry` class. It is
  proved equal to a function over values.
- That function, which is the definition the properties are stated about.

Filters are closures `Raw -> Filtered`. Their outcomes are:

- `Pass(value)`: the filtered value.
- `Reject(fault)`: a `RawFieldValueError`, which the mover wraps as `InvalidRawFieldValue`.
- `Raise(error)`: any other exception, which escapes unwrapped.

Strictness is `Strict | Lenient | Unchecked`, for `strict=True`, `False` and
`None`.

Behaviour of the code that the model keeps:

- `IssueLink.from_raw` (the `issueLink` filter) and `Change.from_raw` (the
  `changelog` filter) raise `InvalidRawData` errors that escape unwrapped
  (jirax/raw.py:260-267); they are not re-wrapped as rejected field values.
  The `ValueError` of `int(...)` on the changelog `id` also escapes unwrapped
  (`Webhook.IssueLinkErrorPropagates`, `Changelog.IdNotALiteral`).
- `datetime.fromtimestamp` raises for a timestamp outside the years
  `datetime` represents, and that error also escapes unwrapped
  (`Webhook.OutOfRangeTimestampEscapes`).
- No event class overrides `KIND`, so mover errors raised while decoding an
  event carry the kind `"data"`. Only `MissingWebhookEventType` and
  `UnknownWebhookEventType` report `"webhook event"`.
- A `webhookEvent` tag that is not a string raises `TypeError`, whatever the
  strictness. An unhashable tag fails in the dictionary lookup. A hashable
  non-string fails the `check_type` inside `UnknownWebhookEventType`.
- The `IssueLink` id is checked as an `int` (jirax/issuelink.py:169), and the
  model checks an `int`.

## Model

| member | source | states |
|---|---|---|
| Util.Listed | jirax/util.py:17-18 | a single type or name is treated as the one-element list holding it; a list is used as given |
| Util.IsOfType | jirax/util.py:6-30 | the loop sorts the expectations into real classes and names; the result holds iff some listed class has the value as an instance (subclasses count) or the exact class's name is listed, and it equals the reference definition `Matches` |
| Util.TypeNames | jirax/util.py:33-38 | same length and order as the expectations; a class becomes its qualified name, a name stays as it is |
| Util.CheckType | jirax/util.py:41-57 | passes iff `is_of_type` holds; otherwise the `TypeError` names the value's exact class and the expected type names |
| Util.EmptyNeverMatches | jirax/util.py:19-30 | an empty list of expectations accepts no value |
| Util.SingleIsOneElementList | jirax/util.py:17-18 | a single expectation matches and names exactly as the one-element list does, and matches iff it accepts the value |
| Util.NamesMatchExactClassOnly | jirax/util.py:27-30 | a type name matches only the value's exact class, never a superclass |
| Util.BoolIsInt | jirax/util.py:28 | a bool passes an `int` check (bool is a subclass of int); None does not |
| Records.KindOf | jirax/raw.py:45-48 | the `kind` property is the kind given at raise time, otherwise the class's `KIND`; the webhook errors report "webhook event"; it is never empty |
| RawData.SourceName | jirax/raw.py:244-247 | `source_name` defaults to `name` |
| RawData.MoveStep | jirax/raw.py:226-270 | `move`: only the popped source field leaves `remaining`; the source and kind never change; an absent field is `MissingRawField` when required, and otherwise None with no check and no filter; a present field of the wrong type is `InvalidRawFieldType` carrying the name, value and expected types; a filter's `RawFieldValueError` becomes `InvalidRawFieldValue` carrying the pre-filter value, and any other error escapes; the target is written iff the move succeeds and the name is non-empty |
| RawData.CheckExtraStep | jirax/raw.py:272-290 | `check_extra` returns the remaining names; it raises `ExtraRawFields` carrying exactly those names iff strict and some remain |
| RawData.ExtraWarnings | jirax/raw.py:284-289 | one warning exactly when not strict and fields remain, none otherwise |
| RawData.Close | jirax/raw.py:331-333 | the extra check runs unless `strict is None`; on success, the extras are the remaining fields |
| RawData.RunMovesFootprint | jirax/raw.py:248-270 | a successful run of moves keeps the source and kind, removes exactly the moved source names from `remaining`, and adds exactly the non-empty target names |
| RawData.RunMovesKeepsTarget | jirax/raw.py:268-269 | an argument that no move in the run writes keeps its presence and value |
| RawData.StoredArgument | jirax/raw.py:248-270 | after a successful decode, an argument written once holds: None for an absent optional field, the raw value when there is no filter, or the filter's passed value; a required field was present, and a type-checked field had its type |
| RawData.DistinctMovesStoreTheirFields | jirax/raw.py:324-333 | for moves with distinct sources and targets, the decoded arguments are exactly the target names, each holding what `StoredArgument` says |
| RawData.RunMovesErrorOrigin | jirax/raw.py:248-267 | a failing run raised either one of the mover's own errors for this source and kind, or an error that one of the filters raised |
| RawData.RunMovesAppend | jirax/raw.py:329-330 | running two move sequences one after the other is running their concatenation, stopping at the first error |
| RawData.ExtrasAreUnconsumedFields | jirax/raw.py:331-333 | the record's extras are the unconsumed fields with their original values, and its arguments are exactly the target names |
| RawData.StrictSuccessHasNoExtras | jirax/raw.py:283-288 | a strict success leaves no extras: every payload field was consumed |
| RawData.DecodeWarnings | jirax/raw.py:284-289 | a decode logs at most one warning |
| RawData.LenientAndUncheckedAgree | jirax/raw.py:284-289 | `strict=False` and `strict=None` decode alike; the first logs one `ExtraRawFields` naming exactly the extras iff it succeeds with extras, while `strict=None` and `strict=True` never warn |
| RawData.StrictRejectsExactlyTheExtras | jirax/raw.py:283-288 | a strict decode is the unchecked one, except that leftover fields become `ExtraRawFields` naming exactly the unconsumed names |
| RawData.MissingRequiredFieldIsReported | jirax/raw.py:248-253 | removing a required field from a decodable payload makes the decode raise `MissingRawField` for that field, carrying the decoded payload and the kind |
| RawData.MissingFieldStopsRun | jirax/raw.py:248-253 | the same for the run of moves itself |
| RawData.RunStopsAtMissingField | jirax/raw.py:248-253 | a run whose first required field is absent stops there with `MissingRawField` |
| RawData.WrongShapeIsReported | jirax/raw.py:256-259 | replacing a type-checked field of a decodable payload with a value of the wrong type makes the decode raise `InvalidRawFieldType` with that value and the expected types |
| RawData.WrongShapeStopsRun | jirax/raw.py:256-259 | the same for the run of moves itself |
| RawData.RunStopsAtWrongShape | jirax/raw.py:256-259 | a run whose first field has the wrong type stops there with `InvalidRawFieldType` |
| RawData.RawFieldMover.constructor | jirax/raw.py:195-204 | the mover starts with `remaining` a copy of the source, an empty target, and no warnings |
| RawData.RawFieldMover.Move | jirax/raw.py:226-270 | the in-place `move` leaves the mover in the state `MoveStep` describes and returns its result |
| RawData.RawFieldMover.MoveAll | jirax/raw.py:329-330 | running a class's moves in place gives the state and the error of `RunMoves` |
| RawData.RawFieldMover.CheckExtra | jirax/raw.py:272-290 | the in-place `check_extra` returns what `CheckExtraStep` does and logs the warnings of `ExtraWarnings` |
| RawData.FromRaw | jirax/raw.py:324-333 | `from_raw` with a mover object equals the functional decode `DecodeArgs`, and the warnings its mover logged are those of `DecodeWarnings` |
| RawData.RunMovesAccepted | jirax/raw.py:248-270 | moves of distinct fields that each find their field present when required, well typed and passed by the filter all succeed |
| RawData.DecodeArgsSucceeds | jirax/raw.py:324-333 | a decode by distinct moves succeeds iff every move accepts its field and, when strict, no field is left over; when not strict, extra fields never make it fail |
| RawData.TypedMoveOutcome | jirax/raw.py:248-259 | a typed, unfiltered move succeeds iff its field is present with the right type, and then yields the raw value |
| RawData.FilteredMoveOutcome | jirax/raw.py:248-267 | a typed, filtered move is missing, wrongly typed, or the filter's outcome (passed, wrapped as `InvalidRawFieldValue`, or escaping) |
| RawData.MoveTypedFields | jirax/raw.py:248-259 | a run of typed moves keeps the source and kind, yields one value per move, and raises only the mover's own errors |
| RawData.TypedFieldsHaveTheirTypes | jirax/raw.py:256-259 | every value a run of typed moves yields has its move's type |
| RawData.TypedFieldsMoved | jirax/raw.py:248-259 | with distinct sources, the run succeeds iff every field is present with its type; it then yields exactly those values and removes exactly those sources |
| RawData.TypedFieldsStopAt | jirax/raw.py:248-259 | with distinct sources, the run stops at the first field, in order, that is absent or of the wrong type, failing with `MissingRawField` or `InvalidRawFieldType` for that field; later fields are not looked at |
| RawData.MoveTypedFieldsOn | jirax/raw.py:226-270 | the same run on a mover object matches `MoveTypedFields` |
| PyInt.StripLeft | jirax/changelog.py:114 | `int` strips leading whitespace (`\t` to `\r`, the space, and the non-ASCII whitespace of `str.isspace`; not U+001C to U+001F): the result is a suffix with no leading space, and everything dropped is whitespace |
| PyInt.StripRight | jirax/changelog.py:114 | the same for trailing whitespace, with the same whitespace set |
| PyInt.ParseRun | jirax/changelog.py:114 | a digit run is accepted iff it is a valid run (digits with single underscores between them) |
| PyInt.ParseUnsigned | jirax/changelog.py:114 | an unsigned run parses to its value |
| PyInt.ParseNegative | jirax/changelog.py:114 | a `-` before a run negates it |
| PyInt.ParseShowInt | jirax/changelog.py:114 | `int(str(n)) == n` for every integer |
| PyInt.ParsePaddedShowInt | jirax/changelog.py:114 | `int` reads back `str(n)` with any whitespace around it |
| PyInt.ParseIgnoresSurroundingSpace | jirax/changelog.py:114 | whitespace around a literal does not change what it parses to |
| PyInt.BlankIsNotLiteral | jirax/changelog.py:114 | a blank string is a `ValueError` |
| PyInt.SeparatorPadIsNotLiteral | jirax/changelog.py:114 | a digit run with one of U+001C to U+001F before or after it is a `ValueError`: `int` does not strip those separators |
| PyInt.UnderscoreRules | jirax/changelog.py:114 | a run may not start or end with an underscore, nor hold two in a row |
| Changelog.StrMoveShape | jirax/changelog.py:189-191 | a `type=str` move succeeds iff its field is a string, and yields it |
| Changelog.MoveNames | jirax/changelog.py:189-191 | `field`, `fieldId` and `fieldtype` must be strings and become `name`, `id` and `type`; success iff all three are; exactly those three leave `remaining`, and the target gains exactly `name`, `id` and `type`, holding the three strings |
| Changelog.MoveFieldValue | jirax/changelog.py:192-195 | two required fields of any value, null included, become one `FieldValue` (raw, str); success iff both are present; exactly those two leave `remaining`, and the target gains exactly that `FieldValue` at the target name |
| Changelog.MoveValues | jirax/changelog.py:192-199 | `from`/`fromString` become `old` and `to`/`toString` become `new`; success iff all four are present; exactly those four leave `remaining`, and the target gains exactly `old` and `new`, holding the two values |
| Changelog.MoveFieldChange | jirax/changelog.py:186-199 | the seven moves succeed iff the three names are strings and the four values are present; the field change is read from them, exactly the seven fields are consumed, and the target gains exactly `name`, `id`, `type`, `old` and `new`, holding that change's parts |
| Changelog.DecodeFieldChange | jirax/changelog.py:186-199 | a field change's errors are the mover's own, of kind "issue field change", for this item |
| Changelog.FieldChangeDecodedFromItsShape | jirax/changelog.py:186-199 | a decoded field change came from a map of exactly the seven fields, and is the change those fields describe |
| Changelog.FieldChangeShapeDecodes | jirax/changelog.py:186-199 | conversely, every map of that shape decodes |
| Changelog.MoveNamesOn | jirax/changelog.py:189-191 | the three moves on a mover object match `MoveNames` |
| Changelog.MoveFieldValueOn | jirax/changelog.py:192-195 | the two moves and the target write on a mover object match `MoveFieldValue` |
| Changelog.MoveValuesOn | jirax/changelog.py:192-199 | the four moves on a mover object match `MoveValues` |
| Changelog.MoveFieldChangeOn | jirax/changelog.py:186-199 | `_collect_ctor_args_from_raw` on a mover object matches `MoveFieldChange` |
| Changelog.FieldChangeFromRaw | jirax/changelog.py:186-199 | `FieldChange.from_raw` with a mover object equals `DecodeFieldChange` |
| Changelog.IntFilter | jirax/changelog.py:114 | `int(value)` passes an integer or raises; it never rejects (a `ValueError` is not a `RawFieldValueError`) |
| Changelog.AddItem | jirax/changelog.py:99-106 | a stopped fold stays stopped; a step that stops never passes |
| Changelog.FoldItems | jirax/changelog.py:98-106 | a stopped fold carries a failure, never a value |
| Changelog.ConvertWith | jirax/changelog.py:97-109 | the conversion passes only a map of field changes |
| Changelog.ConvertItemsToFields | jirax/changelog.py:97-109 | the same, with items decoded by `FieldChange.from_raw` |
| Changelog.ItemsFilter | jirax/changelog.py:115-116 | the `items` filter passes only a map of field changes |
| Changelog.FoldStopsForGood | jirax/changelog.py:99-105 | once an item stops the loop, later items change nothing |
| Changelog.CollectedFieldsKeyedById | jirax/changelog.py:98-106 | a completed loop holds one entry per item; each key is its entry's field ID; every item's field change is stored, and every entry came from an item |
| Changelog.FieldsKeyedById | jirax/changelog.py:97-109 | a successful conversion is non-empty, has one entry per item, and each key is its entry's field ID |
| Changelog.DuplicateFieldNamesBothItems | jirax/changelog.py:104-105 | a `DuplicateField` carries two field changes with the same ID, decoded from an earlier and a later item |
| Changelog.DuplicateAtLastItem | jirax/changelog.py:104-105 | a duplicate found at the last item names that item as `second` and an earlier item as `first` |
| Changelog.StopDecides | jirax/changelog.py:99-105 | the first item that stops the loop decides the conversion's outcome |
| Changelog.ConvertItems | jirax/changelog.py:97-109 | the in-place loop that fills `fields` equals `ConvertItemsToFields` |
| Changelog.ChangeFromRaw | jirax/changelog.py:111-116 | `Change.from_raw` with a mover object equals `DecodeChange` |
| Changelog.ChangeDecodedFrom | jirax/changelog.py:111-116 | a decoded change came from exactly `id` and `items`; its id is `int(id)`, its fields are the items' conversion, and it has no extras |
| Changelog.IdTypes | jirax/changelog.py:114 | the `id` check accepts an int (a bool included) or a str, nothing else |
| Changelog.IdNotALiteral | jirax/changelog.py:114 | a string `id` that is not a literal raises the unwrapped `ValueError` |
| Changelog.IntFilterReadsLiterals | jirax/changelog.py:114 | the `id` filter gives back the integer a literal spells, whitespace padding that `int` strips aside (see `PyInt.StripLeft`), and an int unchanged |
| Changelog.ItemsRejected | jirax/changelog.py:115-116 | with an id the `int` filter reads (an int, a bool or a literal string), a fault from the items filter on any items value is `InvalidRawFieldValue` on `items` of the changelog entry, carrying the fault |
| Changelog.EmptyItemsIsEmptyChange | jirax/changelog.py:107-108 | with such an id, an empty `items` list, string or dict is an `EmptyChange`, reported on `items` |
| Changelog.FailingItemIsWrapped | jirax/changelog.py:100-103 | an item that does not decode stops the conversion with a `RawFieldValueError` raised from the item's error |
| IssueLinks.LinkTypeMovesPopTheirFields | jirax/issuelink.py:87-92 | the six link-type moves read six distinct fields, exactly the link type's fields |
| IssueLinks.LinkTypeMovesAccept | jirax/issuelink.py:87-92 | the link-type field predicate holds iff each of the six moves finds its field with its type |
| IssueLinks.MoveLinkType | jirax/issuelink.py:84-92 | the link-type moves keep the source and kind, and raise only the mover's own errors |
| IssueLinks.LinkTypeMoved | jirax/issuelink.py:84-92 | the moves succeed iff `id` is an int, `name`/`outwardName`/`inwardName` are strings, and the two flags are bools; the record is read from them, and exactly the six fields are consumed |
| IssueLinks.DecodeIssueLinkType | jirax/issuelink.py:84-92 | errors are the mover's own, of kind "issue link type" |
| IssueLinks.LinkTypeDecodesExactlyItsShape | jirax/issuelink.py:84-92 | `IssueLinkType.from_raw` succeeds iff the map has exactly those six well-typed fields, and then yields the record they describe |
| IssueLinks.MoveLinkTypeOn | jirax/issuelink.py:84-92 | the moves on a mover object match `MoveLinkType` |
| IssueLinks.IssueLinkTypeFromRaw | jirax/issuelink.py:84-92 | `IssueLinkType.from_raw` with a mover object equals `DecodeIssueLinkType` |
| IssueLinks.LinkTypeDecoderRaisesOnlyData | jirax/issuelink.py:160-164 | the link-type decode raises only `InvalidRawData`, so `__convert_link_type` always turns its failure into a `RawFieldValueError` |
| IssueLinks.MoveLinkTypeField | jirax/issuelink.py:170-171 | the `issueLinkType` move keeps the source and kind, and raises only the mover's own errors |
| IssueLinks.LinkTypeFieldMoved | jirax/issuelink.py:170-171 | the move succeeds iff `issueLinkType` is a dict whose nested decode succeeds; it yields that link type and consumes only that field |
| IssueLinks.LinkTypeFieldRejected | jirax/issuelink.py:159-164 | a failing nested decode is `InvalidRawFieldValue` on `issueLinkType`, caused by the nested error |
| IssueLinks.MoveLinkEnds | jirax/issuelink.py:172-175 | the three end moves keep the source and kind, and raise only the mover's own errors |
| IssueLinks.LinkEndMovesPopTheirFields | jirax/issuelink.py:172-175 | the three end moves read three distinct fields |
| IssueLinks.LinkEndMovesAccept | jirax/issuelink.py:172-175 | the ends predicate holds iff each move finds its field with its type |
| IssueLinks.LinkEndsMoved | jirax/issuelink.py:172-175 | the moves succeed iff both issue IDs are ints and `systemLink` is a bool; they yield those values and consume exactly those fields |
| IssueLinks.MoveLink | jirax/issuelink.py:166-175 | the link moves keep the source and kind, and raise only the mover's own errors |
| IssueLinks.LinkMoved | jirax/issuelink.py:166-175 | the moves succeed iff `id` is an int, the link type decodes, and the ends are well typed; the record is read from them, and exactly the five fields are consumed |
| IssueLinks.LinkTailMoved | jirax/issuelink.py:170-175 | the link-type move followed by the end moves succeeds iff both parts' fields are valid, and yields both parts |
| IssueLinks.DecodeIssueLink | jirax/issuelink.py:166-175 | errors are the mover's own, of kind "issue link" |
| IssueLinks.LinkDecodesExactlyItsShape | jirax/issuelink.py:166-175 | `IssueLink.from_raw` succeeds iff the map has exactly the five fields, well typed, with a decodable link type, and then yields the record they describe |
| IssueLinks.LinkShapeNestsLinkTypeShape | jirax/issuelink.py:170-171 | the link's fields are valid iff the id is an int, `issueLinkType` is a dict of exactly the link-type shape, and the ends are valid |
| IssueLinks.LinkTypeFailureIsWrapped | jirax/issuelink.py:159-164 | with a valid id, a failing link type is `InvalidRawFieldValue` on `issueLinkType`; its cause is a link-type error for the nested map |
| IssueLinks.MissingLinkIdComesFirst | jirax/issuelink.py:169 | `id` is moved first: without it the decode raises `MissingRawField` for `id`, whatever else is wrong |
| IssueLinks.MisTypedLinkIdComesFirst | jirax/issuelink.py:169 | an `id` that is not an int is `InvalidRawFieldType` on `id`, whatever else is wrong |
| IssueLinks.LinkTypeFieldComesSecond | jirax/issuelink.py:169-171 | after a valid `id`, an absent `issueLinkType` is `MissingRawField` and a non-dict one `InvalidRawFieldType`, whatever the closing fields hold |
| IssueLinks.LinkEndFailureComesLast | jirax/issuelink.py:169-175 | after a valid `id` and a decodable link type, the first of `sourceIssueId`, `destinationIssueId`, `systemLink` that is absent or of the wrong type is the one reported, as `MissingRawField` or `InvalidRawFieldType` |
| IssueLinks.LinkEndsStopAt | jirax/issuelink.py:172-175 | the closing moves stop at their first absent or ill-typed field, with that move's error |
| IssueLinks.LinkReachesEnds | jirax/issuelink.py:169-171 | with a valid `id` and link type, the closing moves see the raw map less those two fields, and their failure is the link's failure |
| IssueLinks.MoveLinkTypeFieldOn | jirax/issuelink.py:170-171 | the move on a mover object matches `MoveLinkTypeField` |
| IssueLinks.MoveLinkEndsOn | jirax/issuelink.py:172-175 | the moves on a mover object match `MoveLinkEnds` |
| IssueLinks.MoveLinkOn | jirax/issuelink.py:166-175 | `_collect_ctor_args_from_raw` on a mover object matches `MoveLink` |
| IssueLinks.IssueLinkFromRaw | jirax/issuelink.py:166-175 | `IssueLink.from_raw` with a mover object equals `DecodeIssueLink` |
| Webhook.EventTypesAreDistinct | jirax/webhook.py:515-540 | no two registered classes share a key |
| Webhook.RegisteredClassesAreAll | jirax/webhook.py:515-540 | the registry lists every event class except the generic one |
| Webhook.FindClass | jirax/webhook.py:557-558 | the lookup yields a listed class registered under the key, or none exists |
| Webhook.RegistryFindsEveryClass | jirax/webhook.py:515-540 | every registered class is found under its own key, e.g. `jira:worklog_updated` gives the work-logged class |
| Webhook.RegistryKeysAreTheClassKeys | jirax/webhook.py:515-540 | every key names a class whose own key it is; with `RegistryFindsEveryClass`, keys and the 24 classes correspond one to one |
| Webhook.WebhookEventOrder | jirax/webhook.py:100-105 | `WebhookEvent` moves `timestamp` then `webhookEvent` into `timestamp` and `type` |
| Webhook.UserEventOrder | jirax/webhook.py:130-134 | user events move `user` first (`WithUser` comes after `WebhookEvent` in the resolution order), then the common fields |
| Webhook.ResourceEventOrder | jirax/webhook.py:272-276 | project, board, worklog and attachment events move the common fields, then their resource |
| Webhook.IssueEventOrder | jirax/webhook.py:359-363 | issue events move `issue`, `user`, `timestamp`, `webhookEvent`, `issue_event_type_name` |
| Webhook.IssueEventArguments | jirax/webhook.py:336-366 | an issue created or deleted event holds its `issue` and `user` resources, dicts the resource layer accepts, and `issue_event_type`: the `issue_event_type_name` string when present, None when absent |
| Webhook.IssueEventMovesArguments | jirax/webhook.py:359-363 | the same for the moves of `IssueEvent` |
| Webhook.IssueEventResources | jirax/webhook.py:359-363 | the moves of `IssueEvent` store its issue and user, dicts the resource layer accepts |
| Webhook.IssueEventTypeOfMoves | jirax/webhook.py:361-363 | the moves of `IssueEvent` store `issue_event_type`: the string, or None when absent |
| Webhook.IssueUpdatedEventOrder | jirax/webhook.py:394-398 | issue-updated events move `comment`, `issue`, `user`, `timestamp`, `webhookEvent`, `issue_event_type_name`, `changelog`, into distinct arguments |
| Webhook.CommentEventOrder | jirax/webhook.py:197-202 | comment events move `comment`, then the common fields |
| Webhook.IssueLinkEventOrder | jirax/webhook.py:227-231 | issue-link events move `issueLink` into `issue_link`, then the common fields |
| Webhook.EventMovesAreDistinct | jirax/webhook.py:234-511 | every class's moves read distinct fields and write distinct arguments |
| Webhook.FamilyMovesAreDistinct | jirax/webhook.py:234-511 | the same for each intermediate class, whatever its `COMMENT_REQUIRED` |
| Webhook.EveryClassHasTheCommonMoves | jirax/webhook.py:100-105 | every class, the generic one included, moves `timestamp` and `webhookEvent` |
| Webhook.CommonArguments | jirax/webhook.py:96-105 | a decoded event had an int or float `timestamp` within the years `datetime` represents, stored as its date-time, and a string `webhookEvent`, stored as `type` |
| Webhook.TimestampArgument | jirax/webhook.py:96-104 | the `timestamp` half: an int or float within the years `datetime` represents, stored as its date-time |
| Webhook.TypeArgument | jirax/webhook.py:105 | the `type` half: a string `webhookEvent`, stored as it is |
| Webhook.DecodedEventArguments | jirax/webhook.py:96-105 | a decoded event has its class, exactly its class's argument names, and the common arguments, its timestamp within the representable years |
| Webhook.ResourceArgument | jirax/webhook.py:130-134 | a resource argument was a value of the checked type that the resource layer accepted, and holds that resource; an absent one is None and was optional |
| Webhook.OptionalArgument | jirax/webhook.py:359-363 | an optional typed argument holds the present value of its type, or None when absent |
| Webhook.IssueUpdatedResources | jirax/webhook.py:370-398 | issue-updated events hold the issue and user resources; the comment is a resource when present, and None only when it is not required |
| Webhook.IssueEventTypeArgument | jirax/webhook.py:359-363 | `issue_event_type` is the string `issue_event_type_name`, or None when absent |
| Webhook.ChangeArgument | jirax/webhook.py:394-398 | `change` is the decoded `changelog` mapping, or None when absent |
| Webhook.IssueUpdatedArguments | jirax/webhook.py:370-398 | the two issue-updated classes: issue and user resources, optional comment, event type and change, each None when absent |
| Webhook.IssueUpdatedClassMoves | jirax/webhook.py:370-377 | both issue-updated classes use the issue-updated moves with `COMMENT_REQUIRED` False |
| Webhook.IssueUpdatedMovesArguments | jirax/webhook.py:370-398 | the issue-updated arguments, for any changelog decoder |
| Webhook.CommentEventNeedsComment | jirax/webhook.py:173-202 | comment events require `comment`: without it they raise `MissingRawField` of kind "data"; a decoded one holds the comment resource |
| Webhook.CommentMovesNeedComment | jirax/webhook.py:197-202 | the same for the comment event moves with the comment required |
| Webhook.FilterRaisesFirst | jirax/raw.py:260-267 | an error that a first move's filter raises, other than `RawFieldValueError`, is the decode's error, unwrapped |
| Webhook.LinkMovesArguments | jirax/webhook.py:227-231 | `issue_link` is the decoded `issueLink` dict |
| Webhook.IssueLinkEventArguments | jirax/webhook.py:466-476 | issue-link events hold the issue link that `IssueLink.from_raw` decodes from `issueLink` |
| Webhook.LinkMovesFail | jirax/webhook.py:227-231 | a failing `IssueLink.from_raw` is the decode's error, not wrapped |
| Webhook.IssueLinkErrorPropagates | jirax/webhook.py:230-231 | issue-link events raise the nested link error as it is, and that error is an issue-link decode error for the nested map |
| Webhook.FindClassIsRegistryLookup | jirax/webhook.py:557-558 | the class lookup is exactly the lookup in `KNOWN_WEBHOOK_EVENTS` |
| Webhook.ChooseClass | jirax/webhook.py:553-566 | a missing tag raises `MissingWebhookEventType`; a non-string tag raises `TypeError` |
| Webhook.ChoiceFollowsTheRegistry | jirax/webhook.py:557-566 | a registered class is chosen only under its own key, with no warning; the generic class only for an unknown key and never when strict, with a warning iff `strict=False`; an unknown key is an error only when strict, and it carries the key |
| Webhook.KeyChoosesItsClass | jirax/webhook.py:557-558 | every registry key chooses its class |
| Webhook.DecodeWebhookEvent | jirax/webhook.py:543-567 | a non-mapping raises `TypeError`; a decoded event has the chosen class, and its warnings are the dispatcher's followed by those of the event's mover |
| Webhook.DecodedTypeIsTheTag | jirax/webhook.py:543-567 | a decoded event's `type` is the payload's tag, i.e. its class's key for a registered class; the generic class means an unknown key and a non-strict decode |
| Webhook.RegisteredKeyDecodes | jirax/webhook.py:557-567 | a tag in `KNOWN_WEBHOOK_EVENTS` decodes the payload with the class registered under it, and only that class's mover warns |
| Webhook.RegisteredClassDecodes | jirax/webhook.py:557-567 | a registered class's own key decodes the payload with that class |
| Webhook.DispatchedDecode | jirax/webhook.py:567 | once a class is chosen, the result is that class's decode, with the dispatcher's warnings before the mover's |
| Webhook.UnknownTagDecodesGeneric | jirax/webhook.py:559-567 | an unregistered tag raises `UnknownWebhookEventType` when strict; otherwise the payload decodes as a generic event, after one `UnknownWebhookEventType` warning for `strict=False` and none for `strict=None` |
| Webhook.LookUpClass | jirax/webhook.py:553-566 | the lookup with its try/except branches equals `ChooseClass` |
| Webhook.WebhookEventFromRaw | jirax/webhook.py:543-567 | `webhook_event_from_raw` with a mover object equals `DecodeWebhookEvent` |
| Webhook.EveryMoveRaisesOnlyEscapes | jirax/raw.py:260-267 | the timestamp move raises past the mover exactly for an out-of-range timestamp, and then `TimestampOutOfRange` of that timestamp; the tag, event-type and resource moves never raise past the mover; the `changelog` and `issueLink` moves raise only the nested decode's error |
| Webhook.FragmentsRaiseOnlyEscapes | jirax/raw.py:260-267 | every `_collect_ctor_args_from_raw` fragment raises, past the mover, only the timestamp conversion's error or a nested decode error |
| Webhook.EventMovesRaiseOnlyEscapes | jirax/raw.py:260-267 | the same for every class's moves |
| Webhook.FamilyMovesRaiseOnlyEscapes | jirax/raw.py:260-267 | the same for every intermediate class's moves |
| Webhook.EventErrorOrigin | jirax/raw.py:248-267 | an event decode error is one of the mover's own errors of kind "data" for the payload, the timestamp conversion's error, or an error of a nested decode |
| Webhook.OutOfRangeTimestampEscapes | jirax/webhook.py:96-105 | a generic event with an int or float timestamp outside the representable years raises `TimestampOutOfRange` for it, unwrapped, whatever else the payload holds |
| Webhook.WebhookDecodeErrors | jirax/webhook.py:543-567 | every error of `webhook_event_from_raw` is one of: a non-mapping, a missing or non-string tag, an unknown tag when strict, a mover error, an out-of-range timestamp, or a nested decode error |
| Webhook.TrailingResourceArgument | jirax/webhook.py:272-276 | project, board, worklog and attachment events hold their resource, built from a mapping the resource layer accepted |
| Webhook.TrailingFamilyMoves | jirax/webhook.py:272-276 | those four families move the common fields, then one required resource of type `Mapping` |
| Webhook.TrailingResourceMoves | jirax/webhook.py:272-276 | such a move sequence stores the resource under its own name |
| Webhook.UserArgument | jirax/webhook.py:130-134 | user events hold the user resource, built from a dict the resource layer accepted |
| Webhook.UserMovesArgument | jirax/webhook.py:130-134 | the same for the user event moves |
| Webhook.CommonMovesAccept | jirax/webhook.py:100-105 | the timestamp and tag moves accept a payload iff its timestamp is an in-range int or float and its tag a string; a required resource move accepts iff its field is present, of its type, and accepted by the resource layer |
| Webhook.TimestampMoveAccepts | jirax/webhook.py:96-104 | the timestamp move accepts a payload iff its timestamp is present, an int or float, and within the years `datetime` represents |
| Webhook.TypeMoveAccepts | jirax/webhook.py:105 | the tag move accepts a payload iff its `webhookEvent` is a string |
| Webhook.ResourceMoveAccepts | jirax/webhook.py:133-134 | a required resource move accepts iff its field is present, of its type, and accepted by the resource layer |
| Webhook.EventDecodes | jirax/raw.py:324-333 | an event decodes iff each of its class's moves accepts its field and, when strict, no other field is present |
| Webhook.GenericEventDecodes | jirax/webhook.py:100-105 | the generic event decodes iff the timestamp and tag are well formed and, when strict, nothing else is present |
| Webhook.UserEventDecodes | jirax/webhook.py:130-134 | a user event decodes iff its user is a dict the resource layer accepts, the timestamp and tag are well formed and, when strict, nothing else is present |
| Webhook.UserMovesDecode | jirax/webhook.py:130-134 | the same for the user event moves |
| Webhook.TrailingResourceDecodes | jirax/webhook.py:272-276 | a project, board, worklog or attachment event decodes iff its resource is a mapping the resource layer accepts, the timestamp and tag are well formed and, when strict, nothing else is present |
| Webhook.TrailingMovesDecode | jirax/webhook.py:272-276 | the same for the common moves followed by one required resource mapping |
| LogLevels.LevelName | jirax/logging.py:15-16 | `getLevelName(level)` is the level's name, or a "Level " placeholder for a level without one |
| LogLevels.AddName | jirax/logging.py:14-21 | `_add_level_name` raises `RuntimeError` iff the level already has a real name, changing nothing; otherwise it binds level to name, name to level and the global name to level |
| LogLevels.Between | jirax/logging.py:32-34 | one level per undefined name between two known levels |
| LogLevels.After | jirax/logging.py:39-40 | one level per undefined name after the last known level |
| LogLevels.InterpolatedWithin | jirax/logging.py:32-34 | every interpolated level lies in `[last, cur)`, or is `last` when the two coincide |
| LogLevels.InterpolatedIsOrdered | jirax/logging.py:32-34 | interpolated levels never decrease, and strictly increase when the gap leaves room |
| LogLevels.BetweenIsOrdered | jirax/logging.py:32-34 | the names between two known levels get levels in `[last, cur)`, in order |
| LogLevels.AddAllKeepsOtherNames | jirax/logging.py:33-34 | registering a run of names keeps every other name's level |
| LogLevels.NumberingKeepsKnownNames | jirax/logging.py:28-38 | the walk keeps the level of every name not waiting to be numbered |
| LogLevels.KnownNamesKeepTheirLevel | jirax/logging.py:25-40 | names that already have a level keep it |
| LogLevels.AddAllBinds | jirax/logging.py:20-21 | registered names are bound in the registry and in the globals |
| LogLevels.BetweenNames | jirax/logging.py:33-34 | the interpolated run registers exactly the waiting names |
| LogLevels.AfterNames | jirax/logging.py:39-40 | the trailing run registers exactly the waiting names |
| LogLevels.KnownNameBinds | jirax/logging.py:30-36 | a known name is bound in the globals together with the names waiting before it |
| LogLevels.NumberingBinds | jirax/logging.py:28-38 | without a clash, the walk binds every name it has passed |
| LogLevels.EveryNameIsBound | jirax/logging.py:25-40 | without a clash, every listed name ends up with a level, and its global holds that level |
| LogLevels.AddAllFresh | jirax/logging.py:14-21 | distinct unnamed levels register without a clash and add exactly those levels |
| LogLevels.AddAllFreshNames | jirax/logging.py:14-21 | they add exactly those names |
| LogLevels.AddAllFreshLevels | jirax/logging.py:14-21 | each name gets its level |
| LogLevels.NumberingSkipsUnknown | jirax/logging.py:37-38 | unknown names only wait in `undef` |
| LogLevels.NumberingPassesKnown | jirax/logging.py:30-36 | a known name with nobody waiting binds its global and becomes `last` |
| LogLevels.GapIsFilled | jirax/logging.py:30-36 | the names waiting before a known one are registered at the interpolated levels, then the walk goes on from it |
| LogLevels.AddAllExtends | jirax/logging.py:14-21 | registering new names keeps every existing name's level |
| LogLevels.FiveBelowTenLevels | jirax/logging.py:32-34 | five names below level 10 get 1, 3, 5, 6 and 8 |
| LogLevels.FiveFreshNames | jirax/logging.py:33-34 | registering those five gives each its level |
| LogLevels.FiveBelowTen | jirax/logging.py:28-38 | five unknown names followed by the name of level 10 are numbered 1, 3, 5, 6, 8 |
| LogLevels.OneBelowThirty | jirax/logging.py:28-38 | one unknown name between levels 20 and 30 gets 25 |
| LogLevels.TwoAfterFifty | jirax/logging.py:39-40 | two unknown names after level 50 get 60 and 70 |
| LogLevels.TwoKnownThenTwoUnknown | jirax/logging.py:28-40 | two known names followed by two unknown ones end in the trailing run after the second |
| LogLevels.AfterDebug | jirax/logging.py:28-40 | after DEBUG's level, the names get 25, 60 and 70 around the known 20, 30, 40 and 50 |
| LogLevels.ThirteenNames | jirax/logging.py:25-40 | a list shaped like `LEVEL_NAMES` numbers without a clash to 1, 3, 5, 6, 8, 25, 60, 70 |
| LogLevels.StandardNamesAreDistinct | jirax/logging.py:43-45 | `LEVEL_NAMES` holds 13 distinct names |
| LogLevels.StandardDebugNamesAreUnknown | jirax/logging.py:43-45 | DEBUG5 to DEBUG1 are unknown to the standard registry |
| LogLevels.StandardOtherNamesAreUnknown | jirax/logging.py:43-45 | NOTICE, ALERT and EMERGENCY are unknown to it |
| LogLevels.StandardNamesAreKnown | jirax/logging.py:43-45 | DEBUG, INFO, WARNING, ERROR and CRITICAL are 10, 20, 30, 40 and 50 |
| LogLevels.StandardLevelsAreFree | jirax/logging.py:43-45 | the levels to fill are unnamed in the standard registry |
| LogLevels.StandardNumbering | jirax/logging.py:43-47 | importing the module gives DEBUG5..DEBUG1 = 1, 3, 5, 6, 8, DEBUG = 10, INFO = 20, NOTICE = 25, WARNING = 30, ERROR = 40, CRITICAL = 50, ALERT = 60, EMERGENCY = 70, with no clash |
| LogLevels.LevelRegistry.constructor | jirax/logging.py:47 | the registry object starts in the given state of the logging library and module globals, the one `_add_level_names(LEVEL_NAMES)` runs against |
| LogLevels.LevelRegistry.AddLevelName | jirax/logging.py:14-22 | the in-place `_add_level_name` reaches the state of `AddName` and reports its clash |
| LogLevels.LevelRegistry.AddInterpolated | jirax/logging.py:32-35 | the inner loop registers the interpolated run, stopping at the first clash |
| LogLevels.LevelRegistry.AddTrailing | jirax/logging.py:39-40 | the trailing loop registers the names 10 apart after `last` |
| LogLevels.LevelRegistry.AddLevelNames | jirax/logging.py:25-40 | the in-place `_add_level_names` loop, with `last` and `undef`, equals `LevelNumbering` |

## Left out

- `LoggerProxy` (jirax/logging.py:50-97) and every logging call. It is a thread-local proxy over the logging library. The warnings are returned as values instead: the dispatcher's `UnknownWebhookEventType` and the mover's `ExtraRawFields`. The dispatcher's second message, "using generic WebhookEvent", is not modelled, and neither is any message text.
- jirax/debug.py and setup.py are not part of this model: terminal I/O and packaging.
- `raw_to_jira_resource` (jirax/raw.py:336-360): it builds `jira` resources over a network session. The model takes it as a parameter `accepts`, which either accepts a raw value or rejects it with a `RawFieldValueError`.
- `datetime.fromtimestamp(timestamp / 1000)` (jirax/webhook.py:97-98) is kept symbolic as `FromMillis(timestamp)`, and raises `TimestampOutOfRange` outside years 1 to 9999. Those bounds are taken in UTC. Not modelled: the local-time offset that moves them by up to 14 hours, a platform `time_t` narrower than those years, the rounding of the float division to microseconds at the edges, and NaN or infinite floats, which a `real` cannot hold.
- A JSON float is a `real`. Only its type and truthiness matter to the core.
- `repr`, `__str__` and every exception message: no behaviour depends on them.
- The constructors' `check_type` calls that run after a decode: the decode already guarantees them, and the records are built from the checked values.
- `int(...)` accepts ASCII digits only. Python also accepts other Unicode decimal digits.
- IssueLinks.LinkTypeMoved: an `int` field that holds a bool is stored as 0 or 1 (`IntValue`), where Python keeps `True`/`False`; the two compare equal in Python.
- Nested decodes (`Change.from_raw`, `IssueLink.from_raw`, `IssueLinkType.from_raw`, `FieldChange.from_raw`) always run strict, as the code calls them with the default `strict=True`.
- `UnknownWebhookEventType` passes `self` as an extra positional argument to its base class. That affects only its representation.
- The count of 24 registry entries is stated as a bijection between the keys and the 24 classes, not as a number.
- The module globals that `_add_level_name` writes are a map from names to levels. The logging library's registry is its two dictionaries. The starting registry is the library's default (NOTSET, DEBUG, INFO, WARNING, ERROR, CRITICAL, with FATAL and WARN as aliases).
- Webhook.IssueUpdatedMovesArguments, Webhook.LinkMovesArguments, Webhook.LinkMovesFail: stated for any changelog or issue-link decoder. The class-level lemmas instantiate them with `DecodeChange` and `DecodeIssueLink`.

=== FILE: changelog.dfy ===
/**
 * The changelog decoder of jirax/changelog.py: `FieldChange` records built
 * from seven raw fields, and `Change` entries whose `items` are folded into a
 * map keyed by field ID, rejecting a repeated ID and an empty result.
 *
 * Nested decodes always run strict, because the filters call `from_raw`
 * with its default `strict=True`.
 */
module Changelog {
  import opened Wrappers
  import opened Util
  import opened Records
  import opened RawData
  import PyInt

  /** `FieldChange.KIND` and `Change.KIND`. */
  const FieldChangeKind := "issue field change"
  const ChangeKind := "changelog entry"

  const StrOnly := One(Real(StrType))

  /** `mover.move(name, source_name=source, type=str)`. */
  function StrMove(name: string, source: string): MoveSpec
  {
    MoveSpec(name, Some(source), Some(StrOnly), None, true)
  }

  /** `mover.move('', source_name=source)`: required, any value, returned but not written. */
  function BareMove(source: string): MoveSpec
  {
    MoveSpec("", Some(source), None, None, true)
  }

  /** The raw fields of a field change, in the order they are moved. */
  const FieldChangeFields: set<string> := {"field", "fieldId", "fieldtype", "from", "fromString", "to", "toString"}

  /** The seven fields are present, the first three of them strings. */
  predicate HasFieldChangeFields(m: RawMap)
  {
    && "field" in m && m["field"].Str?
    && "fieldId" in m && m["fieldId"].Str?
    && "fieldtype" in m && m["fieldtype"].Str?
    && "from" in m && "fromString" in m && "to" in m && "toString" in m
  }

  /** Exactly the seven fields, the first three of them strings. */
  predicate IsFieldChangeShape(raw: RawMap)
  {
    HasFieldChangeFields(raw) && raw.Keys <= FieldChangeFields
  }

  lemma StrMoveShape(st: MoverState, name: string, source: string)
    ensures var o := MoveStep(st, StrMove(name, source));
            && (o.result.Ok? ==> source in st.remaining && st.remaining[source].Str?
                                 && o.result.value == VRaw(st.remaining[source]))
            && (source in st.remaining && st.remaining[source].Str? ==> o.result.Ok?)
  {
    if source in st.remaining {
      SingleIsOneElementList(st.remaining[source], Real(StrType));
    }
  }

  /** The three string fields of a field change: name, ID and type. */
  datatype Names = Names(name: string, id: string, fieldType: string)

  /** The first three moves of `FieldChange._collect_ctor_args_from_raw`. */
  function MoveNames(st: MoverState): (r: Result<(MoverState, Names)>)
    ensures r.Ok? ==> r.value.0.kind == st.kind && r.value.0.source == st.source
    ensures r.Ok? ==>
              && "field" in st.remaining && st.remaining["field"] == Str(r.value.1.name)
              && "fieldId" in st.remaining && st.remaining["fieldId"] == Str(r.value.1.id)
              && "fieldtype" in st.remaining && st.remaining["fieldtype"] == Str(r.value.1.fieldType)
    ensures r.Ok? ==> r.value.0.remaining == st.remaining - {"field", "fieldId", "fieldtype"}
    ensures r.Ok? ==>
              r.value.0.target == st.target["name" := VRaw(Str(r.value.1.name))]
                                 ["id" := VRaw(Str(r.value.1.id))]
                                 ["type" := VRaw(Str(r.value.1.fieldType))]
    ensures (&& "field" in st.remaining && st.remaining["field"].Str?
             && "fieldId" in st.remaining && st.remaining["fieldId"].Str?
             && "fieldtype" in st.remaining && st.remaining["fieldtype"].Str?) ==> r.Ok?
    ensures r.Err? ==> RaisedByMover(r.error, st.kind, st.source)
  {
    StrMoveShape(st, "name", "field");
    var name :- MoveStep(st, StrMove("name", "field"));
    StrMoveShape(name.0, "id", "fieldId");
    var id :- MoveStep(name.0, StrMove("id", "fieldId"));
    StrMoveShape(id.0, "type", "fieldtype");
    var fieldType :- MoveStep(id.0, StrMove("type", "fieldtype"));
    Ok((fieldType.0, Names(name.1.raw.s, id.1.raw.s, fieldType.1.raw.s)))
  }

  /** `target[targetName] = FieldValue(raw=move('', source_name=rawSource),
      str=move('', source_name=strSource))`. */
  function MoveFieldValue(st: MoverState, rawSource: string, strSource: string, targetName: string)
    : (r: Result<(MoverState, FieldValue)>)
    ensures r.Ok? ==> r.value.0.kind == st.kind && r.value.0.source == st.source
    requires rawSource != strSource
    ensures r.Ok? ==>
              && rawSource in st.remaining && strSource in st.remaining
              && r.value.1 == FieldValue(st.remaining[rawSource], st.remaining[strSource])
              && r.value.0.remaining == st.remaining - {rawSource, strSource}
    ensures r.Ok? ==> r.value.0.target == st.target[targetName := VFieldValue(r.value.1)]
    ensures rawSource in st.remaining && strSource in st.remaining ==> r.Ok?
    ensures r.Err? ==> RaisedByMover(r.error, st.kind, st.source)
  {
    var raw :- MoveStep(st, BareMove(rawSource));
    var str :- MoveStep(raw.0, BareMove(strSource));
    var value := FieldValue(raw.1.raw, str.1.raw);
    Ok((str.0.(target := str.0.target[targetName := VFieldValue(value)]), value))
  }

  /** The field change a mover's remaining fields describe, extras aside. */
  function FieldChangeOf(m: RawMap): FieldChange
    requires HasFieldChangeFields(m)
  {
    FieldChange(m["field"].s, m["fieldId"].s, m["fieldtype"].s,
                FieldValue(m["from"], m["fromString"]), FieldValue(m["to"], m["toString"]),
                map[])
  }

  /** The four value moves: `old` from `from`/`fromString`, `new` from `to`/`toString`. */
  function MoveValues(st: MoverState): (r: Result<(MoverState, FieldValue, FieldValue)>)
    ensures r.Ok? ==> r.value.0.kind == st.kind && r.value.0.source == st.source
    ensures r.Ok? ==>
              && "from" in st.remaining && "fromString" in st.remaining
              && "to" in st.remaining && "toString" in st.remaining
              && r.value.1 == FieldValue(st.remaining["from"], st.remaining["fromString"])
              && r.value.2 == FieldValue(st.remaining["to"], st.remaining["toString"])
              && r.value.0.remaining == st.remaining - {"from", "fromString"} - {"to", "toString"}
    ensures r.Ok? ==>
              r.value.0.target == st.target["old" := VFieldValue(r.value.1)]["new" := VFieldValue(r.value.2)]
    ensures ("from" in st.remaining && "fromString" in st.remaining
             && "to" in st.remaining && "toString" in st.remaining) ==> r.Ok?
    ensures r.Err? ==> RaisedByMover(r.error, st.kind, st.source)
  {
    var oldValue :- MoveFieldValue(st, "from", "fromString", "old");
    var newValue :- MoveFieldValue(oldValue.0, "to", "toString", "new");
    Ok((newValue.0, oldValue.1, newValue.1))
  }

  /** `target` after the seven moves: the three names, then `old` and `new`. */
  function FieldChangeTarget(target: map<string, Value>, c: FieldChange): map<string, Value>
  {
    target["name" := VRaw(Str(c.name))]["id" := VRaw(Str(c.id))]["type" := VRaw(Str(c.fieldType))]
          ["old" := VFieldValue(c.oldValue)]["new" := VFieldValue(c.newValue)]
  }

  /** The seven moves of `FieldChange._collect_ctor_args_from_raw`. */
  function MoveFieldChange(st: MoverState): (r: Result<(MoverState, FieldChange)>)
    ensures r.Ok? ==> r.value.0.kind == st.kind && r.value.0.source == st.source
    ensures r.Ok? <==> HasFieldChangeFields(st.remaining)
    ensures r.Ok? ==>
              && r.value.1 == FieldChangeOf(st.remaining)
    ensures r.Ok? ==> r.value.0.remaining == st.remaining - FieldChangeFields
    ensures r.Ok? ==> r.value.0.target == FieldChangeTarget(st.target, r.value.1)
    ensures r.Err? ==> RaisedByMover(r.error, st.kind, st.source)
  {
    var names :- MoveNames(st);
    assert HasFieldChangeFields(st.remaining) ==>
             "from" in names.0.remaining && "fromString" in names.0.remaining
             && "to" in names.0.remaining && "toString" in names.0.remaining;
    var values :- MoveValues(names.0);
    RemoveFieldChangeFields(st.remaining);
    Ok((values.0, FieldChange(names.1.name, names.1.id, names.1.fieldType, values.1, values.2, map[])))
  }

  /** `FieldChange.from_raw(raw)`, strict. */
  function DecodeFieldChange(raw: RawMap): (r: Result<FieldChange>)
    ensures r.Err? ==> RaisedByMover(r.error, FieldChangeKind, raw)
  {
    var moved :- MoveFieldChange(Open(FieldChangeKind, raw));
    var extras :- Close(moved.0, Strict);
    Ok(moved.1.(extras := extras))
  }

  /** Removing the three groups of moved fields in turn removes the seven. */
  lemma RemoveFieldChangeFields(m: RawMap)
    ensures m - {"field", "fieldId", "fieldtype"} - {"from", "fromString"} - {"to", "toString"}
            == m - FieldChangeFields
  {
    assert {"field", "fieldId", "fieldtype"} + {"from", "fromString"} + {"to", "toString"} == FieldChangeFields;
  }

  /** A decoded field change came from a raw map of exactly its shape, the
      four value fields becoming its old and new values unchanged. */
  lemma FieldChangeDecodedFromItsShape(raw: RawMap)
    requires DecodeFieldChange(raw).Ok?
    ensures IsFieldChangeShape(raw)
    ensures DecodeFieldChange(raw).value == FieldChangeOf(raw)
  {
    NothingLeftOutside(raw, FieldChangeFields);
  }

  /** Every raw map of the field-change shape decodes, whatever the four value
      fields hold (null included). */
  lemma FieldChangeShapeDecodes(raw: RawMap)
    requires IsFieldChangeShape(raw)
    ensures DecodeFieldChange(raw).Ok?
  {
    NothingLeftOutside(raw, FieldChangeFields);
  }

  /** The first three moves, on a mover. */
  method MoveNamesOn(mover: RawFieldMover) returns (r: Result<Names>)
    modifies mover`remaining, mover`target
    ensures r.Ok? <==> MoveNames(old(mover.State())).Ok?
    ensures r.Ok? ==> (mover.State(), r.value) == MoveNames(old(mover.State())).value
    ensures r.Err? ==> r.error == MoveNames(old(mover.State())).error
  {
    StrMoveShape(mover.State(), "name", "field");
    var name := mover.Move(StrMove("name", "field"));
    if name.Err? { return Err(name.error); }
    StrMoveShape(mover.State(), "id", "fieldId");
    var id := mover.Move(StrMove("id", "fieldId"));
    if id.Err? { return Err(id.error); }
    StrMoveShape(mover.State(), "type", "fieldtype");
    var fieldType := mover.Move(StrMove("type", "fieldtype"));
    if fieldType.Err? { return Err(fieldType.error); }
    r := Ok(Names(name.value.raw.s, id.value.raw.s, fieldType.value.raw.s));
  }

  /** Two bare moves assembled into a `FieldValue` written at `targetName`, on a mover. */
  method MoveFieldValueOn(mover: RawFieldMover, rawSource: string, strSource: string, targetName: string)
    returns (r: Result<FieldValue>)
    requires rawSource != strSource
    modifies mover`remaining, mover`target
    ensures r.Ok? <==> MoveFieldValue(old(mover.State()), rawSource, strSource, targetName).Ok?
    ensures r.Ok? ==> (mover.State(), r.value) == MoveFieldValue(old(mover.State()), rawSource, strSource, targetName).value
    ensures r.Err? ==> r.error == MoveFieldValue(old(mover.State()), rawSource, strSource, targetName).error
  {
    var raw := mover.Move(BareMove(rawSource));
    if raw.Err? { return Err(raw.error); }
    var str := mover.Move(BareMove(strSource));
    if str.Err? { return Err(str.error); }
    var value := FieldValue(raw.value.raw, str.value.raw);
    mover.target := mover.target[targetName := VFieldValue(value)];
    r := Ok(value);
  }

  /** The four value moves, on a mover. */
  method MoveValuesOn(mover: RawFieldMover) returns (r: Result<(FieldValue, FieldValue)>)
    modifies mover`remaining, mover`target
    ensures r.Ok? <==> MoveValues(old(mover.State())).Ok?
    ensures r.Ok? ==> (mover.State(), r.value.0, r.value.1) == MoveValues(old(mover.State())).value
    ensures r.Err? ==> r.error == MoveValues(old(mover.State())).error
  {
    var oldValue := MoveFieldValueOn(mover, "from", "fromString", "old");
    if oldValue.Err? { return Err(oldValue.error); }
    var newValue := MoveFieldValueOn(mover, "to", "toString", "new");
    if newValue.Err? { return Err(newValue.error); }
    r := Ok((oldValue.value, newValue.value));
  }

  /** The seven moves, on a mover. */
  method MoveFieldChangeOn(mover: RawFieldMover) returns (r: Result<FieldChange>)
    modifies mover`remaining, mover`target
    ensures r.Ok? <==> MoveFieldChange(old(mover.State())).Ok?
    ensures r.Ok? ==> (mover.State(), r.value) == MoveFieldChange(old(mover.State())).value
    ensures r.Err? ==> r.error == MoveFieldChange(old(mover.State())).error
  {
    var names := MoveNamesOn(mover);
    if names.Err? { return Err(names.error); }
    var values := MoveValuesOn(mover);
    if values.Err? { return Err(values.error); }
    r := Ok(FieldChange(names.value.name, names.value.id, names.value.fieldType,
                        values.value.0, values.value.1, map[]));
  }

  /** `FieldChange.from_raw` with its `_collect_ctor_args_from_raw`. */
  method FieldChangeFromRaw(raw: RawMap) returns (r: Result<FieldChange>)
    ensures r == DecodeFieldChange(raw)
  {
    var mover := new RawFieldMover(FieldChangeKind, raw);
    var moved := MoveFieldChangeOn(mover);
    if moved.Err? { return Err(moved.error); }
    var extra := mover.CheckExtra(true);
    if extra.Err? { return Err(extra.error); }
    r := Ok(moved.value.(extras := mover.remaining));
  }

  // ----- Change -----

  /** `int(value)` as the `id` filter: the move lets only an `int` (or a
      `bool`) or a `str` through; a string that is not a literal raises a
      `ValueError`, which is not a `RawFieldValueError` and so escapes. */
  function IntFilter(v: Raw): (r: Filtered)
    ensures r.Pass? ==> r.value.VInt?
    ensures !r.Reject?
  {
    match v
    case Int(i) => Pass(VInt(i))
    case Bool(b) => Pass(VInt(if b then 1 else 0))
    case Str(s) =>
      (match PyInt.ParseInt(s)
       case Some(i) => Pass(VInt(i))
       case None => Raise(ValueError(s)))
    case _ => Raise(TypeError(TypeOf(v)))
  }

  /** A decoder of one item: `FieldChange.from_raw`. The fold below is stated
      for any decoder, so its properties do not depend on the decoder's
      internals. */
  type FieldDecoder = RawMap -> Result<FieldChange>

  /** What folding the items has produced so far: the fields collected, or
      the outcome that stopped the fold. */
  datatype Fold = Collected(fields: map<string, FieldChange>) | Stopped(outcome: Filtered)

  /** One iteration of `__convert_items_to_fields`. */
  function AddItem(acc: Fold, item: Raw, decode: FieldDecoder): (r: Fold)
    ensures acc.Stopped? ==> r == acc
    ensures acc.Collected? && r.Stopped? ==> !r.outcome.Pass?
  {
    match acc
    case Stopped(_) => acc
    case Collected(fields) =>
      if !item.Map? then Stopped(Raise(TypeError(TypeOf(item))))
      else
        match decode(item.fields)
        case Err(e) => Stopped(if IsInvalidRawData(e) then Reject(Because(e)) else Raise(e))
        case Ok(field) =>
          if field.id in fields then Stopped(Reject(DuplicateField(fields[field.id], field)))
          else Collected(fields[field.id := field])
  }

  /** The loop of `__convert_items_to_fields` over the items. */
  function FoldItems(items: seq<Raw>, decode: FieldDecoder): (r: Fold)
    ensures r.Stopped? ==> !r.outcome.Pass?
  {
    if |items| == 0 then Collected(map[])
    else AddItem(FoldItems(items[..|items| - 1], decode), items[|items| - 1], decode)
  }

  /** `__convert_items_to_fields` with a given item decoder: the collected
      fields, or `EmptyChange` when there are none. */
  function ConvertWith(items: seq<Raw>, decode: FieldDecoder): (r: Filtered)
    ensures r.Pass? ==> r.value.VFields?
  {
    match FoldItems(items, decode)
    case Stopped(outcome) => outcome
    case Collected(fields) =>
      if fields == map[] then Reject(EmptyChange) else Pass(VFields(fields))
  }

  /** `__convert_items_to_fields`: items decoded by `FieldChange.from_raw`. */
  function ConvertItemsToFields(items: seq<Raw>): (r: Filtered)
    ensures r.Pass? ==> r.value.VFields?
  {
    ConvertWith(items, DecodeFieldChange)
  }

  /** The `items` filter: iterates the value. A string yields one-character
      strings and a dict yields its keys, none of which is a mapping, so any
      such element raises the `TypeError` of `check_type(raw, Mapping)`. */
  function ItemsFilter(v: Raw): (r: Filtered)
    ensures r.Pass? ==> r.value.VFields?
  {
    match v
    case Seq(items) => ConvertItemsToFields(items)
    case Str(s) => if s == "" then Reject(EmptyChange) else Raise(TypeError(StrType))
    case Map(m) => if m == map[] then Reject(EmptyChange) else Raise(TypeError(StrType))
    case _ => Raise(TypeError(TypeOf(v)))
  }

  /** `mover.move('id', type=(int, str), filter=int)`. */
  function IdMove(): MoveSpec
  {
    MoveSpec("id", None, Some(Several([Real(IntType), Real(StrType)])), Some(IntFilter), true)
  }

  /** `mover.move('fields', source_name='items', type=Iterable, filter=...)`. */
  function ItemsMove(): MoveSpec
  {
    MoveSpec("fields", Some("items"), Some(One(Real(IterableAbc))), Some(ItemsFilter), true)
  }

  /** `Change.from_raw(raw)`, strict. */
  function DecodeChange(raw: RawMap): (r: Result<Change>)
  {
    var id :- MoveStep(Open(ChangeKind, raw), IdMove());
    var fields :- MoveStep(id.0, ItemsMove());
    var extras :- Close(fields.0, Strict);
    Ok(Change(id.1.i, fields.1.fields, extras))
  }

  /** The field change an item decodes to, if any. */
  function ItemField(item: Raw, decode: FieldDecoder): Option<FieldChange>
  {
    if item.Map? && decode(item.fields).Ok? then Some(decode(item.fields).value) else None
  }

  /** Once the fold has stopped, later items change nothing: the first
      failing item decides the outcome. */
  lemma {:induction false} FoldStopsForGood(items: seq<Raw>, more: seq<Raw>, decode: FieldDecoder)
    requires FoldItems(items, decode).Stopped?
    ensures FoldItems(items + more, decode) == FoldItems(items, decode)
  {
    if |more| > 0 {
      var all := items + more;
      assert all[..|all| - 1] == items + more[..|more| - 1];
      FoldStopsForGood(items, more[..|more| - 1], decode);
    } else {
      assert items + more == items;
    }
  }

  /**
   * While the fold goes on, every item so far decoded to a field change, the
   * map holds each of them under its own field ID, and no two items shared
   * an ID: the map has one entry per item.
   */
  lemma {:induction false} CollectedFieldsKeyedById(items: seq<Raw>, decode: FieldDecoder)
    requires FoldItems(items, decode).Collected?
    ensures var fields := FoldItems(items, decode).fields;
            && |fields| == |items|
            && (forall k | k in fields :: fields[k].id == k)
            && (forall i | 0 <= i < |items| ::
                  ItemField(items[i], decode).Some? && ItemField(items[i], decode).value.id in fields
                  && fields[ItemField(items[i], decode).value.id] == ItemField(items[i], decode).value)
            && (forall k | k in fields :: exists i :: 0 <= i < |items| && ItemField(items[i], decode) == Some(fields[k]))
  {
    if |items| > 0 {
      var init := items[..|items| - 1];
      var last := items[|items| - 1];
      assert FoldItems(init, decode).Collected?;
      CollectedFieldsKeyedById(init, decode);
      var before := FoldItems(init, decode).fields;
      var field := decode(last.fields).value;
      assert field.id !in before;
      assert ItemField(last, decode) == Some(field);
      forall i | 0 <= i < |items|
        ensures ItemField(items[i], decode).Some? && ItemField(items[i], decode).value.id in FoldItems(items, decode).fields
                && FoldItems(items, decode).fields[ItemField(items[i], decode).value.id] == ItemField(items[i], decode).value
      {
        if i < |items| - 1 {
          assert items[i] == init[i];
        }
      }
      var fields := FoldItems(items, decode).fields;
      forall k | k in fields
        ensures exists i :: 0 <= i < |items| && ItemField(items[i], decode) == Some(fields[k])
      {
        if k == field.id {
          assert ItemField(items[|items| - 1], decode) == Some(fields[k]);
        } else {
          var i :| 0 <= i < |init| && ItemField(init[i], decode) == Some(before[k]);
          assert items[i] == init[i];
        }
      }
    }
  }

  /** A successful conversion holds one field change per item, keyed by its
      field ID; so two items never share an ID in the result. */
  lemma FieldsKeyedById(items: seq<Raw>, decode: FieldDecoder)
    requires ConvertWith(items, decode).Pass?
    ensures var fields := ConvertWith(items, decode).value.fields;
            && 0 < |fields| == |items|
            && (forall k | k in fields :: fields[k].id == k)
            && (forall i | 0 <= i < |items| ::
                  ItemField(items[i], decode).Some? && ItemField(items[i], decode).value.id in fields
                  && fields[ItemField(items[i], decode).value.id] == ItemField(items[i], decode).value)
  {
    CollectedFieldsKeyedById(items, decode);
  }

  /**
   * A `DuplicateField` names two field changes with the same ID: the first
   * from an earlier item, the second from a later one.
   */
  lemma {:induction false} DuplicateFieldNamesBothItems(items: seq<Raw>, first: FieldChange, second: FieldChange, decode: FieldDecoder)
    requires FoldItems(items, decode) == Stopped(Reject(DuplicateField(first, second)))
    ensures first.id == second.id
    ensures exists i, j :: 0 <= i < j < |items| && ItemField(items[i], decode) == Some(first)
                                                 && ItemField(items[j], decode) == Some(second)
  {
    var init := items[..|items| - 1];
    var j := |items| - 1;
    if FoldItems(init, decode).Stopped? {
      DuplicateFieldNamesBothItems(init, first, second, decode);
      var i0, j0 :| 0 <= i0 < j0 < |init| && ItemField(init[i0], decode) == Some(first)
                                           && ItemField(init[j0], decode) == Some(second);
      assert items[i0] == init[i0] && items[j0] == init[j0];
    } else {
      DuplicateAtLastItem(init, items[j], first, second, decode);
      var i :| 0 <= i < |init| && ItemField(init[i], decode) == Some(first);
      assert items[i] == init[i] && items[j] == items[j];
      assert init + [items[j]] == items;
    }
  }

  /** The case of `DuplicateFieldNamesBothItems` where the last item is the
      repeated one. */
  lemma DuplicateAtLastItem(init: seq<Raw>, last: Raw, first: FieldChange, second: FieldChange, decode: FieldDecoder)
    requires FoldItems(init, decode).Collected?
    requires AddItem(FoldItems(init, decode), last, decode) == Stopped(Reject(DuplicateField(first, second)))
    ensures first.id == second.id && ItemField(last, decode) == Some(second)
    ensures exists i :: 0 <= i < |init| && ItemField(init[i], decode) == Some(first)
  {
    CollectedFieldsKeyedById(init, decode);
  }

  /** When the fold stops at item `i`, that stop is the outcome. */
  lemma StopDecides(items: seq<Raw>, i: nat, decode: FieldDecoder)
    requires i < |items| && FoldItems(items[..i + 1], decode).Stopped?
    ensures ConvertWith(items, decode) == FoldItems(items[..i + 1], decode).outcome
  {
    FoldStopsForGood(items[..i + 1], items[i + 1..], decode);
    assert items[..i + 1] + items[i + 1..] == items;
  }

  /** `__convert_items_to_fields` on a list: the loop, each item decoded by
      `FieldChangeFromRaw`. */
  method ConvertItems(items: seq<Raw>) returns (r: Filtered)
    ensures r == ConvertItemsToFields(items)
  {
    var fields: map<string, FieldChange> := map[];
    for i := 0 to |items|
      invariant FoldItems(items[..i], DecodeFieldChange) == Collected(fields)
    {
      assert items[..i + 1][..i] == items[..i];
      var item := items[i];
      if !item.Map? {
        StopDecides(items, i, DecodeFieldChange);
        return Raise(TypeError(TypeOf(item)));
      }
      var decoded := FieldChangeFromRaw(item.fields);
      if decoded.Err? {
        StopDecides(items, i, DecodeFieldChange);
        return if IsInvalidRawData(decoded.error) then Reject(Because(decoded.error)) else Raise(decoded.error);
      }
      var field := decoded.value;
      if field.id in fields {
        StopDecides(items, i, DecodeFieldChange);
        return Reject(DuplicateField(fields[field.id], field));
      }
      fields := fields[field.id := field];
    }
    assert items[..|items|] == items;
    r := if fields == map[] then Reject(EmptyChange) else Pass(VFields(fields));
  }

  /** `Change.from_raw` with its `_collect_ctor_args_from_raw`. */
  method ChangeFromRaw(raw: RawMap) returns (r: Result<Change>)
    ensures r == DecodeChange(raw)
  {
    var mover := new RawFieldMover(ChangeKind, raw);
    ghost var first := MoveStep(Open(ChangeKind, raw), IdMove());
    var id := mover.Move(IdMove());
    assert id == first.result && mover.State() == first.state;
    if id.Err? {
      assert DecodeChange(raw) == Err(id.error);
      return Err(id.error);
    }
    assert id.value.VInt?;
    ghost var second := MoveStep(first.state, ItemsMove());
    var fields := mover.Move(ItemsMove());
    assert fields == second.result && mover.State() == second.state;
    if fields.Err? {
      assert DecodeChange(raw) == Err(fields.error);
      return Err(fields.error);
    }
    assert fields.value.VFields?;
    var extra := mover.CheckExtra(true);
    assert extra.Err? <==> Close(second.state, Strict).Err?;
    if extra.Err? { return Err(extra.error); }
    r := Ok(Change(id.value.i, fields.value.fields, mover.remaining));
  }

  /** A decoded changelog entry had exactly `id` and `items`; its ID is
      `int(id)` and its fields are what the items filter made of `items`. */
  lemma ChangeDecodedFrom(raw: RawMap)
    requires DecodeChange(raw).Ok?
    ensures "id" in raw && "items" in raw && raw.Keys <= {"id", "items"}
    ensures IntFilter(raw["id"]) == Pass(VInt(DecodeChange(raw).value.id))
    ensures ItemsFilter(raw["items"]) == Pass(VFields(DecodeChange(raw).value.fields))
    ensures DecodeChange(raw).value.extras == map[]
  {
    var id := MoveStep(Open(ChangeKind, raw), IdMove());
    var fields := MoveStep(id.state, ItemsMove());
    assert fields.state.remaining == raw - {"id"} - {"items"};
    NothingLeftOutside(raw, {"id", "items"});
    assert raw - {"id"} - {"items"} == raw - {"id", "items"};
  }

  /** The ID accepts an `int`, a `bool` or a `str`. */
  lemma IdTypes(v: Raw)
    ensures Matches(v, IdMove().expected.value) <==> v.Int? || v.Bool? || v.Str?
  {
    var specs := Listed(IdMove().expected.value);
    assert specs == [Real(IntType), Real(StrType)];
    if v.Int? || v.Bool? {
      assert Accepts(v, specs[0]);
    } else if v.Str? {
      assert Accepts(v, specs[1]);
    }
  }

  /** A string ID that is not an integer literal raises the `ValueError` of
      `int(...)`, which is not wrapped in `InvalidRawFieldValue`. */
  lemma IdNotALiteral(raw: RawMap, s: string)
    requires "id" in raw && raw["id"] == Str(s) && PyInt.ParseInt(s).None?
    ensures DecodeChange(raw) == Err(ValueError(s))
  {
    IdTypes(raw["id"]);
  }

  /** The ID filter gives back the integer that a decimal literal spells,
      whatever whitespace surrounds it, and an `int` ID unchanged. */
  lemma IntFilterReadsLiterals(n: int, before: string, after: string)
    requires forall i :: 0 <= i < |before| ==> PyInt.IsSpace(before[i])
    requires forall i :: 0 <= i < |after| ==> PyInt.IsSpace(after[i])
    ensures IntFilter(Str(before + PyInt.ShowInt(n) + after)) == Pass(VInt(n))
    ensures IntFilter(Int(n)) == Pass(VInt(n))
  {
    PyInt.ParsePaddedShowInt(n, before, after);
  }

  /** With an ID the filter reads as an integer (an `int`, a `bool` or a
      literal `str`), a rejection by the items filter, whatever the items
      value, is reported as an invalid `items` value of the changelog entry,
      carrying the fault. */
  lemma ItemsRejected(raw: RawMap, fault: ValueFault)
    requires "id" in raw && IntFilter(raw["id"]).Pass?
    requires "items" in raw && ItemsFilter(raw["items"]) == Reject(fault)
    ensures DecodeChange(raw) == Err(InvalidRawFieldValue(raw, ChangeKind, "items", raw["items"], fault))
  {
    IdTypes(raw["id"]);
    SingleIsOneElementList(raw["items"], Real(IterableAbc));
    var id := MoveStep(Open(ChangeKind, raw), IdMove());
    assert id.result.Ok?;
    assert "items" in id.state.remaining;
  }

  /** An empty `items` list, string or dict is an empty change. */
  lemma EmptyItemsIsEmptyChange(raw: RawMap)
    requires "id" in raw && IntFilter(raw["id"]).Pass?
    requires "items" in raw && raw["items"] in {Seq([]), Str(""), Map(map[])}
    ensures DecodeChange(raw) == Err(InvalidRawFieldValue(raw, ChangeKind, "items", raw["items"], EmptyChange))
  {
    ItemsRejected(raw, EmptyChange);
  }

  /** An item that does not decode stops the conversion with a bare
      `RawFieldValueError` raised from the item's error. */
  lemma FailingItemIsWrapped(item: RawMap, rest: seq<Raw>)
    requires DecodeFieldChange(item).Err?
    ensures ConvertItemsToFields([Map(item)] + rest) == Reject(Because(DecodeFieldChange(item).error))
  {
    var items := [Map(item)] + rest;
    assert items[..1] == [Map(item)];
    assert items[..1][..0] == [];
    StopDecides(items, 0, DecodeFieldChange);
  }
}

=== FILE: issuelink.dfy ===
/**
 * The issue-link decoders of jirax/issuelink.py: an `IssueLinkType` from six
 * raw fields, and an `IssueLink` from five, its `issueLinkType` field decoded
 * as a nested issue link type.
 *
 * Both decoders run strict, as their only caller (the `issueLink` filter of
 * the webhook events) uses `from_raw`'s default.
 */
module IssueLinks {
  import opened Wrappers
  import opened Util
  import opened Records
  import opened RawData

  /** `IssueLinkType.KIND` and `IssueLink.KIND`. */
  const LinkTypeKind := "issue link type"
  const LinkKind := "issue link"

  /** An `int` check admits a `bool`; the model stores it as 0 or 1. */
  function IntValue(v: Raw): int
    requires IsInstance(v, IntType)
  {
    if v.Int? then v.i else if v.b then 1 else 0
  }

  // ----- IssueLinkType -----

  /** The raw fields of an issue link type. */
  const LinkTypeFields: set<string> :=
    {"id", "name", "outwardName", "inwardName", "isSubTaskLinkType", "isSystemLinkType"}

  /** The six fields are present, each of its type. */
  predicate HasLinkTypeFields(m: RawMap)
  {
    && "id" in m && IsInstance(m["id"], IntType)
    && "name" in m && m["name"].Str?
    && "outwardName" in m && m["outwardName"].Str?
    && "inwardName" in m && m["inwardName"].Str?
    && "isSubTaskLinkType" in m && m["isSubTaskLinkType"].Bool?
    && "isSystemLinkType" in m && m["isSystemLinkType"].Bool?
  }

  /** Exactly the six fields, each of its type. */
  predicate IsLinkTypeShape(raw: RawMap)
  {
    HasLinkTypeFields(raw) && raw.Keys <= LinkTypeFields
  }

  /** The link type a raw map with the six fields describes, extras aside. */
  function LinkTypeOf(m: RawMap): IssueLinkType
    requires HasLinkTypeFields(m)
  {
    IssueLinkType(IntValue(m["id"]), m["name"].s, m["outwardName"].s, m["inwardName"].s,
                  m["isSubTaskLinkType"].b, m["isSystemLinkType"].b, map[])
  }

  /** The six moves of `IssueLinkType._collect_ctor_args_from_raw`, in order. */
  const LinkTypeMoves: seq<TypedField> := [
    TypedField("id", "id", IntType),
    TypedField("name", "name", StrType),
    TypedField("outward", "outwardName", StrType),
    TypedField("inward", "inwardName", StrType),
    TypedField("is_subtask", "isSubTaskLinkType", BoolType),
    TypedField("is_system", "isSystemLinkType", BoolType)]

  /** The six moves pop six different fields, exactly the link type's fields. */
  lemma LinkTypeMovesPopTheirFields()
    ensures DistinctSources(LinkTypeMoves)
    ensures TypedSources(LinkTypeMoves) == LinkTypeFields
  {
    var ms := LinkTypeMoves;
    assert ms[0].source == "id" && ms[1].source == "name" && ms[2].source == "outwardName";
    assert ms[3].source == "inwardName" && ms[4].source == "isSubTaskLinkType" && ms[5].source == "isSystemLinkType";
  }

  /** The six moves succeed exactly on a map holding the six fields with
      their types. */
  lemma LinkTypeMovesAccept(m: RawMap)
    ensures HasLinkTypeFields(m) <==>
              forall i :: 0 <= i < |LinkTypeMoves| ==>
                LinkTypeMoves[i].source in m && IsInstance(m[LinkTypeMoves[i].source], LinkTypeMoves[i].t)
  {
    var ms := LinkTypeMoves;
    assert ms[0].source == "id" && ms[1].source == "name" && ms[2].source == "outwardName";
    assert ms[3].source == "inwardName" && ms[4].source == "isSubTaskLinkType" && ms[5].source == "isSystemLinkType";
    if HasLinkTypeFields(m) {
      forall i | 0 <= i < |ms| ensures ms[i].source in m && IsInstance(m[ms[i].source], ms[i].t) {
      }
    }
  }

  /** The values the six moves return: an int, three strings, two bools. */
  predicate LinkTypeValues(v: seq<Raw>)
  {
    && |v| == 6
    && IsInstance(v[0], IntType)
    && v[1].Str? && v[2].Str? && v[3].Str?
    && v[4].Bool? && v[5].Bool?
  }

  /** Values of the six moves' classes are link type values. */
  lemma LinkTypeValuesOfTypes(v: seq<Raw>)
    requires |v| == |LinkTypeMoves|
    requires forall i :: 0 <= i < |v| ==> IsInstance(v[i], LinkTypeMoves[i].t)
    ensures LinkTypeValues(v)
  {
    var ms := LinkTypeMoves;
    assert ms[0].t == IntType && ms[1].t == StrType && ms[2].t == StrType;
    assert ms[3].t == StrType && ms[4].t == BoolType && ms[5].t == BoolType;
  }

  /** The six moves, when they succeed, return values of the moved types. */
  lemma LinkTypeMovesYieldValues(st: MoverState)
    ensures MoveTypedFields(st, LinkTypeMoves).Ok? ==> LinkTypeValues(MoveTypedFields(st, LinkTypeMoves).value.1)
  {
    var r := MoveTypedFields(st, LinkTypeMoves);
    if r.Ok? {
      TypedFieldsHaveTheirTypes(st, LinkTypeMoves);
      LinkTypeValuesOfTypes(r.value.1);
    }
  }

  /** `IssueLinkType(...)` on the six moved values; `bool()` on the flags. */
  function BuildLinkType(v: seq<Raw>): IssueLinkType
    requires LinkTypeValues(v)
  {
    IssueLinkType(IntValue(v[0]), v[1].s, v[2].s, v[3].s, Truthy(v[4]), Truthy(v[5]), map[])
  }

  /** `IssueLinkType._collect_ctor_args_from_raw`: the six moves, then the
      constructor. */
  function MoveLinkType(st: MoverState): (r: Result<(MoverState, IssueLinkType)>)
    ensures r.Ok? ==> r.value.0.kind == st.kind && r.value.0.source == st.source
    ensures r.Err? ==> RaisedByMover(r.error, st.kind, st.source)
  {
    LinkTypeMovesYieldValues(st);
    var moved :- MoveTypedFields(st, LinkTypeMoves);
    Ok((moved.0, BuildLinkType(moved.1)))
  }

  /** The six moves succeed exactly on the six fields with their types, build
      the link type those fields describe, and pop exactly those fields. */
  lemma LinkTypeMoved(st: MoverState)
    ensures var r := MoveLinkType(st);
            && (r.Ok? <==> HasLinkTypeFields(st.remaining))
            && (r.Ok? ==> r.value.1 == LinkTypeOf(st.remaining) && r.value.0.remaining == st.remaining - LinkTypeFields)
  {
    LinkTypeMovesPopTheirFields();
    LinkTypeMovesAccept(st.remaining);
    TypedFieldsMoved(st, LinkTypeMoves);
  }

  /** `IssueLinkType.from_raw(raw)`, strict. */
  function DecodeIssueLinkType(raw: RawMap): (r: Result<IssueLinkType>)
    ensures r.Err? ==> RaisedByMover(r.error, LinkTypeKind, raw)
  {
    var moved :- MoveLinkType(Open(LinkTypeKind, raw));
    var extras :- Close(moved.0, Strict);
    Ok(moved.1.(extras := extras))
  }

  /** An issue link type decodes exactly from a raw map with the six fields
      and no other, and then holds their values. */
  lemma LinkTypeDecodesExactlyItsShape(raw: RawMap)
    ensures DecodeIssueLinkType(raw).Ok? <==> IsLinkTypeShape(raw)
    ensures DecodeIssueLinkType(raw).Ok? ==> DecodeIssueLinkType(raw).value == LinkTypeOf(raw)
  {
    LinkTypeMoved(Open(LinkTypeKind, raw));
    NothingLeftOutside(raw, LinkTypeFields);
  }

  /** `IssueLinkType._collect_ctor_args_from_raw` on a mover. */
  method MoveLinkTypeOn(mover: RawFieldMover) returns (r: Result<IssueLinkType>)
    modifies mover`remaining, mover`target
    ensures r.Ok? <==> MoveLinkType(old(mover.State())).Ok?
    ensures r.Ok? ==> (mover.State(), r.value) == MoveLinkType(old(mover.State())).value
    ensures r.Err? ==> r.error == MoveLinkType(old(mover.State())).error
  {
    LinkTypeMovesYieldValues(mover.State());
    var moved := MoveTypedFieldsOn(mover, LinkTypeMoves);
    if moved.Err? { return Err(moved.error); }
    r := Ok(BuildLinkType(moved.value));
  }

  /** `IssueLinkType.from_raw` with its `_collect_ctor_args_from_raw`. */
  method IssueLinkTypeFromRaw(raw: RawMap) returns (r: Result<IssueLinkType>)
    ensures r == DecodeIssueLinkType(raw)
  {
    var mover := new RawFieldMover(LinkTypeKind, raw);
    var moved := MoveLinkTypeOn(mover);
    if moved.Err? { return Err(moved.error); }
    var extra := mover.CheckExtra(true);
    if extra.Err? { return Err(extra.error); }
    r := Ok(moved.value.(extras := mover.remaining));
  }

  // ----- IssueLink -----

  /** A decoder of the nested link type; the link decoder is stated for any
      such decoder and used with `DecodeIssueLinkType`. */
  type LinkTypeDecoder = RawMap -> Result<IssueLinkType>

  /** A decoder whose every error is an `InvalidRawData`. */
  ghost predicate RaisesOnlyData(decode: LinkTypeDecoder)
  {
    forall m :: decode(m).Err? ==> IsInvalidRawData(decode(m).error)
  }

  lemma LinkTypeDecoderRaisesOnlyData()
    ensures RaisesOnlyData(DecodeIssueLinkType)
  {
    forall m | DecodeIssueLinkType(m).Err? ensures IsInvalidRawData(DecodeIssueLinkType(m).error) {
    }
  }

  /** `IssueLink.__convert_link_type`: decode the nested link type; an
      `InvalidRawData` becomes a rejected value, anything else propagates.
      `from_raw` itself raises `TypeError` on a value that is not a mapping. */
  function LinkTypeConverter(decode: LinkTypeDecoder): Filter
  {
    (v: Raw) => if !v.Map? then Raise(TypeError(TypeOf(v)))
         else match decode(v.fields)
           case Ok(t) => Pass(VLinkType(t))
           case Err(e) => if IsInvalidRawData(e) then Reject(Because(e)) else Raise(e)
  }

  /** `mover.move('type', source_name='issueLinkType', type=dict, filter=...)`. */
  function LinkTypeMove(decode: LinkTypeDecoder): MoveSpec
  {
    FilteredMove("type", "issueLinkType", DictType, LinkTypeConverter(decode))
  }

  /** The moves after it: the two issue IDs and the system flag. */
  const LinkEndMoves: seq<TypedField> := [
    TypedField("source", "sourceIssueId", IntType),
    TypedField("destination", "destinationIssueId", IntType),
    TypedField("is_system", "systemLink", BoolType)]

  /** The raw fields of an issue link. */
  const LinkFields: set<string> := {"id", "issueLinkType", "sourceIssueId", "destinationIssueId", "systemLink"}

  /** The two issue IDs and the flag are present, each of its type. */
  predicate HasLinkEnds(m: RawMap)
  {
    && "sourceIssueId" in m && IsInstance(m["sourceIssueId"], IntType)
    && "destinationIssueId" in m && IsInstance(m["destinationIssueId"], IntType)
    && "systemLink" in m && m["systemLink"].Bool?
  }

  /** The five fields are present, each of its type, and the nested link
      type decodes. */
  predicate HasLinkFields(m: RawMap, decode: LinkTypeDecoder)
  {
    && "id" in m && IsInstance(m["id"], IntType)
    && "issueLinkType" in m && m["issueLinkType"].Map? && decode(m["issueLinkType"].fields).Ok?
    && HasLinkEnds(m)
  }

  /** Exactly the five fields, each of its type. */
  predicate IsLinkShape(raw: RawMap, decode: LinkTypeDecoder)
  {
    HasLinkFields(raw, decode) && raw.Keys <= LinkFields
  }

  /** The link a raw map with the five fields describes, extras aside. */
  function LinkOf(m: RawMap, decode: LinkTypeDecoder): IssueLink
    requires HasLinkFields(m, decode)
  {
    IssueLink(IntValue(m["id"]), decode(m["issueLinkType"].fields).value,
              IntValue(m["sourceIssueId"]), IntValue(m["destinationIssueId"]), m["systemLink"].b, map[])
  }

  /** The move of `issueLinkType`, returning the decoded link type. */
  function MoveLinkTypeField(st: MoverState, decode: LinkTypeDecoder): (r: Result<(MoverState, IssueLinkType)>)
    requires RaisesOnlyData(decode)
    ensures r.Ok? ==> r.value.0.kind == st.kind && r.value.0.source == st.source
    ensures r.Err? ==> RaisedByMover(r.error, st.kind, st.source)
  {
    FilteredMoveOutcome(st, "type", "issueLinkType", DictType, LinkTypeConverter(decode));
    var moved :- MoveStep(st, LinkTypeMove(decode));
    Ok((moved.0, moved.1.linkType))
  }

  /** The move of `issueLinkType` succeeds exactly on a mapping that decodes
      as a link type, returns that link type, and pops the field; a mapping
      that does not decode is reported as an invalid value of the field,
      carrying the nested error. */
  lemma LinkTypeFieldMoved(st: MoverState, decode: LinkTypeDecoder)
    requires RaisesOnlyData(decode)
    ensures var r := MoveLinkTypeField(st, decode);
            && (r.Ok? <==> ("issueLinkType" in st.remaining && st.remaining["issueLinkType"].Map?
                            && decode(st.remaining["issueLinkType"].fields).Ok?))
            && (r.Ok? ==> && r.value.1 == decode(st.remaining["issueLinkType"].fields).value
                          && r.value.0.remaining == st.remaining - {"issueLinkType"})
  {
    FilteredMoveOutcome(st, "type", "issueLinkType", DictType, LinkTypeConverter(decode));
  }

  /** A link type field that is a mapping but does not decode is reported as
      an invalid value of the link, caused by the nested error. */
  lemma LinkTypeFieldRejected(st: MoverState, decode: LinkTypeDecoder)
    requires RaisesOnlyData(decode)
    requires "issueLinkType" in st.remaining && st.remaining["issueLinkType"].Map?
    requires decode(st.remaining["issueLinkType"].fields).Err?
    ensures MoveLinkTypeField(st, decode) ==
              Err(InvalidRawFieldValue(st.source, st.kind, "issueLinkType", st.remaining["issueLinkType"],
                                       Because(decode(st.remaining["issueLinkType"].fields).error)))
  {
    FilteredMoveOutcome(st, "type", "issueLinkType", DictType, LinkTypeConverter(decode));
  }

  /** The three closing moves, returning the two issue IDs and the flag. */
  function MoveLinkEnds(st: MoverState): (r: Result<(MoverState, int, int, bool)>)
    ensures r.Ok? ==> r.value.0.kind == st.kind && r.value.0.source == st.source
    ensures r.Err? ==> RaisedByMover(r.error, st.kind, st.source)
  {
    LinkEndMovesYieldValues(st);
    var moved :- MoveTypedFields(st, LinkEndMoves);
    var v := moved.1;
    Ok((moved.0, IntValue(v[0]), IntValue(v[1]), v[2].b))
  }

  /** Values of the three closing moves: two ints and a bool. */
  predicate LinkEndValues(v: seq<Raw>)
  {
    |v| == 3 && IsInstance(v[0], IntType) && IsInstance(v[1], IntType) && v[2].Bool?
  }

  lemma LinkEndValuesOfTypes(v: seq<Raw>)
    requires |v| == |LinkEndMoves|
    requires forall i :: 0 <= i < |v| ==> IsInstance(v[i], LinkEndMoves[i].t)
    ensures LinkEndValues(v)
  {
    var ms := LinkEndMoves;
    assert ms[0].t == IntType && ms[1].t == IntType && ms[2].t == BoolType;
  }

  /** The closing moves, when they succeed, return values of their types. */
  lemma LinkEndMovesYieldValues(st: MoverState)
    ensures MoveTypedFields(st, LinkEndMoves).Ok? ==> LinkEndValues(MoveTypedFields(st, LinkEndMoves).value.1)
  {
    var r := MoveTypedFields(st, LinkEndMoves);
    if r.Ok? {
      TypedFieldsHaveTheirTypes(st, LinkEndMoves);
      LinkEndValuesOfTypes(r.value.1);
    }
  }

  /** The closing moves pop three different fields, the ones named. */
  lemma LinkEndMovesPopTheirFields()
    ensures DistinctSources(LinkEndMoves)
    ensures TypedSources(LinkEndMoves) == {"sourceIssueId", "destinationIssueId", "systemLink"}
  {
    var ms := LinkEndMoves;
    assert ms[0].source == "sourceIssueId" && ms[1].source == "destinationIssueId" && ms[2].source == "systemLink";
  }

  /** The closing moves accept exactly the two issue IDs and the flag with
      their types. */
  lemma LinkEndMovesAccept(m: RawMap)
    ensures HasLinkEnds(m) <==>
            forall i :: 0 <= i < |LinkEndMoves| ==>
              LinkEndMoves[i].source in m && IsInstance(m[LinkEndMoves[i].source], LinkEndMoves[i].t)
  {
    var ms := LinkEndMoves;
    assert ms[0].source == "sourceIssueId" && ms[1].source == "destinationIssueId" && ms[2].source == "systemLink";
    assert ms[0].t == IntType && ms[1].t == IntType && ms[2].t == BoolType;
  }

  /** The closing moves succeed exactly on the two issue IDs and the flag
      with their types, return their values and pop exactly them. */
  lemma LinkEndsMoved(st: MoverState)
    ensures var r := MoveLinkEnds(st);
            && (r.Ok? <==> HasLinkEnds(st.remaining))
            && (r.Ok? ==> && r.value.1 == IntValue(st.remaining["sourceIssueId"])
                          && r.value.2 == IntValue(st.remaining["destinationIssueId"])
                          && r.value.3 == st.remaining["systemLink"].b
                          && r.value.0.remaining == st.remaining - {"sourceIssueId", "destinationIssueId", "systemLink"})
  {
    LinkEndMovesPopTheirFields();
    LinkEndMovesAccept(st.remaining);
    TypedFieldsMoved(st, LinkEndMoves);
    var ms := LinkEndMoves;
    assert ms[0].source == "sourceIssueId" && ms[1].source == "destinationIssueId" && ms[2].source == "systemLink";
  }

  /** `IssueLink._collect_ctor_args_from_raw`: the five moves, then the constructor. */
  function MoveLink(st: MoverState, decode: LinkTypeDecoder): (r: Result<(MoverState, IssueLink)>)
    requires RaisesOnlyData(decode)
    ensures r.Ok? ==> r.value.0.kind == st.kind && r.value.0.source == st.source
    ensures r.Err? ==> RaisedByMover(r.error, st.kind, st.source)
  {
    TypedMoveOutcome(st, "id", "id", IntType);
    var id :- MoveStep(st, TypedMove("id", "id", IntType));
    var linkType :- MoveLinkTypeField(id.0, decode);
    var ends :- MoveLinkEnds(linkType.0);
    Ok((ends.0, IssueLink(IntValue(id.1.raw), linkType.1, ends.1, ends.2, ends.3, map[])))
  }

  lemma LinkFieldsInTurn(m: RawMap)
    ensures m - {"id"} - {"issueLinkType"} - {"sourceIssueId", "destinationIssueId", "systemLink"} == m - LinkFields
  {
  }

  /** The five moves succeed exactly on the five fields with their types and
      a decodable link type, build the link those fields describe, and pop
      exactly those fields. */
  lemma LinkMoved(st: MoverState, decode: LinkTypeDecoder)
    requires RaisesOnlyData(decode)
    ensures var r := MoveLink(st, decode);
            && (r.Ok? <==> HasLinkFields(st.remaining, decode))
            && (r.Ok? ==> r.value.1 == LinkOf(st.remaining, decode) && r.value.0.remaining == st.remaining - LinkFields)
  {
    TypedMoveOutcome(st, "id", "id", IntType);
    var o := MoveStep(st, TypedMove("id", "id", IntType));
    if o.result.Ok? {
      LinkTailMoved(o.state, decode);
      LinkFieldsInTurn(st.remaining);
    }
  }

  /** The moves after the ID: the link type, then the closing moves. */
  lemma LinkTailMoved(st: MoverState, decode: LinkTypeDecoder)
    requires RaisesOnlyData(decode)
    ensures var t := MoveLinkTypeField(st, decode);
            var m := st.remaining;
            && ((t.Ok? && MoveLinkEnds(t.value.0).Ok?) <==>
                  ("issueLinkType" in m && m["issueLinkType"].Map? && decode(m["issueLinkType"].fields).Ok?
                   && HasLinkEnds(m)))
            && (t.Ok? && MoveLinkEnds(t.value.0).Ok? ==>
                  var e := MoveLinkEnds(t.value.0).value;
                  && t.value.1 == decode(m["issueLinkType"].fields).value
                  && e.1 == IntValue(m["sourceIssueId"])
                  && e.2 == IntValue(m["destinationIssueId"])
                  && e.3 == m["systemLink"].b
                  && e.0.remaining == m - {"issueLinkType"} - {"sourceIssueId", "destinationIssueId", "systemLink"})
  {
    LinkTypeFieldMoved(st, decode);
    var t := MoveLinkTypeField(st, decode);
    if t.Ok? {
      LinkEndsMoved(t.value.0);
      LinkEndsSurviveLinkType(st.remaining);
    }
  }

  /** Popping the link type leaves the closing fields as they were. */
  lemma LinkEndsSurviveLinkType(m: RawMap)
    ensures HasLinkEnds(m - {"issueLinkType"}) <==> HasLinkEnds(m)
    ensures HasLinkEnds(m) ==>
              && (m - {"issueLinkType"})["sourceIssueId"] == m["sourceIssueId"]
              && (m - {"issueLinkType"})["destinationIssueId"] == m["destinationIssueId"]
              && (m - {"issueLinkType"})["systemLink"] == m["systemLink"]
  {
  }

  /** `IssueLink.from_raw(raw)`, strict. */
  function DecodeIssueLink(raw: RawMap): (r: Result<IssueLink>)
    ensures r.Err? ==> RaisedByMover(r.error, LinkKind, raw)
  {
    LinkTypeDecoderRaisesOnlyData();
    var moved :- MoveLink(Open(LinkKind, raw), DecodeIssueLinkType);
    var extras :- Close(moved.0, Strict);
    Ok(moved.1.(extras := extras))
  }

  /** An issue link decodes exactly from a raw map with the five fields and
      no other, whose link type decodes, and then holds their values. */
  lemma LinkDecodesExactlyItsShape(raw: RawMap)
    ensures DecodeIssueLink(raw).Ok? <==> IsLinkShape(raw, DecodeIssueLinkType)
    ensures DecodeIssueLink(raw).Ok? ==> DecodeIssueLink(raw).value == LinkOf(raw, DecodeIssueLinkType)
  {
    LinkTypeDecoderRaisesOnlyData();
    LinkMoved(Open(LinkKind, raw), DecodeIssueLinkType);
    NothingLeftOutside(raw, LinkFields);
  }

  /** The nested link type decodes exactly when it has the link type's shape,
      so an issue link's shape is a shape within a shape. */
  lemma LinkShapeNestsLinkTypeShape(m: RawMap)
    ensures HasLinkFields(m, DecodeIssueLinkType) <==>
              && "id" in m && IsInstance(m["id"], IntType)
              && "issueLinkType" in m && m["issueLinkType"].Map? && IsLinkTypeShape(m["issueLinkType"].fields)
              && HasLinkEnds(m)
  {
    if "issueLinkType" in m && m["issueLinkType"].Map? {
      LinkTypeDecodesExactlyItsShape(m["issueLinkType"].fields);
    }
  }

  /** A link type that fails to decode makes the link invalid at its
      `issueLinkType` field, caused by the link type's own error. */
  lemma LinkTypeFailureIsWrapped(raw: RawMap)
    requires "id" in raw && IsInstance(raw["id"], IntType)
    requires "issueLinkType" in raw && raw["issueLinkType"].Map?
    requires DecodeIssueLinkType(raw["issueLinkType"].fields).Err?
    ensures var cause := DecodeIssueLinkType(raw["issueLinkType"].fields).error;
            && DecodeIssueLink(raw) == Err(InvalidRawFieldValue(raw, LinkKind, "issueLinkType", raw["issueLinkType"], Because(cause)))
            && RaisedByMover(cause, LinkTypeKind, raw["issueLinkType"].fields)
  {
    LinkTypeDecoderRaisesOnlyData();
    var st := Open(LinkKind, raw);
    TypedMoveOutcome(st, "id", "id", IntType);
    LinkTypeFieldRejected(MoveStep(st, TypedMove("id", "id", IntType)).state, DecodeIssueLinkType);
  }

  /** The ID is moved first: a link without one is reported as missing it,
      whatever else is wrong. */
  lemma MissingLinkIdComesFirst(raw: RawMap)
    requires "id" !in raw
    ensures DecodeIssueLink(raw) == Err(MissingRawField(raw, LinkKind, "id"))
  {
  }

  /** An ID that is not an `int` is reported as such, whatever else is wrong. */
  lemma MisTypedLinkIdComesFirst(raw: RawMap)
    requires "id" in raw && !IsInstance(raw["id"], IntType)
    ensures DecodeIssueLink(raw) == Err(InvalidRawFieldType(raw, LinkKind, "id", raw["id"], One(Real(IntType))))
  {
    SingleIsOneElementList(raw["id"], Real(IntType));
  }

  /** After a valid ID, a link type that is absent or not a dict is reported
      next, whatever the closing fields hold. */
  lemma LinkTypeFieldComesSecond(raw: RawMap)
    requires "id" in raw && IsInstance(raw["id"], IntType)
    requires !("issueLinkType" in raw && raw["issueLinkType"].Map?)
    ensures DecodeIssueLink(raw) ==
              Err(if "issueLinkType" !in raw then MissingRawField(raw, LinkKind, "issueLinkType")
                  else InvalidRawFieldType(raw, LinkKind, "issueLinkType", raw["issueLinkType"], One(Real(DictType))))
  {
    LinkTypeDecoderRaisesOnlyData();
    var st := Open(LinkKind, raw);
    TypedMoveOutcome(st, "id", "id", IntType);
    var id := MoveStep(st, TypedMove("id", "id", IntType));
    FilteredMoveOutcome(id.state, "type", "issueLinkType", DictType, LinkTypeConverter(DecodeIssueLinkType));
    if "issueLinkType" in raw {
      assert !IsInstance(raw["issueLinkType"], DictType);
    }
  }

  /**
   * After a valid ID and a decodable link type, the closing fields are
   * checked in the order `sourceIssueId`, `destinationIssueId`, `systemLink`:
   * the first one absent or of the wrong type is the one reported.
   */
  lemma LinkEndFailureComesLast(raw: RawMap, k: nat)
    requires "id" in raw && IsInstance(raw["id"], IntType)
    requires "issueLinkType" in raw && raw["issueLinkType"].Map? && DecodeIssueLinkType(raw["issueLinkType"].fields).Ok?
    requires k < |LinkEndMoves|
    requires forall i :: 0 <= i < k ==>
               LinkEndMoves[i].source in raw && IsInstance(raw[LinkEndMoves[i].source], LinkEndMoves[i].t)
    requires !(LinkEndMoves[k].source in raw && IsInstance(raw[LinkEndMoves[k].source], LinkEndMoves[k].t))
    ensures var f := LinkEndMoves[k];
            DecodeIssueLink(raw) ==
              Err(if f.source !in raw then MissingRawField(raw, LinkKind, f.source)
                  else InvalidRawFieldType(raw, LinkKind, f.source, raw[f.source], One(Real(f.t))))
  {
    var ends := LinkReachesEnds(raw);
    var ms := LinkEndMoves;
    assert ms[0].source == "sourceIssueId" && ms[1].source == "destinationIssueId" && ms[2].source == "systemLink";
    NotPopped(raw, "sourceIssueId");
    NotPopped(raw, "destinationIssueId");
    NotPopped(raw, "systemLink");
    if k == 1 {
      assert 0 < k;
    } else if k == 2 {
      assert 0 < k && 1 < k;
    }
    LinkEndsStopAt(ends, k);
  }

  /** A field other than the ID and the link type is still there, unchanged,
      once those two are popped. */
  lemma NotPopped(raw: RawMap, name: string)
    requires name != "id" && name != "issueLinkType"
    ensures name in raw - {"id"} - {"issueLinkType"} <==> name in raw
    ensures name in raw ==> (raw - {"id"} - {"issueLinkType"})[name] == raw[name]
  {
  }

  /** With a valid ID and a decodable link type, the closing moves run on the
      raw map less those two fields, and their failure is the link's. */
  lemma LinkReachesEnds(raw: RawMap) returns (ends: MoverState)
    requires "id" in raw && IsInstance(raw["id"], IntType)
    requires "issueLinkType" in raw && raw["issueLinkType"].Map? && DecodeIssueLinkType(raw["issueLinkType"].fields).Ok?
    ensures ends.source == raw && ends.kind == LinkKind
    ensures ends.remaining == raw - {"id"} - {"issueLinkType"}
    ensures MoveLinkEnds(ends).Err? ==> DecodeIssueLink(raw) == Err(MoveLinkEnds(ends).error)
  {
    LinkTypeDecoderRaisesOnlyData();
    var st := Open(LinkKind, raw);
    TypedMoveOutcome(st, "id", "id", IntType);
    var id := MoveStep(st, TypedMove("id", "id", IntType));
    LinkTypeFieldMoved(id.state, DecodeIssueLinkType);
    ends := MoveLinkTypeField(id.state, DecodeIssueLinkType).value.0;
  }

  /** The closing moves fail at the first of their fields that is absent or
      of the wrong type, with that move's error. */
  lemma LinkEndsStopAt(st: MoverState, k: nat)
    requires k < |LinkEndMoves|
    requires forall i :: 0 <= i < k ==>
               LinkEndMoves[i].source in st.remaining && IsInstance(st.remaining[LinkEndMoves[i].source], LinkEndMoves[i].t)
    requires !(LinkEndMoves[k].source in st.remaining && IsInstance(st.remaining[LinkEndMoves[k].source], LinkEndMoves[k].t))
    ensures MoveLinkEnds(st) == Err(TypedFieldError(st, LinkEndMoves[k]))
  {
    LinkEndMovesPopTheirFields();
    TypedFieldsStopAt(st, LinkEndMoves, k);
  }

  /** The move of `issueLinkType`, on a mover. */
  method MoveLinkTypeFieldOn(mover: RawFieldMover, decode: LinkTypeDecoder) returns (r: Result<IssueLinkType>)
    requires RaisesOnlyData(decode)
    modifies mover`remaining, mover`target
    ensures var spec := MoveLinkTypeField(old(mover.State()), decode);
            && (r.Ok? <==> spec.Ok?)
            && (r.Ok? ==> (mover.State(), r.value) == spec.value)
            && (r.Err? ==> r.error == spec.error)
  {
    FilteredMoveOutcome(mover.State(), "type", "issueLinkType", DictType, LinkTypeConverter(decode));
    var moved := mover.Move(LinkTypeMove(decode));
    if moved.Err? { return Err(moved.error); }
    r := Ok(moved.value.linkType);
  }

  /** The three closing moves, on a mover. */
  method MoveLinkEndsOn(mover: RawFieldMover) returns (r: Result<(int, int, bool)>)
    modifies mover`remaining, mover`target
    ensures var spec := MoveLinkEnds(old(mover.State()));
            && (r.Ok? <==> spec.Ok?)
            && (r.Ok? ==> (mover.State(), r.value.0, r.value.1, r.value.2) == spec.value)
            && (r.Err? ==> r.error == spec.error)
  {
    LinkEndMovesYieldValues(mover.State());
    var moved := MoveTypedFieldsOn(mover, LinkEndMoves);
    if moved.Err? { return Err(moved.error); }
    var v := moved.value;
    r := Ok((IntValue(v[0]), IntValue(v[1]), v[2].b));
  }

  /** `IssueLink._collect_ctor_args_from_raw` on a mover. */
  method MoveLinkOn(mover: RawFieldMover, decode: LinkTypeDecoder) returns (r: Result<IssueLink>)
    requires RaisesOnlyData(decode)
    modifies mover`remaining, mover`target
    ensures var spec := MoveLink(old(mover.State()), decode);
            && (r.Ok? <==> spec.Ok?)
            && (r.Ok? ==> (mover.State(), r.value) == spec.value)
            && (r.Err? ==> r.error == spec.error)
  {
    TypedMoveOutcome(mover.State(), "id", "id", IntType);
    var id := mover.Move(TypedMove("id", "id", IntType));
    if id.Err? { return Err(id.error); }
    var linkType := MoveLinkTypeFieldOn(mover, decode);
    if linkType.Err? { return Err(linkType.error); }
    var ends := MoveLinkEndsOn(mover);
    if ends.Err? { return Err(ends.error); }
    var (source, destination, isSystem) := ends.value;
    r := Ok(IssueLink(IntValue(id.value.raw), linkType.value, source, destination, isSystem, map[]));
  }

  /** `IssueLink.from_raw` with its `_collect_ctor_args_from_raw`. */
  method IssueLinkFromRaw(raw: RawMap) returns (r: Result<IssueLink>)
    ensures r == DecodeIssueLink(raw)
  {
    LinkTypeDecoderRaisesOnlyData();
    var mover := new RawFieldMover(LinkKind, raw);
    var moved := MoveLinkOn(mover, DecodeIssueLinkType);
    if moved.Err? { return Err(moved.error); }
    var extra := mover.CheckExtra(true);
    if extra.Err? { return Err(extra.error); }
    r := Ok(moved.value.(extras := mover.remaining));
  }
}

=== FILE: logging.dfy ===
/**
 * Extra logging levels. A list of level names is walked in order: a name
 * the logging library already knows keeps its level, and the names it does
 * not know are numbered evenly between the known levels around them, or 10
 * apart after the last known level. Registering a number that already has
 * a real name is a `RuntimeError`.
 *
 * The logging library's registry is modelled by its two dictionaries
 * (level to name, name to level) plus the module globals that every name
 * is bound to.
 */
module LogLevels {
  import opened Wrappers
  import PyInt

  /** The registry: `_levelToName`, `_nameToLevel`, and the module's globals. */
  datatype Levels = Levels(levelToName: map<int, string>, nameToLevel: map<string, int>, globals: map<string, int>)

  /** The `RuntimeError` raised when `level` already has the name `existing`. */
  datatype Clash = Clash(existing: string, name: string, level: int)

  /** Where a run of registrations stopped: the registry then, and the clash
      that stopped it, if any. */
  datatype Outcome = Outcome(levels: Levels, clash: Option<Clash>)

  /** The prefix of the name the library makes up for an unnamed level. */
  const Placeholder := "Level "

  predicate IsPlaceholder(s: string)
  {
    |Placeholder| <= |s| && s[..|Placeholder|] == Placeholder
  }

  /** `logging.getLevelName(level)` for a numeric level: its name, or
      "Level <n>" when it has none. */
  function LevelName(s: Levels, level: int): (name: string)
    ensures level in s.levelToName ==> name == s.levelToName[level]
    ensures level !in s.levelToName ==> IsPlaceholder(name)
  {
    if level in s.levelToName then s.levelToName[level]
    else
      var name := Placeholder + PyInt.ShowInt(level);
      assert name[..|Placeholder|] == Placeholder;
      name
  }

  /** `_add_level_name(level, name)`: a clash when the level's current name is
      not a placeholder; otherwise the name is registered both ways and bound
      as a global. */
  function AddName(s: Levels, level: int, name: string): (o: Outcome)
    ensures o.clash.Some? <==> level in s.levelToName && !IsPlaceholder(s.levelToName[level])
    ensures o.clash.Some? ==> o.levels == s && o.clash.value == Clash(s.levelToName[level], name, level)
    ensures o.clash.None? ==>
              o.levels == Levels(s.levelToName[level := name], s.nameToLevel[name := level], s.globals[name := level])
  {
    var existing := LevelName(s, level);
    if !IsPlaceholder(existing) then Outcome(s, Some(Clash(existing, name, level)))
    else Outcome(Levels(s.levelToName[level := name], s.nameToLevel[name := level], s.globals[name := level]), None)
  }

  /** The level of the `i`-th (from 1) of `k` unknown names between the known
      levels `last` and `cur`. Python's `//` floors; so does `/` here, the
      divisor being positive. */
  function Interpolated(last: int, cur: int, k: nat, i: nat): int
  {
    last + (cur - last) * i / (k + 1)
  }

  /** The unknown names before a known level `cur`, each with its level. */
  function Between(undef: seq<string>, last: int, cur: int): (pairs: seq<(string, int)>)
    ensures |pairs| == |undef|
  {
    seq(|undef|, i requires 0 <= i < |undef| => (undef[i], Interpolated(last, cur, |undef|, i + 1)))
  }

  /** The level of the `i`-th (from 1) unknown name after the last known
      level `last`. */
  function Trailing(last: int, i: nat): int
  {
    last + 10 * i
  }

  /** The unknown names after the last known level, each with its level. */
  function After(undef: seq<string>, last: int): (pairs: seq<(string, int)>)
    ensures |pairs| == |undef|
  {
    seq(|undef|, i requires 0 <= i < |undef| => (undef[i], Trailing(last, i + 1)))
  }

  /** Registers `pairs` in order, stopping at the first clash. */
  function AddAll(s: Levels, pairs: seq<(string, int)>): Outcome
    decreases |pairs|
  {
    if |pairs| == 0 then Outcome(s, None)
    else
      var o := AddName(s, pairs[0].1, pairs[0].0);
      if o.clash.Some? then o else AddAll(o.levels, pairs[1..])
  }

  /** The walk over `names`, `last` being the latest known level and `undef`
      the unknown names seen since. */
  function Numbering(s: Levels, names: seq<string>, last: int, undef: seq<string>): Outcome
    decreases |names|
  {
    if |names| == 0 then AddAll(s, After(undef, last))
    else if names[0] in s.nameToLevel then
      var cur := s.nameToLevel[names[0]];
      var o := AddAll(s.(globals := s.globals[names[0] := cur]), Between(undef, last, cur));
      if o.clash.Some? then o else Numbering(o.levels, names[1..], cur, [])
    else Numbering(s, names[1..], last, undef + [names[0]])
  }

  /** `_add_level_names(names)` from the registry `s`. */
  function LevelNumbering(s: Levels, names: seq<string>): Outcome
  {
    Numbering(s, names, 0, [])
  }

  lemma MulIsMonotonic(c: int, x: int, y: int)
    requires 0 <= c && x <= y
    ensures c * x <= c * y
  {
    assert c * y - c * x == c * (y - x);
  }

  /** `a <= b` survives division by a positive number. */
  lemma DivIsMonotonic(a: int, b: int, c: int)
    requires a <= b && 0 < c
    ensures a / c <= b / c
  {
    assert c * (b / c + 1) == c * (b / c) + c;
    if a / c > b / c {
      MulIsMonotonic(c, b / c + 1, a / c);
      assert false;
    }
  }

  /** The quotient is the only `q` leaving a remainder in `[0, c)`. */
  lemma DivIsUnique(a: int, c: int, q: int, r: int)
    requires 0 < c && a == c * q + r && 0 <= r < c
    ensures a / c == q
  {
    assert c * (a / c + 1) == c * (a / c) + c;
    assert c * (q + 1) == c * q + c;
    if a / c < q {
      MulIsMonotonic(c, a / c + 1, q);
      assert false;
    } else if a / c > q {
      MulIsMonotonic(c, q + 1, a / c);
      assert false;
    }
  }

  /** Adding at least `c` to the dividend adds at least one to the quotient. */
  lemma DivStepsUp(a: int, d: int, c: int)
    requires 0 < c <= d
    ensures a / c + 1 <= (a + d) / c
  {
    assert c * (a / c + 1) == c * (a / c) + c;
    DivIsUnique(a + c, c, a / c + 1, a % c);
    DivIsMonotonic(a + c, a + d, c);
  }

  /** An interpolated level lies in `[last, cur)`, or is `last` when the two
      known levels are equal. */
  lemma InterpolatedWithin(last: int, cur: int, k: nat, i: nat)
    requires last <= cur && 1 <= i <= k
    ensures last <= Interpolated(last, cur, k, i) <= cur
    ensures last < cur ==> Interpolated(last, cur, k, i) < cur
    ensures last == cur ==> Interpolated(last, cur, k, i) == last
  {
    var d := cur - last;
    MulIsMonotonic(d, 0, i);
    DivIsMonotonic(0, d * i, k + 1);
    if last < cur {
      MulIsMonotonic(d, i, k);
      assert (k + 1) * (d - 1) + k == d * k + d - 1;
      DivIsUnique(d * k + d - 1, k + 1, d - 1, k);
      DivIsMonotonic(d * i, d * k + d - 1, k + 1);
    } else {
      assert d * i == 0;
    }
  }

  /** Interpolated levels never go down, and go strictly up when the gap
      leaves room for every name. */
  lemma InterpolatedIsOrdered(last: int, cur: int, k: nat, i: nat, j: nat)
    requires last <= cur && 1 <= i < j <= k
    ensures Interpolated(last, cur, k, i) <= Interpolated(last, cur, k, j)
    ensures k + 1 <= cur - last ==> Interpolated(last, cur, k, i) < Interpolated(last, cur, k, j)
  {
    var d := cur - last;
    MulIsMonotonic(d, i, j);
    DivIsMonotonic(d * i, d * j, k + 1);
    if k + 1 <= d {
      MulIsMonotonic(d, i + 1, j);
      assert d * (i + 1) == d * i + d;
      DivStepsUp(d * i, d, k + 1);
      DivIsMonotonic(d * i + d, d * j, k + 1);
    }
  }

  /** The unknown names before a known level keep their order and get levels
      in `[last, cur)` that never go down (strictly up when the gap allows). */
  lemma BetweenIsOrdered(undef: seq<string>, last: int, cur: int)
    requires last < cur
    ensures var pairs := Between(undef, last, cur);
            && (forall i :: 0 <= i < |pairs| ==> pairs[i].0 == undef[i] && last <= pairs[i].1 < cur)
            && (forall i, j :: 0 <= i < j < |pairs| ==> pairs[i].1 <= pairs[j].1)
            && (|undef| + 1 <= cur - last ==> forall i, j :: 0 <= i < j < |pairs| ==> pairs[i].1 < pairs[j].1)
  {
    var pairs := Between(undef, last, cur);
    forall i | 0 <= i < |pairs|
      ensures last <= pairs[i].1 < cur
    {
      InterpolatedWithin(last, cur, |undef|, i + 1);
    }
    forall i, j | 0 <= i < j < |pairs|
      ensures pairs[i].1 <= pairs[j].1
      ensures |undef| + 1 <= cur - last ==> pairs[i].1 < pairs[j].1
    {
      InterpolatedIsOrdered(last, cur, |undef|, i + 1, j + 1);
    }
  }

  /** The names in a run of registrations. */
  function NamesOf(pairs: seq<(string, int)>): set<string>
  {
    set p | p in pairs :: p.0
  }

  /** Registering other names never changes a name's level. */
  lemma {:induction false} AddAllKeepsOtherNames(s: Levels, pairs: seq<(string, int)>, n: string)
    requires n in s.nameToLevel && n !in NamesOf(pairs)
    ensures var o := AddAll(s, pairs); n in o.levels.nameToLevel && o.levels.nameToLevel[n] == s.nameToLevel[n]
    decreases |pairs|
  {
    if |pairs| > 0 {
      assert pairs[0] in pairs;
      var o := AddName(s, pairs[0].1, pairs[0].0);
      if o.clash.None? {
        assert NamesOf(pairs[1..]) <= NamesOf(pairs) by {
          forall p | p in pairs[1..] ensures p in pairs { }
        }
        AddAllKeepsOtherNames(o.levels, pairs[1..], n);
      }
    }
  }

  lemma {:induction false} NumberingKeepsKnownNames(s: Levels, names: seq<string>, last: int, undef: seq<string>, n: string)
    requires n in s.nameToLevel && n !in undef
    ensures var o := Numbering(s, names, last, undef); n in o.levels.nameToLevel && o.levels.nameToLevel[n] == s.nameToLevel[n]
    decreases |names|
  {
    if |names| == 0 {
      AddAllKeepsOtherNames(s, After(undef, last), n);
    } else if names[0] in s.nameToLevel {
      var cur := s.nameToLevel[names[0]];
      var s1 := s.(globals := s.globals[names[0] := cur]);
      AddAllKeepsOtherNames(s1, Between(undef, last, cur), n);
      var o := AddAll(s1, Between(undef, last, cur));
      if o.clash.None? {
        NumberingKeepsKnownNames(o.levels, names[1..], cur, [], n);
      }
    } else {
      NumberingKeepsKnownNames(s, names[1..], last, undef + [names[0]], n);
    }
  }

  /** A name the registry already knows keeps its level, whether or not the
      run stops at a clash. */
  lemma KnownNamesKeepTheirLevel(s: Levels, names: seq<string>, n: string)
    requires n in s.nameToLevel
    ensures var o := LevelNumbering(s, names); n in o.levels.nameToLevel && o.levels.nameToLevel[n] == s.nameToLevel[n]
  {
    NumberingKeepsKnownNames(s, names, 0, [], n);
  }

  /** Every name in `names` is registered and bound as a global to its level. */
  ghost predicate Bound(s: Levels, names: set<string>)
  {
    forall n :: n in names ==> n in s.nameToLevel && n in s.globals && s.globals[n] == s.nameToLevel[n]
  }

  lemma {:induction false} AddAllBinds(s: Levels, pairs: seq<(string, int)>, names: set<string>)
    requires Bound(s, names)
    ensures var o := AddAll(s, pairs); o.clash.None? ==> Bound(o.levels, names + NamesOf(pairs))
    decreases |pairs|
  {
    if |pairs| > 0 {
      var o := AddName(s, pairs[0].1, pairs[0].0);
      if o.clash.None? {
        assert Bound(o.levels, names + {pairs[0].0});
        AddAllBinds(o.levels, pairs[1..], names + {pairs[0].0});
        assert names + NamesOf(pairs) == names + {pairs[0].0} + NamesOf(pairs[1..]) by {
          assert pairs == [pairs[0]] + pairs[1..];
        }
      }
    }
  }

  /** The names in a list. */
  function Elems(xs: seq<string>): set<string>
  {
    set x | x in xs
  }

  lemma BetweenNames(undef: seq<string>, last: int, cur: int)
    ensures NamesOf(Between(undef, last, cur)) == Elems(undef)
  {
    var pairs := Between(undef, last, cur);
    forall n | n in undef ensures n in NamesOf(pairs) {
      var i :| 0 <= i < |undef| && undef[i] == n;
      assert pairs[i] in pairs;
    }
  }

  lemma AfterNames(undef: seq<string>, last: int)
    ensures NamesOf(After(undef, last)) == Elems(undef)
  {
    var pairs := After(undef, last);
    forall n | n in undef ensures n in NamesOf(pairs) {
      var i :| 0 <= i < |undef| && undef[i] == n;
      assert pairs[i] in pairs;
    }
  }

  lemma ElemsOfSplit(xs: seq<string>)
    requires |xs| > 0
    ensures Elems(xs) == {xs[0]} + Elems(xs[1..])
  {
    assert xs == [xs[0]] + xs[1..];
  }

  /** The step at a known name: the unknown names before it get registered. */
  lemma KnownNameBinds(s: Levels, name: string, last: int, undef: seq<string>, done: set<string>)
    requires Bound(s, done) && name in s.nameToLevel
    ensures var cur := s.nameToLevel[name];
            var o := AddAll(s.(globals := s.globals[name := cur]), Between(undef, last, cur));
            o.clash.None? ==> Bound(o.levels, done + {name} + Elems(undef))
  {
    var cur := s.nameToLevel[name];
    var s1 := s.(globals := s.globals[name := cur]);
    assert Bound(s1, done + {name});
    AddAllBinds(s1, Between(undef, last, cur), done + {name});
    BetweenNames(undef, last, cur);
  }

  lemma {:induction false} NumberingBinds(s: Levels, names: seq<string>, last: int, undef: seq<string>, done: set<string>)
    requires Bound(s, done)
    ensures var o := Numbering(s, names, last, undef);
            o.clash.None? ==> Bound(o.levels, done + Elems(undef) + Elems(names))
    decreases |names|
  {
    if |names| == 0 {
      AddAllBinds(s, After(undef, last), done);
      AfterNames(undef, last);
    } else {
      ElemsOfSplit(names);
      if names[0] in s.nameToLevel {
        var cur := s.nameToLevel[names[0]];
        KnownNameBinds(s, names[0], last, undef, done);
        var o := AddAll(s.(globals := s.globals[names[0] := cur]), Between(undef, last, cur));
        if o.clash.None? {
          NumberingBinds(o.levels, names[1..], cur, [], done + {names[0]} + Elems(undef));
        }
      } else {
        NumberingBinds(s, names[1..], last, undef + [names[0]], done);
        assert Elems(undef + [names[0]]) == Elems(undef) + {names[0]};
      }
    }
  }

  /** A run that raises no `RuntimeError` registers every name and binds it
      as a global to its level. */
  lemma EveryNameIsBound(s: Levels, names: seq<string>)
    ensures var o := LevelNumbering(s, names);
            o.clash.None? ==> forall n :: n in names ==> n in o.levels.nameToLevel && n in o.levels.globals && o.levels.globals[n] == o.levels.nameToLevel[n]
  {
    NumberingBinds(s, names, 0, [], {});
    assert Elems([]) == {};
  }

  /** The levels in a run of registrations. */
  function LevelsOf(pairs: seq<(string, int)>): set<int>
  {
    set p | p in pairs :: p.1
  }

  lemma PairsSplit(pairs: seq<(string, int)>)
    requires |pairs| > 0
    ensures NamesOf(pairs) == {pairs[0].0} + NamesOf(pairs[1..])
    ensures LevelsOf(pairs) == {pairs[0].1} + LevelsOf(pairs[1..])
  {
    assert pairs == [pairs[0]] + pairs[1..];
  }

  /** Registering names at distinct unnamed levels never clashes, and names
      exactly those levels more. */
  lemma {:induction false} AddAllFresh(s: Levels, pairs: seq<(string, int)>)
    requires forall i :: 0 <= i < |pairs| ==> pairs[i].1 !in s.levelToName
    requires forall i, j :: 0 <= i < j < |pairs| ==> pairs[i].1 != pairs[j].1
    ensures var o := AddAll(s, pairs);
            && o.clash.None?
            && o.levels.levelToName.Keys == s.levelToName.Keys + LevelsOf(pairs)
    decreases |pairs|
  {
    if |pairs| > 0 {
      var o := AddName(s, pairs[0].1, pairs[0].0);
      var rest := pairs[1..];
      assert forall i :: 0 <= i < |rest| ==> rest[i] == pairs[i + 1];
      AddAllFresh(o.levels, rest);
      PairsSplit(pairs);
    }
  }

  /** ... and registers exactly those names more. */
  lemma {:induction false} AddAllFreshNames(s: Levels, pairs: seq<(string, int)>)
    requires forall i :: 0 <= i < |pairs| ==> pairs[i].1 !in s.levelToName
    requires forall i, j :: 0 <= i < j < |pairs| ==> pairs[i].1 != pairs[j].1
    ensures AddAll(s, pairs).levels.nameToLevel.Keys == s.nameToLevel.Keys + NamesOf(pairs)
    decreases |pairs|
  {
    if |pairs| > 0 {
      var o := AddName(s, pairs[0].1, pairs[0].0);
      var rest := pairs[1..];
      assert forall i :: 0 <= i < |rest| ==> rest[i] == pairs[i + 1];
      AddAllFreshNames(o.levels, rest);
      PairsSplit(pairs);
    }
  }

  /** ... and gives each of the names its level. */
  lemma {:induction false} AddAllFreshLevels(s: Levels, pairs: seq<(string, int)>)
    requires forall i :: 0 <= i < |pairs| ==> pairs[i].1 !in s.levelToName
    requires forall i, j :: 0 <= i < j < |pairs| ==> pairs[i].1 != pairs[j].1 && pairs[i].0 != pairs[j].0
    ensures var o := AddAll(s, pairs);
            forall i :: 0 <= i < |pairs| ==> pairs[i].0 in o.levels.nameToLevel && o.levels.nameToLevel[pairs[i].0] == pairs[i].1
    decreases |pairs|
  {
    if |pairs| > 0 {
      var o := AddName(s, pairs[0].1, pairs[0].0);
      var rest := pairs[1..];
      assert forall i :: 0 <= i < |rest| ==> rest[i] == pairs[i + 1];
      AddAllFreshLevels(o.levels, rest);
      assert pairs[0].0 !in NamesOf(rest) by {
        forall p | p in rest ensures p.0 != pairs[0].0 {
          var i :| 0 <= i < |rest| && rest[i] == p;
        }
      }
      AddAllKeepsOtherNames(o.levels, rest, pairs[0].0);
    }
  }

  /** Unknown names are only collected. */
  lemma {:induction false} NumberingSkipsUnknown(s: Levels, unknown: seq<string>, rest: seq<string>, last: int, undef: seq<string>)
    requires forall n :: n in unknown ==> n !in s.nameToLevel
    ensures Numbering(s, unknown + rest, last, undef) == Numbering(s, rest, last, undef + unknown)
    decreases |unknown|
  {
    if |unknown| > 0 {
      assert (unknown + rest)[1..] == unknown[1..] + rest;
      assert undef + unknown == (undef + [unknown[0]]) + unknown[1..];
      NumberingSkipsUnknown(s, unknown[1..], rest, last, undef + [unknown[0]]);
    } else {
      assert unknown + rest == rest && undef + unknown == undef;
    }
  }

  /** A known name with no unknown names before it only binds the global. */
  lemma NumberingPassesKnown(s: Levels, name: string, rest: seq<string>, last: int)
    requires name in s.nameToLevel
    ensures Numbering(s, [name] + rest, last, []) ==
            Numbering(s.(globals := s.globals[name := s.nameToLevel[name]]), rest, s.nameToLevel[name], [])
  {
    assert ([name] + rest)[1..] == rest;
  }

  /** A run of unknown names closed by a known name whose interpolated levels
      are distinct and unnamed: the names are registered without a clash and
      the walk goes on from the known level. */
  lemma GapIsFilled(s: Levels, unknown: seq<string>, known: string, rest: seq<string>, last: int)
    requires forall n :: n in unknown ==> n !in s.nameToLevel
    requires known in s.nameToLevel
    requires var pairs := Between(unknown, last, s.nameToLevel[known]);
             && (forall i :: 0 <= i < |pairs| ==> pairs[i].1 !in s.levelToName)
             && (forall i, j :: 0 <= i < j < |pairs| ==> pairs[i].1 != pairs[j].1)
    ensures var cur := s.nameToLevel[known];
            var o := AddAll(s.(globals := s.globals[known := cur]), Between(unknown, last, cur));
            && o.clash.None?
            && Numbering(s, unknown + [known] + rest, last, []) == Numbering(o.levels, rest, cur, [])
            && o.levels.levelToName.Keys == s.levelToName.Keys + LevelsOf(Between(unknown, last, cur))
            && o.levels.nameToLevel.Keys == s.nameToLevel.Keys + Elems(unknown)
  {
    var cur := s.nameToLevel[known];
    assert unknown + [known] + rest == unknown + ([known] + rest);
    NumberingSkipsUnknown(s, unknown, [known] + rest, last, []);
    assert [] + unknown == unknown && ([known] + rest)[1..] == rest;
    AddAllFresh(s.(globals := s.globals[known := cur]), Between(unknown, last, cur));
    AddAllFreshNames(s.(globals := s.globals[known := cur]), Between(unknown, last, cur));
    BetweenNames(unknown, last, cur);
  }

  /** `name` is registered at `level`. */
  predicate HasLevel(s: Levels, name: string, level: int)
  {
    name in s.nameToLevel && s.nameToLevel[name] == level
  }

  /** Every name registered in `s` keeps its level in `t`. */
  ghost predicate Extends(s: Levels, t: Levels)
  {
    forall n :: n in s.nameToLevel ==> HasLevel(t, n, s.nameToLevel[n])
  }

  /** Registering names the registry does not know keeps every known name's level. */
  lemma AddAllExtends(s: Levels, pairs: seq<(string, int)>)
    requires forall i :: 0 <= i < |pairs| ==> pairs[i].0 !in s.nameToLevel
    ensures Extends(s, AddAll(s, pairs).levels)
  {
    forall n | n in s.nameToLevel
      ensures HasLevel(AddAll(s, pairs).levels, n, s.nameToLevel[n])
    {
      assert n !in NamesOf(pairs);
      AddAllKeepsOtherNames(s, pairs, n);
    }
  }

  /** The names of a list are pairwise distinct. */
  predicate Distinct(names: seq<string>)
  {
    forall i, j :: 0 <= i < j < |names| ==> names[i] != names[j]
  }

  /** Five unknown names before level 10 are spread over 1, 3, 5, 6 and 8. */
  lemma FiveBelowTenLevels(unknown: seq<string>)
    requires |unknown| == 5
    ensures Between(unknown, 0, 10) ==
              [(unknown[0], 1), (unknown[1], 3), (unknown[2], 5), (unknown[3], 6), (unknown[4], 8)]
  {
  }

  /** Registering five distinct names at the levels 1, 3, 5, 6 and 8, none
      of them named yet. */
  lemma FiveFreshNames(s: Levels, pairs: seq<(string, int)>, unknown: seq<string>)
    requires |unknown| == 5 && Distinct(unknown)
    requires pairs == [(unknown[0], 1), (unknown[1], 3), (unknown[2], 5), (unknown[3], 6), (unknown[4], 8)]
    requires 1 !in s.levelToName && 3 !in s.levelToName && 5 !in s.levelToName
    requires 6 !in s.levelToName && 8 !in s.levelToName
    ensures var o := AddAll(s, pairs);
            && HasLevel(o.levels, unknown[0], 1) && HasLevel(o.levels, unknown[1], 3)
            && HasLevel(o.levels, unknown[2], 5) && HasLevel(o.levels, unknown[3], 6)
            && HasLevel(o.levels, unknown[4], 8)
            && LevelsOf(pairs) == {1, 3, 5, 6, 8}
  {
    AddAllFreshLevels(s, pairs);
    assert pairs[0] in pairs && pairs[1] in pairs && pairs[2] in pairs && pairs[3] in pairs && pairs[4] in pairs;
  }

  /** Stage one of the import-time run: five unknown names before a name at
      level 10 land at 1, 3, 5, 6 and 8; `t` is the registry after them. */
  lemma FiveBelowTen(s: Levels, names: seq<string>) returns (t: Levels)
    requires |names| >= 6 && Distinct(names[..5])
    requires forall i :: 0 <= i < 5 ==> names[i] !in s.nameToLevel
    requires HasLevel(s, names[5], 10)
    requires 1 !in s.levelToName && 3 !in s.levelToName && 5 !in s.levelToName
    requires 6 !in s.levelToName && 8 !in s.levelToName
    ensures Numbering(s, names, 0, []) == Numbering(t, names[6..], 10, [])
    ensures t.levelToName.Keys == s.levelToName.Keys + {1, 3, 5, 6, 8}
    ensures t.nameToLevel.Keys == s.nameToLevel.Keys + Elems(names[..5])
    ensures HasLevel(t, names[0], 1) && HasLevel(t, names[1], 3) && HasLevel(t, names[2], 5)
    ensures HasLevel(t, names[3], 6) && HasLevel(t, names[4], 8)
    ensures Extends(s, t)
  {
    var unknown := names[..5];
    var s1 := s.(globals := s.globals[names[5] := 10]);
    FiveBelowTenLevels(unknown);
    AddAllExtends(s1, Between(unknown, 0, 10));
    assert names == unknown + [names[5]] + names[6..];
    GapIsFilled(s, unknown, names[5], names[6..], 0);
    FiveFreshNames(s1, Between(unknown, 0, 10), unknown);
    t := AddAll(s1, Between(unknown, 0, 10)).levels;
  }

  /** Stage two: a name at level 20, one unknown name, and a name at level
      30; the unknown name lands at 25. */
  lemma OneBelowThirty(s: Levels, rest: seq<string>) returns (t: Levels)
    requires |rest| >= 3
    requires HasLevel(s, rest[0], 20) && rest[1] !in s.nameToLevel && HasLevel(s, rest[2], 30)
    requires 25 !in s.levelToName
    ensures Numbering(s, rest, 10, []) == Numbering(t, rest[3..], 30, [])
    ensures t.levelToName.Keys == s.levelToName.Keys + {25}
    ensures t.nameToLevel == s.nameToLevel[rest[1] := 25]
  {
    var s1 := s.(globals := s.globals[rest[0] := 20]);
    var s2 := s1.(globals := s1.globals[rest[2] := 30]);
    assert rest == [rest[0]] + rest[1..];
    NumberingPassesKnown(s, rest[0], rest[1..], 10);
    assert rest[1..][1..] == rest[2..] && rest[2..][1..] == rest[3..];
    assert rest[1..][0] == rest[1] && [] + [rest[1]] == [rest[1]];
    assert Numbering(s1, rest[1..], 20, []) == Numbering(s1, rest[2..], 20, [rest[1]]);
    assert Between([rest[1]], 20, 30) == [(rest[1], 25)];
    var o := AddName(s2, 25, rest[1]);
    assert AddAll(s2, [(rest[1], 25)]) == AddAll(o.levels, []);
    t := o.levels;
  }

  /** The last stage: names at levels 40 and 50, then two unknown names,
      which land at 60 and 70. */
  lemma TwoAfterFifty(s: Levels, rest: seq<string>)
    requires |rest| == 4
    requires HasLevel(s, rest[0], 40) && HasLevel(s, rest[1], 50)
    requires rest[2] !in s.nameToLevel && rest[3] !in s.nameToLevel && rest[2] != rest[3]
    requires 60 !in s.levelToName && 70 !in s.levelToName
    ensures var o := Numbering(s, rest, 30, []);
            && o.clash.None?
            && HasLevel(o.levels, rest[2], 60) && HasLevel(o.levels, rest[3], 70)
  {
    var s2 := TwoKnownThenTwoUnknown(s, rest);
    var pairs := After(rest[2..], 50);
    assert pairs == [(rest[2], 60), (rest[3], 70)];
    AddAllFresh(s2, pairs);
    AddAllFreshLevels(s2, pairs);
  }

  /** The walk over two known names at 40 and 50 and two unknown names ends
      by registering the two unknown names after 50. */
  lemma TwoKnownThenTwoUnknown(s: Levels, rest: seq<string>) returns (s2: Levels)
    requires |rest| == 4
    requires HasLevel(s, rest[0], 40) && HasLevel(s, rest[1], 50)
    requires rest[2] !in s.nameToLevel && rest[3] !in s.nameToLevel
    ensures s2.nameToLevel == s.nameToLevel && s2.levelToName == s.levelToName
    ensures Numbering(s, rest, 30, []) == AddAll(s2, After(rest[2..], 50))
  {
    var s1 := s.(globals := s.globals[rest[0] := 40]);
    s2 := s1.(globals := s1.globals[rest[1] := 50]);
    assert rest == [rest[0]] + rest[1..] && rest[1..] == [rest[1]] + rest[2..];
    NumberingPassesKnown(s, rest[0], rest[1..], 30);
    NumberingPassesKnown(s1, rest[1], rest[2..], 40);
    NumberingSkipsUnknown(s2, rest[2..], [], 50, []);
    assert rest[2..] + [] == rest[2..] && [] + rest[2..] == rest[2..];
  }

  /** Stages two and three, from the state after stage one. */
  lemma AfterDebug(t: Levels, rest: seq<string>)
    requires |rest| == 7
    requires HasLevel(t, rest[0], 20) && HasLevel(t, rest[2], 30)
    requires HasLevel(t, rest[3], 40) && HasLevel(t, rest[4], 50)
    requires rest[1] !in t.nameToLevel && rest[5] !in t.nameToLevel && rest[6] !in t.nameToLevel
    requires rest[1] != rest[5] && rest[1] != rest[6] && rest[5] != rest[6]
    requires 25 !in t.levelToName && 60 !in t.levelToName && 70 !in t.levelToName
    ensures var o := Numbering(t, rest, 10, []);
            && o.clash.None?
            && HasLevel(o.levels, rest[1], 25) && HasLevel(o.levels, rest[5], 60) && HasLevel(o.levels, rest[6], 70)
            && Extends(t, o.levels)
  {
    var t2 := OneBelowThirty(t, rest);
    assert HasLevel(t2, rest[1], 25);
    TwoAfterFifty(t2, rest[3..]);
    NumberingKeepsKnownNames(t2, rest[3..], 30, [], rest[1]);
    forall n | n in t.nameToLevel
      ensures HasLevel(Numbering(t, rest, 10, []).levels, n, t.nameToLevel[n])
    {
      NumberingKeepsKnownNames(t2, rest[3..], 30, [], n);
    }
  }

  /** The requirements of the import-time run over thirteen distinct names:
      the sixth, seventh, ninth, tenth and eleventh are known at levels 10,
      20, 30, 40 and 50, the others are unknown, and the levels the run
      fills in are still unnamed. */
  predicate ThirteenNamesReady(s: Levels, names: seq<string>)
  {
    && |names| == 13 && Distinct(names)
    && names[0] !in s.nameToLevel && names[1] !in s.nameToLevel && names[2] !in s.nameToLevel
    && names[3] !in s.nameToLevel && names[4] !in s.nameToLevel
    && names[7] !in s.nameToLevel && names[11] !in s.nameToLevel && names[12] !in s.nameToLevel
    && HasLevel(s, names[5], 10) && HasLevel(s, names[6], 20) && HasLevel(s, names[8], 30)
    && HasLevel(s, names[9], 40) && HasLevel(s, names[10], 50)
    && 1 !in s.levelToName && 3 !in s.levelToName && 5 !in s.levelToName && 6 !in s.levelToName
    && 8 !in s.levelToName && 25 !in s.levelToName && 60 !in s.levelToName && 70 !in s.levelToName
  }

  /** The import-time run over thirteen names as `ThirteenNamesReady`
      describes them: no clash, and the unknown names land at 1, 3, 5, 6, 8,
      25, 60 and 70. */
  lemma ThirteenNames(s: Levels, names: seq<string>)
    requires ThirteenNamesReady(s, names)
    ensures var o := LevelNumbering(s, names);
            && o.clash.None?
            && HasLevel(o.levels, names[0], 1) && HasLevel(o.levels, names[1], 3)
            && HasLevel(o.levels, names[2], 5) && HasLevel(o.levels, names[3], 6)
            && HasLevel(o.levels, names[4], 8) && HasLevel(o.levels, names[7], 25)
            && HasLevel(o.levels, names[11], 60) && HasLevel(o.levels, names[12], 70)
  {
    assert Distinct(names[..5]);
    var t := FiveBelowTen(s, names);
    assert names[7] !in Elems(names[..5]) && names[11] !in Elems(names[..5]) && names[12] !in Elems(names[..5]);
    AfterDebug(t, names[6..]);
  }

  /** The names registered at import time, in order. */
  const LevelNames: seq<string> :=
    ["DEBUG5", "DEBUG4", "DEBUG3", "DEBUG2", "DEBUG1", "DEBUG",
     "INFO", "NOTICE", "WARNING", "ERROR", "CRITICAL", "ALERT",
     "EMERGENCY"]

  /** The logging library's own registry before any name is added. */
  function StandardLevels(globals: map<string, int>): Levels
  {
    Levels(
      map[50 := "CRITICAL", 40 := "ERROR", 30 := "WARNING", 20 := "INFO", 10 := "DEBUG", 0 := "NOTSET"],
      map["CRITICAL" := 50, "FATAL" := 50, "ERROR" := 40, "WARN" := 30, "WARNING" := 30,
          "INFO" := 20, "DEBUG" := 10, "NOTSET" := 0],
      globals)
  }

  lemma StandardNamesAreDistinct()
    ensures |LevelNames| == 13 && Distinct(LevelNames)
  {
  }

  /** The import-time names the standard registry does not know ... */
  lemma StandardDebugNamesAreUnknown(globals: map<string, int>)
    ensures var s, names := StandardLevels(globals), LevelNames;
            && names[0] !in s.nameToLevel && names[1] !in s.nameToLevel && names[2] !in s.nameToLevel
            && names[3] !in s.nameToLevel && names[4] !in s.nameToLevel
  {
  }

  lemma StandardOtherNamesAreUnknown(globals: map<string, int>)
    ensures var s, names := StandardLevels(globals), LevelNames;
            names[7] !in s.nameToLevel && names[11] !in s.nameToLevel && names[12] !in s.nameToLevel
  {
  }

  /** ... and those it knows, with their levels. */
  lemma StandardNamesAreKnown(globals: map<string, int>)
    ensures var s, names := StandardLevels(globals), LevelNames;
            && HasLevel(s, names[5], 10) && HasLevel(s, names[6], 20) && HasLevel(s, names[8], 30)
            && HasLevel(s, names[9], 40) && HasLevel(s, names[10], 50)
  {
  }

  /** The levels the import-time run fills in have no standard name. */
  lemma StandardLevelsAreFree(globals: map<string, int>)
    ensures var s := StandardLevels(globals);
            && 1 !in s.levelToName && 3 !in s.levelToName && 5 !in s.levelToName && 6 !in s.levelToName
            && 8 !in s.levelToName && 25 !in s.levelToName && 60 !in s.levelToName && 70 !in s.levelToName
  {
  }

  /** From the standard registry, the import-time run raises no
      `RuntimeError` and gives DEBUG5..DEBUG1 = 1, 3, 5, 6, 8, NOTICE = 25,
      ALERT = 60 and EMERGENCY = 70, the standard names keeping theirs. */
  lemma StandardNumbering(globals: map<string, int>)
    ensures var o := LevelNumbering(StandardLevels(globals), LevelNames);
            && o.clash.None?
            && HasLevel(o.levels, "DEBUG5", 1) && HasLevel(o.levels, "DEBUG4", 3)
            && HasLevel(o.levels, "DEBUG3", 5) && HasLevel(o.levels, "DEBUG2", 6)
            && HasLevel(o.levels, "DEBUG1", 8) && HasLevel(o.levels, "DEBUG", 10)
            && HasLevel(o.levels, "INFO", 20) && HasLevel(o.levels, "NOTICE", 25)
            && HasLevel(o.levels, "WARNING", 30) && HasLevel(o.levels, "ERROR", 40)
            && HasLevel(o.levels, "CRITICAL", 50) && HasLevel(o.levels, "ALERT", 60)
            && HasLevel(o.levels, "EMERGENCY", 70)
  {
    var s := StandardLevels(globals);
    StandardNamesAreDistinct();
    StandardDebugNamesAreUnknown(globals);
    StandardOtherNamesAreUnknown(globals);
    StandardNamesAreKnown(globals);
    StandardLevelsAreFree(globals);
    ThirteenNames(s, LevelNames);
    KnownNamesKeepTheirLevel(s, LevelNames, "DEBUG");
    KnownNamesKeepTheirLevel(s, LevelNames, "INFO");
    KnownNamesKeepTheirLevel(s, LevelNames, "WARNING");
    KnownNamesKeepTheirLevel(s, LevelNames, "ERROR");
    KnownNamesKeepTheirLevel(s, LevelNames, "CRITICAL");
  }

  /** The registry, updated in place. */
  class LevelRegistry {
    var levelToName: map<int, string>
    var nameToLevel: map<string, int>
    var globals: map<string, int>

    function State(): Levels
      reads this
    {
      Levels(levelToName, nameToLevel, globals)
    }

    constructor (initial: Levels)
      ensures State() == initial
    {
      levelToName := initial.levelToName;
      nameToLevel := initial.nameToLevel;
      globals := initial.globals;
    }

    /** `_add_level_name(level, name)`: `Some` where it raises `RuntimeError`. */
    method AddLevelName(level: int, name: string) returns (clash: Option<Clash>)
      modifies this
      ensures Outcome(State(), clash) == AddName(old(State()), level, name)
    {
      var existing := LevelName(State(), level);
      if !IsPlaceholder(existing) {
        return Some(Clash(existing, name, level));
      }
      levelToName := levelToName[level := name];
      nameToLevel := nameToLevel[name := level];
      globals := globals[name := level];
      clash := None;
    }

    /** The loop at the end of a run of unknown names: registers each with
        its share of the gap up to the known level `cur`. */
    method AddInterpolated(undef: seq<string>, last: int, cur: int) returns (clash: Option<Clash>)
      modifies this
      ensures Outcome(State(), clash) == AddAll(old(State()), Between(undef, last, cur))
    {
      ghost var pairs := Between(undef, last, cur);
      for i := 1 to |undef| + 1
        invariant AddAll(State(), pairs[i - 1..]) == AddAll(old(State()), pairs)
      {
        assert pairs[i - 1..][1..] == pairs[i..];
        clash := AddLevelName(Interpolated(last, cur, |undef|, i), undef[i - 1]);
        if clash.Some? {
          return;
        }
      }
      clash := None;
    }

    /** The loop after the last known level: registers the trailing unknown
        names 10 apart. */
    method AddTrailing(undef: seq<string>, last: int) returns (clash: Option<Clash>)
      modifies this
      ensures Outcome(State(), clash) == AddAll(old(State()), After(undef, last))
    {
      ghost var pairs := After(undef, last);
      for i := 1 to |undef| + 1
        invariant AddAll(State(), pairs[i - 1..]) == AddAll(old(State()), pairs)
      {
        assert pairs[i - 1..][1..] == pairs[i..];
        clash := AddLevelName(Trailing(last, i), undef[i - 1]);
        if clash.Some? {
          return;
        }
      }
      clash := None;
    }

    /** `_add_level_names(names)`: `Some` where it raises `RuntimeError`, the
        registrations before the clash staying in place. */
    method AddLevelNames(names: seq<string>) returns (clash: Option<Clash>)
      modifies this
      ensures Outcome(State(), clash) == LevelNumbering(old(State()), names)
    {
      var last := 0;
      var undef: seq<string> := [];
      for k := 0 to |names|
        invariant Numbering(State(), names[k..], last, undef) == LevelNumbering(old(State()), names)
      {
        var name := names[k];
        assert names[k..][1..] == names[k + 1..];
        if name in nameToLevel {
          var cur := nameToLevel[name];
          globals := globals[name := cur];
          clash := AddInterpolated(undef, last, cur);
          if clash.Some? {
            return;
          }
          undef := [];
          last := cur;
        } else {
          undef := undef + [name];
        }
      }
      clash := AddTrailing(undef, last);
    }
  }
}

=== FILE: pyint.dfy ===
/**
 * Python's `int(...)` on the raw values a decoder passes it: an `int` stays
 * as it is, a `bool` becomes 0 or 1, and a `str` is parsed as a base-10
 * literal. Parsing strips surrounding whitespace, accepts one leading sign,
 * and allows single underscores between digits; anything else is a
 * `ValueError`.
 */
module PyInt {
  import opened Wrappers

  /**
   * The whitespace `int` strips: the ASCII space and `\t` to `\r`, and the
   * non-ASCII characters `str.isspace` accepts. The ASCII separators U+001C
   * to U+001F count for `str.isspace` but are not stripped, so a literal
   * padded with them is a `ValueError`.
   */
  predicate IsSpace(c: char)
  {
    || ('\U{9}' <= c <= '\U{D}')
    || c == ' '
    || c == '\U{85}' || c == '\U{A0}' || c == '\U{1680}'
    || ('\U{2000}' <= c <= '\U{200A}')
    || c == '\U{2028}' || c == '\U{2029}' || c == '\U{202F}' || c == '\U{205F}' || c == '\U{3000}'
  }

  predicate IsDigit(c: char)
  {
    '0' <= c <= '9'
  }

  /** Drops leading whitespace. */
  function StripLeft(s: string): (t: string)
    ensures |t| <= |s| && t == s[|s| - |t|..]
    ensures |t| > 0 ==> !IsSpace(t[0])
    ensures forall i :: 0 <= i < |s| - |t| ==> IsSpace(s[i])
  {
    if |s| > 0 && IsSpace(s[0]) then StripLeft(s[1..]) else s
  }

  /** Drops trailing whitespace. */
  function StripRight(s: string): (t: string)
    ensures |t| <= |s| && t == s[..|t|]
    ensures |t| > 0 ==> !IsSpace(t[|t| - 1])
    ensures forall i :: |t| <= i < |s| ==> IsSpace(s[i])
  {
    if |s| > 0 && IsSpace(s[|s| - 1]) then StripRight(s[..|s| - 1]) else s
  }

  /** `s.strip()`. */
  function Strip(s: string): string
  {
    StripRight(StripLeft(s))
  }

  /** A run of digits with single underscores between them. */
  predicate IsDigitRun(d: string)
  {
    && |d| > 0
    && IsDigit(d[0]) && IsDigit(d[|d| - 1])
    && (forall i :: 0 <= i < |d| ==> IsDigit(d[i]) || d[i] == '_')
    && (forall i :: 0 <= i < |d| - 1 ==> d[i] == '_' ==> d[i + 1] != '_')
  }

  /** The digits of a run, underscores dropped. */
  function DigitsOf(d: string): (ds: string)
    ensures |ds| <= |d|
  {
    if |d| == 0 then []
    else (if d[0] == '_' then [] else [d[0]]) + DigitsOf(d[1..])
  }

  /** The value of a digit. */
  function DigitValue(c: char): nat
    requires IsDigit(c)
  {
    c as int - '0' as int
  }

  /** The value of a string of digits, most significant first. */
  function ValueOf(ds: string): nat
    requires forall i :: 0 <= i < |ds| ==> IsDigit(ds[i])
  {
    if |ds| == 0 then 0 else ValueOf(ds[..|ds| - 1]) * 10 + DigitValue(ds[|ds| - 1])
  }

  lemma DigitsOfRun(d: string)
    requires forall i :: 0 <= i < |d| ==> IsDigit(d[i]) || d[i] == '_'
    ensures forall i :: 0 <= i < |DigitsOf(d)| ==> IsDigit(DigitsOf(d)[i])
  {
    if |d| > 0 {
      DigitsOfRun(d[1..]);
    }
  }

  /** An unsigned base-10 literal. */
  function ParseRun(d: string): (r: Option<nat>)
    ensures r.Some? <==> IsDigitRun(d)
  {
    if IsDigitRun(d) then
      DigitsOfRun(d);
      Some(ValueOf(DigitsOf(d)))
    else None
  }

  /** `int(s)` for a string `s`: `None` where Python raises `ValueError`. */
  function ParseInt(s: string): (r: Option<int>)
  {
    var t := Strip(s);
    if |t| > 0 && t[0] == '-' then
      match ParseRun(t[1..])
      case Some(n) => Some(-(n as int))
      case None => None
    else if |t| > 0 && t[0] == '+' then
      match ParseRun(t[1..])
      case Some(n) => Some(n)
      case None => None
    else
      match ParseRun(t)
      case Some(n) => Some(n)
      case None => None
  }

  /** The decimal digits of a natural number, as `str` writes them. */
  function ShowNat(n: nat): (s: string)
    ensures |s| > 0
    ensures forall i :: 0 <= i < |s| ==> IsDigit(s[i])
  {
    var last := ['0' + (n % 10) as char];
    if n < 10 then last else ShowNat(n / 10) + last
  }

  /** `str(n)` for an integer `n`. */
  function ShowInt(n: int): string
  {
    if n < 0 then "-" + ShowNat(-n) else ShowNat(n)
  }

  lemma {:induction false} ValueOfShowNat(n: nat)
    ensures ValueOf(ShowNat(n)) == n
  {
    var s := ShowNat(n);
    assert s[..|s| - 1] == if n < 10 then [] else ShowNat(n / 10);
    if n >= 10 {
      ValueOfShowNat(n / 10);
    }
  }

  lemma {:induction false} DigitsOfDigits(ds: string)
    requires forall i :: 0 <= i < |ds| ==> IsDigit(ds[i])
    ensures DigitsOf(ds) == ds
  {
    if |ds| > 0 {
      DigitsOfDigits(ds[1..]);
    }
  }

  /** A string with no whitespace at either end is its own `strip()`. */
  lemma StripUntrimmed(s: string)
    requires |s| > 0 && !IsSpace(s[0]) && !IsSpace(s[|s| - 1])
    ensures Strip(s) == s
  {
  }

  /** An unsigned run parses as itself. */
  lemma ParseUnsigned(d: string)
    requires IsDigitRun(d)
    ensures ParseInt(d) == Some(ParseRun(d).value as int)
  {
    StripUntrimmed(d);
  }

  /** A minus sign before a run negates it. */
  lemma ParseNegative(d: string)
    requires IsDigitRun(d)
    ensures ParseInt("-" + d) == Some(-(ParseRun(d).value as int))
  {
    var s := "-" + d;
    StripUntrimmed(s);
    assert s[1..] == d;
  }

  /** The digits of a natural number form a run of that value. */
  lemma ShowNatIsRun(n: nat)
    ensures IsDigitRun(ShowNat(n))
    ensures ParseRun(ShowNat(n)) == Some(n)
  {
    ValueOfShowNat(n);
    DigitsOfDigits(ShowNat(n));
  }

  /** `int(str(n)) == n` for every integer. */
  lemma ParseShowInt(n: int)
    ensures ParseInt(ShowInt(n)) == Some(n)
  {
    var d := ShowNat(if n < 0 then -n else n);
    ShowNatIsRun(if n < 0 then -n else n);
    if n < 0 {
      ParseNegative(d);
      assert ShowInt(n) == "-" + d;
    } else {
      ParseUnsigned(d);
      assert ShowInt(n) == d;
    }
  }

  /** Leading whitespace is stripped up to the first other character. */
  lemma {:induction false} StripLeftSpaces(w: string, t: string)
    requires forall i :: 0 <= i < |w| ==> IsSpace(w[i])
    requires |t| > 0 && !IsSpace(t[0])
    ensures StripLeft(w + t) == t
  {
    if |w| > 0 {
      assert (w + t)[1..] == w[1..] + t;
      StripLeftSpaces(w[1..], t);
    } else {
      assert w + t == t;
    }
  }

  /** Trailing whitespace is stripped back to the last other character. */
  lemma {:induction false} StripRightSpaces(t: string, w: string)
    requires |t| > 0 && !IsSpace(t[|t| - 1])
    requires forall i :: 0 <= i < |w| ==> IsSpace(w[i])
    ensures StripRight(t + w) == t
  {
    if |w| > 0 {
      assert (t + w)[..|t + w| - 1] == t + w[..|w| - 1];
      StripRightSpaces(t, w[..|w| - 1]);
    } else {
      assert t + w == t;
    }
  }

  /** `strip()` removes exactly the whitespace around a trimmed string. */
  lemma StripSurroundingSpace(before: string, t: string, after: string)
    requires forall i :: 0 <= i < |before| ==> IsSpace(before[i])
    requires forall i :: 0 <= i < |after| ==> IsSpace(after[i])
    requires |t| > 0 && !IsSpace(t[0]) && !IsSpace(t[|t| - 1])
    ensures Strip(before + t + after) == t
  {
    assert before + t + after == before + (t + after);
    StripLeftSpaces(before, t + after);
    StripRightSpaces(t, after);
  }

  /** Whitespace around a literal does not change its value. */
  lemma ParseIgnoresSurroundingSpace(before: string, t: string, after: string)
    requires forall i :: 0 <= i < |before| ==> IsSpace(before[i])
    requires forall i :: 0 <= i < |after| ==> IsSpace(after[i])
    requires |t| > 0 && !IsSpace(t[0]) && !IsSpace(t[|t| - 1])
    ensures ParseInt(before + t + after) == ParseInt(t)
  {
    StripSurroundingSpace(before, t, after);
    StripUntrimmed(t);
  }

  /** `int` reads back `str(n)` even when whitespace surrounds it. */
  lemma ParsePaddedShowInt(n: int, before: string, after: string)
    requires forall i :: 0 <= i < |before| ==> IsSpace(before[i])
    requires forall i :: 0 <= i < |after| ==> IsSpace(after[i])
    ensures ParseInt(before + ShowInt(n) + after) == Some(n)
  {
    var t := ShowInt(n);
    var digits := ShowNat(if n < 0 then -n else n);
    assert t[|t| - 1] == digits[|digits| - 1];
    assert IsDigit(t[0]) || t[0] == '-';
    ParseIgnoresSurroundingSpace(before, t, after);
    ParseShowInt(n);
  }

  /** A string of whitespace alone is not a literal. */
  lemma BlankIsNotLiteral(s: string)
    requires forall i :: 0 <= i < |s| ==> IsSpace(s[i])
    ensures ParseInt(s) == None
  {
    assert |StripLeft(s)| == 0;
  }

  /** The ASCII separators U+001C to U+001F are not stripped: a literal with
      one before or after it is not a literal. */
  lemma SeparatorPadIsNotLiteral(c: char, d: string)
    requires '\U{1C}' <= c <= '\U{1F}'
    requires IsDigitRun(d)
    ensures ParseInt([c] + d) == None
    ensures ParseInt(d + [c]) == None
  {
    StripUntrimmed([c] + d);
    StripUntrimmed(d + [c]);
    assert ([c] + d)[0] == c;
    assert (d + [c])[0] == d[0];
    assert !IsDigitRun(d + [c]) by {
      assert (d + [c])[|d + [c]| - 1] == c;
    }
  }

  /** A run cannot start or end with an underscore, nor hold two in a row. */
  lemma UnderscoreRules(a: string, b: string)
    ensures ParseRun("_" + a) == None
    ensures ParseRun(a + "_") == None
    ensures ParseRun(a + "__" + b) == None
  {
    var d := a + "__" + b;
    assert d[|a|] == '_' && d[|a| + 1] == '_';
  }
}

=== FILE: raw.dfy ===
/**
 * The field mover and the construction protocol of jirax/raw.py.
 *
 * A mover holds a private copy (`remaining`) of a raw source map and a
 * target map of constructor arguments. Each move pops one source field,
 * checks its shape, runs an optional filter and, when the argument name is
 * non-empty, writes the result into the target. `CheckExtra` closes a decode
 * and applies the strictness policy to the fields nobody moved.
 *
 * `MoveStep`, `RunMoves` and `DecodeArgs` are the functional specification;
 * the class `RawFieldMover` and the method `FromRaw` are the imperative
 * implementation, each proved to compute exactly what the specification
 * says.
 */
module RawData {
  import opened Wrappers
  import opened Util
  import opened Records

  /** What a field filter does with a value: returns a new value, raises a
      `RawFieldValueError`, or raises any other exception. */
  datatype Filtered = Pass(value: Value) | Reject(fault: ValueFault) | Raise(error: DecodeError)

  type Filter = Raw -> Filtered

  /** The arguments of one `move` call. */
  datatype MoveSpec = MoveSpec(
    name: string,
    sourceName: Option<string>,
    expected: Option<Expected>,
    filter: Option<Filter>,
    required: bool)

  /** The source field a move pops: `source_name`, defaulting to `name`. */
  function SourceName(spec: MoveSpec): (src: string)
    ensures spec.sourceName.None? ==> src == spec.name
    ensures spec.sourceName.Some? ==> src == spec.sourceName.value
  {
    match spec.sourceName
    case None => spec.name
    case Some(s) => s
  }

  /** The observable state of a mover. */
  datatype MoverState = MoverState(
    kind: string,
    source: RawMap,
    remaining: RawMap,
    target: map<string, Value>)

  /** A fresh mover: nothing moved yet, an empty target. */
  function Open(kind: string, source: RawMap): MoverState
  {
    MoverState(kind, source, source, map[])
  }

  /** A move's outcome: the mover's new state and the moved value or error. */
  datatype MoveOut = MoveOut(state: MoverState, result: Result<Value>) {
    predicate IsFailure() { result.Err? }

    function PropagateFailure<U>(): Result<U>
      requires result.Err?
    {
      Err(result.error)
    }

    function Extract(): (MoverState, Value)
      requires result.Ok?
    {
      (state, result.value)
    }
  }

  /** Finishes a successful move: writes the value when the name is non-empty. */
  function Deliver(st: MoverState, name: string, v: Value): MoveOut
  {
    MoveOut(if name != "" then st.(target := st.target[name := v]) else st, Ok(v))
  }

  /** `RawFieldMover.move`. */
  function MoveStep(st: MoverState, spec: MoveSpec): (o: MoveOut)
    // only the popped field leaves `remaining`; the source and kind never change
    ensures o.state.kind == st.kind && o.state.source == st.source
    ensures o.state.remaining == st.remaining - {SourceName(spec)}
    // the target changes only on success, and then only at a non-empty name
    ensures o.result.Err? ==> o.state.target == st.target
    ensures o.result.Ok? ==>
              o.state.target == if spec.name != "" then st.target[spec.name := o.result.value]
                                else st.target
    // an absent field: missing if required, otherwise None, unchecked and unfiltered
    ensures SourceName(spec) !in st.remaining ==>
              o.result == if spec.required
                          then Err(MissingRawField(st.source, st.kind, SourceName(spec)))
                          else Ok(VRaw(Null))
    // a present field of the wrong shape
    ensures SourceName(spec) in st.remaining && spec.expected.Some?
            && !Matches(st.remaining[SourceName(spec)], spec.expected.value) ==>
              o.result == Err(InvalidRawFieldType(st.source, st.kind, SourceName(spec),
                                                  st.remaining[SourceName(spec)],
                                                  spec.expected.value))
    // a present field of the right shape
    ensures SourceName(spec) in st.remaining
            && (spec.expected.None? || Matches(st.remaining[SourceName(spec)], spec.expected.value)) ==>
              var value := st.remaining[SourceName(spec)];
              o.result == if spec.filter.None? then Ok(VRaw(value))
                          else match spec.filter.value(value)
                            case Pass(v) => Ok(v)
                            case Reject(fault) =>
                              Err(InvalidRawFieldValue(st.source, st.kind, SourceName(spec), value, fault))
                            case Raise(e) => Err(e)
  {
    var src := SourceName(spec);
    if src !in st.remaining then
      if spec.required then MoveOut(st, Err(MissingRawField(st.source, st.kind, src)))
      else Deliver(st, spec.name, VRaw(Null))
    else
      var value := st.remaining[src];
      var popped := st.(remaining := st.remaining - {src});
      if spec.expected.Some? && !Matches(value, spec.expected.value) then
        MoveOut(popped, Err(InvalidRawFieldType(st.source, st.kind, src, value, spec.expected.value)))
      else if spec.filter.None? then
        Deliver(popped, spec.name, VRaw(value))
      else
        match spec.filter.value(value)
        case Pass(v) => Deliver(popped, spec.name, v)
        case Reject(fault) =>
          MoveOut(popped, Err(InvalidRawFieldValue(st.source, st.kind, src, value, fault)))
        case Raise(e) => MoveOut(popped, Err(e))
  }

  /** A sequence of moves, stopping at the first that raises. */
  function RunMoves(st: MoverState, specs: seq<MoveSpec>): Result<MoverState>
    decreases |specs|
  {
    if specs == [] then Ok(st)
    else
      var moved :- MoveStep(st, specs[0]);
      RunMoves(moved.0, specs[1..])
  }

  /** `RawFieldMover.check_extra`. */
  function CheckExtraStep(st: MoverState, strict: bool): (r: Result<set<string>>)
    ensures r.Ok? ==> r.value == st.remaining.Keys
    ensures r.Err? <==> strict && st.remaining != map[]
    ensures r.Err? ==> r.error == ExtraRawFields(st.source, st.kind, st.remaining.Keys)
  {
    if st.remaining != map[] && strict then Err(ExtraRawFields(st.source, st.kind, st.remaining.Keys))
    else Ok(st.remaining.Keys)
  }

  /** The warning `check_extra` logs: leftover fields when not strict. */
  function ExtraWarnings(st: MoverState, strict: bool): (w: seq<DecodeError>)
    ensures |w| <= 1
    ensures w != [] <==> !strict && st.remaining != map[]
  {
    if st.remaining != map[] && !strict then [ExtraRawFields(st.source, st.kind, st.remaining.Keys)]
    else []
  }

  /** The three-way `strict` argument of `from_raw`: True, False or None. */
  datatype Strictness = Strict | Lenient | Unchecked

  /** Step 3 of `from_raw`: check extra fields unless `strict` is None; the
      leftover fields become the record's extras. */
  function Close(st: MoverState, strict: Strictness): (r: Result<RawMap>)
    ensures r.Ok? ==> r.value == st.remaining
    ensures r.Err? <==> strict == Strict && st.remaining != map[]
    ensures r.Err? ==> r.error == ExtraRawFields(st.source, st.kind, st.remaining.Keys)
  {
    if strict == Unchecked then Ok(st.remaining)
    else
      var _ :- CheckExtraStep(st, strict == Strict);
      Ok(st.remaining)
  }

  /** What `cls(extras=..., **kwargs)` receives. */
  datatype Args = Args(values: map<string, Value>, extras: RawMap)

  /** `FromRaw.from_raw` for a class whose arguments are collected by `specs`. */
  function DecodeArgs(kind: string, raw: RawMap, specs: seq<MoveSpec>, strict: Strictness): Result<Args>
  {
    var st :- RunMoves(Open(kind, raw), specs);
    var extras :- Close(st, strict);
    Ok(Args(st.target, extras))
  }

  /** The source fields a sequence of moves pops. */
  function SourceNames(specs: seq<MoveSpec>): set<string>
  {
    set i | 0 <= i < |specs| :: SourceName(specs[i])
  }

  /** The target names a sequence of moves writes. */
  function TargetNames(specs: seq<MoveSpec>): set<string>
  {
    set i | 0 <= i < |specs| && specs[i].name != "" :: specs[i].name
  }

  lemma NamesOfCons(specs: seq<MoveSpec>)
    requires specs != []
    ensures SourceNames(specs) == {SourceName(specs[0])} + SourceNames(specs[1..])
    ensures TargetNames(specs) == (if specs[0].name != "" then {specs[0].name} else {}) + TargetNames(specs[1..])
  {
    var tail := specs[1..];
    forall x | x in SourceNames(tail) ensures x in SourceNames(specs) {
      var i :| 0 <= i < |tail| && SourceName(tail[i]) == x;
      assert specs[i + 1] == tail[i];
    }
    forall x | x in TargetNames(tail) ensures x in TargetNames(specs) {
      var i :| 0 <= i < |tail| && tail[i].name != "" && tail[i].name == x;
      assert specs[i + 1] == tail[i];
    }
    forall x | x in SourceNames(specs) && x != SourceName(specs[0]) ensures x in SourceNames(tail) {
      var i :| 0 <= i < |specs| && SourceName(specs[i]) == x;
      assert i != 0 && tail[i - 1] == specs[i];
    }
    forall x | x in TargetNames(specs) && x != specs[0].name ensures x in TargetNames(tail) {
      var i :| 0 <= i < |specs| && specs[i].name != "" && specs[i].name == x;
      assert i != 0 && tail[i - 1] == specs[i];
    }
  }

  /** `remaining` holds only source fields, with their source values. */
  ghost predicate Consistent(st: MoverState)
  {
    forall k :: k in st.remaining ==> k in st.source && st.remaining[k] == st.source[k]
  }

  /**
   * A successful run of moves pops exactly the fields it names, leaves every
   * other field with its source value, writes exactly the non-empty target
   * names, and never touches the source or the kind.
   */
  lemma {:induction false} RunMovesFootprint(st: MoverState, specs: seq<MoveSpec>)
    requires Consistent(st)
    ensures RunMoves(st, specs).Ok? ==>
              var after := RunMoves(st, specs).value;
              && after.kind == st.kind
              && after.source == st.source
              && Consistent(after)
              && after.remaining.Keys == st.remaining.Keys - SourceNames(specs)
              && after.target.Keys == st.target.Keys + TargetNames(specs)
    decreases |specs|
  {
    if specs != [] {
      var o := MoveStep(st, specs[0]);
      if o.result.Ok? {
        NamesOfCons(specs);
        RunMovesFootprint(o.state, specs[1..]);
      }
    }
  }

  /** A run of moves leaves every target entry alone that none of its moves
      names. */
  lemma {:induction false} RunMovesKeepsTarget(st: MoverState, specs: seq<MoveSpec>, name: string)
    requires name !in TargetNames(specs)
    ensures RunMoves(st, specs).Ok? ==>
              && (name in RunMoves(st, specs).value.target <==> name in st.target)
              && (name in st.target ==> RunMoves(st, specs).value.target[name] == st.target[name])
    decreases |specs|
  {
    if specs != [] {
      NamesOfCons(specs);
      var o := MoveStep(st, specs[0]);
      if o.result.Ok? {
        RunMovesKeepsTarget(o.state, specs[1..], name);
      }
    }
  }

  /**
   * What a successful decode stores under a move's name when no later move
   * writes that name: an absent field arrives as None, an unfiltered present
   * field as it is, and a filtered present field as what the filter passed.
   */
  lemma StoredArgument(kind: string, raw: RawMap, specs: seq<MoveSpec>, j: nat, strict: Strictness)
    requires j < |specs| && specs[j].name != ""
    requires forall i :: 0 <= i < j ==> SourceName(specs[i]) != SourceName(specs[j])
    requires specs[j].name !in TargetNames(specs[j + 1..])
    ensures var src, spec, r := SourceName(specs[j]), specs[j], DecodeArgs(kind, raw, specs, strict);
            r.Ok? ==>
              && spec.name in r.value.values
              && (spec.required ==> src in raw)
              && (src in raw && spec.expected.Some? ==> Matches(raw[src], spec.expected.value))
              && (src !in raw ==> r.value.values[spec.name] == VRaw(Null))
              && (src in raw && spec.filter.None? ==> r.value.values[spec.name] == VRaw(raw[src]))
              && (src in raw && spec.filter.Some? ==>
                    && spec.filter.value(raw[src]).Pass?
                    && r.value.values[spec.name] == spec.filter.value(raw[src]).value)
  {
    var src := SourceName(specs[j]);
    var before, after := specs[..j], specs[j..];
    assert specs == before + after;
    RunMovesAppend(Open(kind, raw), before, after);
    var mid := RunMoves(Open(kind, raw), before);
    if mid.Ok? {
      RunMovesFootprint(Open(kind, raw), before);
      forall i | 0 <= i < |before| ensures SourceName(before[i]) != src {
        assert before[i] == specs[i];
      }
      assert after[0] == specs[j] && after[1..] == specs[j + 1..];
      var o := MoveStep(mid.value, after[0]);
      if o.result.Ok? {
        RunMovesKeepsTarget(o.state, after[1..], specs[j].name);
      }
    }
  }

  /** The source fields a sequence of moves pops, in order. */
  function SourceOrder(specs: seq<MoveSpec>): (order: seq<string>)
  {
    seq(|specs|, i requires 0 <= i < |specs| => SourceName(specs[i]))
  }

  /** The target names a sequence of moves writes, in order. */
  function NameOrder(specs: seq<MoveSpec>): (order: seq<string>)
  {
    seq(|specs|, i requires 0 <= i < |specs| => specs[i].name)
  }

  predicate NoDuplicates(s: seq<string>)
  {
    forall i, j :: 0 <= i < j < |s| ==> s[i] != s[j]
  }

  /** Moves that pop distinct fields into distinct, non-empty names. */
  predicate DistinctMoves(specs: seq<MoveSpec>)
  {
    && "" !in NameOrder(specs)
    && NoDuplicates(SourceOrder(specs))
    && NoDuplicates(NameOrder(specs))
  }

  /**
   * A successful decode by distinct moves has exactly their names as
   * arguments, and each argument is what its move stored: a required field
   * was present and of its type, and an absent optional field is None.
   */
  lemma DistinctMovesStoreTheirFields(kind: string, raw: RawMap, specs: seq<MoveSpec>, strict: Strictness)
    requires DistinctMoves(specs)
    ensures var r := DecodeArgs(kind, raw, specs, strict);
            r.Ok? ==>
              && r.value.values.Keys == TargetNames(specs)
              && forall j :: 0 <= j < |specs| ==>
                   var src, spec := SourceName(specs[j]), specs[j];
                   && spec.name in r.value.values
                   && (spec.required ==> src in raw)
                   && (src in raw && spec.expected.Some? ==> Matches(raw[src], spec.expected.value))
                   && (src !in raw ==> r.value.values[spec.name] == VRaw(Null))
                   && (src in raw && spec.filter.None? ==> r.value.values[spec.name] == VRaw(raw[src]))
                   && (src in raw && spec.filter.Some? ==>
                         && spec.filter.value(raw[src]).Pass?
                         && r.value.values[spec.name] == spec.filter.value(raw[src]).value)
  {
    RunMovesFootprint(Open(kind, raw), specs);
    forall j | 0 <= j < |specs|
      ensures var src, spec, r := SourceName(specs[j]), specs[j], DecodeArgs(kind, raw, specs, strict);
              r.Ok? ==>
                && spec.name in r.value.values
                && (spec.required ==> src in raw)
                && (src in raw && spec.expected.Some? ==> Matches(raw[src], spec.expected.value))
                && (src !in raw ==> r.value.values[spec.name] == VRaw(Null))
                && (src in raw && spec.filter.None? ==> r.value.values[spec.name] == VRaw(raw[src]))
                && (src in raw && spec.filter.Some? ==>
                      && spec.filter.value(raw[src]).Pass?
                      && r.value.values[spec.name] == spec.filter.value(raw[src]).value)
    {
      NoLaterMoveWrites(specs, j);
      forall i | 0 <= i < j ensures SourceName(specs[i]) != SourceName(specs[j]) {
        assert SourceOrder(specs)[i] != SourceOrder(specs)[j];
      }
      assert NameOrder(specs)[j] == specs[j].name;
      StoredArgument(kind, raw, specs, j, strict);
    }
  }

  /** Whether a move succeeds on a payload: its field is present if
      required and, when present, of its type and passed by its filter. */
  predicate MoveAccepts(spec: MoveSpec, raw: RawMap)
  {
    var src := SourceName(spec);
    && (spec.required ==> src in raw)
    && (src in raw ==>
          && (spec.expected.None? || Matches(raw[src], spec.expected.value))
          && (spec.filter.None? || spec.filter.value(raw[src]).Pass?))
  }

  /** Moves of distinct fields, each accepting its field, all succeed. */
  lemma {:induction false} RunMovesAccepted(st: MoverState, specs: seq<MoveSpec>)
    requires NoDuplicates(SourceOrder(specs))
    requires forall i :: 0 <= i < |specs| ==> MoveAccepts(specs[i], st.remaining)
    ensures RunMoves(st, specs).Ok?
    decreases |specs|
  {
    if specs != [] {
      var o := MoveStep(st, specs[0]);
      assert MoveAccepts(specs[0], st.remaining);
      assert o.result.Ok?;
      var tail := specs[1..];
      forall i | 0 <= i < |tail| ensures MoveAccepts(tail[i], o.state.remaining) {
        assert tail[i] == specs[i + 1];
        assert SourceOrder(specs)[0] != SourceOrder(specs)[i + 1];
        assert MoveAccepts(specs[i + 1], st.remaining);
      }
      forall i, j | 0 <= i < j < |tail| ensures SourceOrder(tail)[i] != SourceOrder(tail)[j] {
        assert SourceOrder(specs)[i + 1] != SourceOrder(specs)[j + 1];
      }
      RunMovesAccepted(o.state, tail);
    }
  }

  /**
   * A decode by distinct moves succeeds exactly when every move accepts its
   * field and, when strict, the payload has no field the moves do not name;
   * when not strict, extra fields never make it fail.
   */
  lemma DecodeArgsSucceeds(kind: string, raw: RawMap, specs: seq<MoveSpec>, strict: Strictness)
    requires DistinctMoves(specs)
    ensures DecodeArgs(kind, raw, specs, strict).Ok? <==>
              && (forall i :: 0 <= i < |specs| ==> MoveAccepts(specs[i], raw))
              && (strict == Strict ==> raw.Keys <= SourceNames(specs))
  {
    if DecodeArgs(kind, raw, specs, strict).Ok? {
      DistinctMovesStoreTheirFields(kind, raw, specs, strict);
      if strict == Strict {
        StrictSuccessHasNoExtras(kind, raw, specs);
      }
    }
    if && (forall i :: 0 <= i < |specs| ==> MoveAccepts(specs[i], raw))
       && (strict == Strict ==> raw.Keys <= SourceNames(specs)) {
      RunMovesAccepted(Open(kind, raw), specs);
      RunMovesFootprint(Open(kind, raw), specs);
    }
  }

  /** Among distinct moves, no later move writes a move's name. */
  lemma NoLaterMoveWrites(specs: seq<MoveSpec>, j: nat)
    requires DistinctMoves(specs) && j < |specs|
    ensures specs[j].name !in TargetNames(specs[j + 1..])
  {
    var later := specs[j + 1..];
    var names := NameOrder(specs);
    assert names[j] == specs[j].name;
    forall i | 0 <= i < |later| ensures later[i].name != specs[j].name {
      assert later[i] == specs[j + 1 + i];
      assert names[j + 1 + i] == later[i].name;
      assert names[j] != names[j + 1 + i];
    }
  }

  /** A filter of a move raised `e` on the source value of its field. */
  predicate FilterRaised(spec: MoveSpec, source: RawMap, e: DecodeError)
  {
    && spec.filter.Some? && SourceName(spec) in source
    && spec.filter.value(source[SourceName(spec)]) == Raise(e)
  }

  /**
   * Where a failed run's error comes from: either the mover raised it, with
   * its own kind and source, or some move's filter raised it on that move's
   * source field and it propagated unwrapped.
   */
  lemma {:induction false} RunMovesErrorOrigin(st: MoverState, specs: seq<MoveSpec>)
    requires Consistent(st)
    ensures RunMoves(st, specs).Err? ==>
              || RaisedByMover(RunMoves(st, specs).error, st.kind, st.source)
              || exists i :: 0 <= i < |specs| && FilterRaised(specs[i], st.source, RunMoves(st, specs).error)
    decreases |specs|
  {
    if specs != [] {
      var o := MoveStep(st, specs[0]);
      if o.result.Ok? {
        RunMovesErrorOrigin(o.state, specs[1..]);
        var r := RunMoves(o.state, specs[1..]);
        if r.Err? && !RaisedByMover(r.error, st.kind, st.source) {
          var i :| 0 <= i < |specs[1..]| && FilterRaised(specs[1..][i], st.source, r.error);
          assert specs[i + 1] == specs[1..][i];
        }
      } else if !RaisedByMover(o.result.error, st.kind, st.source) {
        assert FilterRaised(specs[0], st.source, o.result.error);
      }
    }
  }

  /** Running two move sequences one after the other is running their
      concatenation: a class's fragments compose in order. */
  lemma {:induction false} RunMovesAppend(st: MoverState, first: seq<MoveSpec>, second: seq<MoveSpec>)
    ensures RunMoves(st, first + second) ==
              match RunMoves(st, first)
              case Ok(mid) => RunMoves(mid, second)
              case Err(e) => Err(e)
    decreases |first|
  {
    if first == [] {
      assert first + second == second;
    } else {
      assert (first + second)[0] == first[0];
      assert (first + second)[1..] == first[1..] + second;
      var o := MoveStep(st, first[0]);
      if o.result.Ok? {
        RunMovesAppend(o.state, first[1..], second);
      }
    }
  }

  /** A record's extras are exactly the source fields no move named, with
      their original values; its arguments are exactly the names written. */
  lemma ExtrasAreUnconsumedFields(kind: string, raw: RawMap, specs: seq<MoveSpec>, strict: Strictness)
    ensures DecodeArgs(kind, raw, specs, strict).Ok? ==>
              var a := DecodeArgs(kind, raw, specs, strict).value;
              && a.extras.Keys == raw.Keys - SourceNames(specs)
              && (forall k :: k in a.extras ==> a.extras[k] == raw[k])
              && a.values.Keys == TargetNames(specs)
  {
    RunMovesFootprint(Open(kind, raw), specs);
  }

  /** A strict success leaves no extras: every source field was moved. */
  lemma StrictSuccessHasNoExtras(kind: string, raw: RawMap, specs: seq<MoveSpec>)
    ensures DecodeArgs(kind, raw, specs, Strict).Ok? ==>
              DecodeArgs(kind, raw, specs, Strict).value.extras == map[]
              && raw.Keys <= SourceNames(specs)
  {
    ExtrasAreUnconsumedFields(kind, raw, specs, Strict);
  }

  /** The warnings a decode logs: `check_extra`'s, reached only when every
      move succeeded and `strict` is not None. */
  function DecodeWarnings(kind: string, raw: RawMap, specs: seq<MoveSpec>, strict: Strictness): (w: seq<DecodeError>)
    ensures |w| <= 1
  {
    match RunMoves(Open(kind, raw), specs)
    case Ok(st) => if strict == Unchecked then [] else ExtraWarnings(st, strict == Strict)
    case Err(_) => []
  }

  /**
   * `strict=False` and `strict=None` decode alike and differ only in the
   * warning: the first logs one `ExtraRawFields` naming the extras exactly
   * when it succeeds with extras, the second never warns, and neither does
   * `strict=True`, which raises instead.
   */
  lemma LenientAndUncheckedAgree(kind: string, raw: RawMap, specs: seq<MoveSpec>)
    ensures DecodeArgs(kind, raw, specs, Lenient) == DecodeArgs(kind, raw, specs, Unchecked)
    ensures DecodeWarnings(kind, raw, specs, Unchecked) == []
    ensures DecodeWarnings(kind, raw, specs, Strict) == []
    ensures DecodeWarnings(kind, raw, specs, Lenient) ==
              match DecodeArgs(kind, raw, specs, Lenient)
              case Ok(a) => if a.extras != map[] then [ExtraRawFields(raw, kind, a.extras.Keys)] else []
              case Err(_) => []
  {
    RunMovesFootprint(Open(kind, raw), specs);
  }

  /** Strict decoding is the tolerant decoding plus one rule: leftover fields
      raise `ExtraRawFields` naming exactly those fields. */
  lemma StrictRejectsExactlyTheExtras(kind: string, raw: RawMap, specs: seq<MoveSpec>)
    ensures DecodeArgs(kind, raw, specs, Strict) ==
              match DecodeArgs(kind, raw, specs, Unchecked)
              case Err(e) => Err(e)
              case Ok(a) =>
                if a.extras == map[] then Ok(a)
                else Err(ExtraRawFields(raw, kind, raw.Keys - SourceNames(specs)))
  {
    RunMovesFootprint(Open(kind, raw), specs);
  }

  /** Two mover states that differ at most in one source field. */
  ghost predicate AgreeExcept(st: MoverState, st': MoverState, src: string)
  {
    && st'.kind == st.kind
    && st'.target == st.target
    && st'.remaining - {src} == st.remaining - {src}
  }

  lemma DropBothSides(a: RawMap, b: RawMap, src: string, name: string)
    requires a - {src} == b - {src}
    ensures (a - {name}) - {src} == (b - {name}) - {src}
  {
    forall k ensures k in (a - {name}) - {src} <==> k in (b - {name}) - {src} {
      assert k in (a - {name}) - {src} <==> k != name && k in a - {src};
      assert k in (b - {name}) - {src} <==> k != name && k in b - {src};
    }
    forall k | k in (a - {name}) - {src} ensures ((a - {name}) - {src})[k] == ((b - {name}) - {src})[k] {
      assert (a - {src})[k] == (b - {src})[k];
    }
  }

  /** Moves that never name `src` behave alike on two states that differ only at
      `src`: if one run succeeds, so does the other, with the same target. */
  lemma {:induction false} RunMovesIgnoresOtherField(st: MoverState, st': MoverState, specs: seq<MoveSpec>, src: string)
    requires AgreeExcept(st, st', src)
    requires forall i :: 0 <= i < |specs| ==> SourceName(specs[i]) != src
    requires RunMoves(st, specs).Ok?
    ensures RunMoves(st', specs).Ok?
    ensures AgreeExcept(RunMoves(st, specs).value, RunMoves(st', specs).value, src)
    ensures RunMoves(st', specs).value.source == st'.source
    ensures RunMoves(st', specs).value.kind == st'.kind
    ensures src in RunMoves(st', specs).value.remaining <==> src in st'.remaining
    ensures src in st'.remaining ==> RunMoves(st', specs).value.remaining[src] == st'.remaining[src]
    decreases |specs|
  {
    if specs != [] {
      var spec := specs[0];
      var name := SourceName(spec);
      assert name != src;
      assert name in st.remaining <==> name in st.remaining - {src};
      assert name in st'.remaining <==> name in st'.remaining - {src};
      if name in st.remaining {
        assert st.remaining[name] == (st.remaining - {src})[name] == st'.remaining[name];
      }
      var o, o' := MoveStep(st, spec), MoveStep(st', spec);
      assert o'.result == o.result;
      DropBothSides(st.remaining, st'.remaining, src, name);
      RunMovesIgnoresOtherField(o.state, o'.state, specs[1..], src);
    }
  }

  /**
   * Missing-field detection: take a source whose moves all succeed and
   * remove one required field that no other move names; decoding then raises
   * `MissingRawField` naming exactly that field, whatever the strictness.
   */
  lemma MissingRequiredFieldIsReported(kind: string, raw: RawMap, specs: seq<MoveSpec>, j: nat, strict: Strictness)
    requires j < |specs| && specs[j].required
    requires forall i :: 0 <= i < |specs| && i != j ==> SourceName(specs[i]) != SourceName(specs[j])
    requires RunMoves(Open(kind, raw), specs).Ok?
    ensures var src := SourceName(specs[j]);
            DecodeArgs(kind, raw - {src}, specs, strict) == Err(MissingRawField(raw - {src}, kind, src))
  {
    MissingFieldStopsRun(kind, raw, specs, j);
  }

  /** The moves of `MissingRequiredFieldIsReported` stop at the removed field. */
  lemma MissingFieldStopsRun(kind: string, raw: RawMap, specs: seq<MoveSpec>, j: nat)
    requires j < |specs| && specs[j].required
    requires forall i :: 0 <= i < |specs| && i != j ==> SourceName(specs[i]) != SourceName(specs[j])
    requires RunMoves(Open(kind, raw), specs).Ok?
    ensures var src := SourceName(specs[j]);
            RunMoves(Open(kind, raw - {src}), specs) == Err(MissingRawField(raw - {src}, kind, src))
  {
    var src := SourceName(specs[j]);
    var before, after := specs[..j], specs[j..];
    RunMovesAt(Open(kind, raw), specs, j);
    RunMovesAt(Open(kind, raw - {src}), specs, j);
    PrefixAvoidsField(specs, j);
    PrefixKeepsRemovedField(kind, raw, before, src);
    var mid' := RunMoves(Open(kind, raw - {src}), before).value;
    assert after[0] == specs[j];
    RunStopsAtMissingField(mid', after);
  }

  /** A run whose first move misses a required field stops there. */
  lemma RunStopsAtMissingField(st: MoverState, specs: seq<MoveSpec>)
    requires specs != [] && SourceName(specs[0]) !in st.remaining && specs[0].required
    ensures RunMoves(st, specs) == Err(MissingRawField(st.source, st.kind, SourceName(specs[0])))
  {
  }

  /** Moves that never name `src` run on a source without `src` as they run
      on the original, and leave it absent. */
  lemma PrefixKeepsRemovedField(kind: string, raw: RawMap, before: seq<MoveSpec>, src: string)
    requires forall i :: 0 <= i < |before| ==> SourceName(before[i]) != src
    requires RunMoves(Open(kind, raw), before).Ok?
    ensures RunMoves(Open(kind, raw - {src}), before).Ok?
    ensures var mid := RunMoves(Open(kind, raw - {src}), before).value;
            mid.kind == kind && mid.source == raw - {src} && src !in mid.remaining
  {
    RunMovesIgnoresOtherField(Open(kind, raw), Open(kind, raw - {src}), before, src);
  }

  /** A run is the run of the moves before the `j`-th, then of the rest. */
  lemma RunMovesAt(st: MoverState, specs: seq<MoveSpec>, j: nat)
    requires j <= |specs|
    ensures RunMoves(st, specs) ==
              match RunMoves(st, specs[..j])
              case Ok(mid) => RunMoves(mid, specs[j..])
              case Err(e) => Err(e)
  {
    assert specs == specs[..j] + specs[j..];
    RunMovesAppend(st, specs[..j], specs[j..]);
  }

  /** The moves before the `j`-th do not name its field when no other move does. */
  lemma PrefixAvoidsField(specs: seq<MoveSpec>, j: nat)
    requires j < |specs|
    requires forall i :: 0 <= i < |specs| && i != j ==> SourceName(specs[i]) != SourceName(specs[j])
    ensures forall i :: 0 <= i < |specs[..j]| ==> SourceName(specs[..j][i]) != SourceName(specs[j])
  {
    forall i | 0 <= i < |specs[..j]| ensures SourceName(specs[..j][i]) != SourceName(specs[j]) {
      assert specs[..j][i] == specs[i];
    }
  }

  /** Moves that never name `src` run on a source whose `src` was replaced as
      they run on the original, and leave the replacement in place. */
  lemma PrefixKeepsReplacedField(kind: string, raw: RawMap, before: seq<MoveSpec>, src: string, bad: Raw)
    requires forall i :: 0 <= i < |before| ==> SourceName(before[i]) != src
    requires RunMoves(Open(kind, raw), before).Ok?
    ensures RunMoves(Open(kind, raw[src := bad]), before).Ok?
    ensures var mid := RunMoves(Open(kind, raw[src := bad]), before).value;
            && mid.kind == kind && mid.source == raw[src := bad]
            && src in mid.remaining && mid.remaining[src] == bad
  {
    var raw' := raw[src := bad];
    assert Open(kind, raw').remaining - {src} == Open(kind, raw).remaining - {src};
    RunMovesIgnoresOtherField(Open(kind, raw), Open(kind, raw'), before, src);
  }

  /**
   * Type-mismatch detection: take a source whose moves all succeed and
   * replace the value of a type-checked field that no other move names by a
   * value of a disallowed shape; decoding then raises `InvalidRawFieldType`
   * citing that field and the rejected value.
   */
  lemma WrongShapeIsReported(kind: string, raw: RawMap, specs: seq<MoveSpec>, j: nat, bad: Raw, strict: Strictness)
    requires j < |specs| && specs[j].expected.Some? && !Matches(bad, specs[j].expected.value)
    requires forall i :: 0 <= i < |specs| && i != j ==> SourceName(specs[i]) != SourceName(specs[j])
    requires RunMoves(Open(kind, raw), specs).Ok?
    ensures var src := SourceName(specs[j]);
            DecodeArgs(kind, raw[src := bad], specs, strict)
              == Err(InvalidRawFieldType(raw[src := bad], kind, src, bad, specs[j].expected.value))
  {
    WrongShapeStopsRun(kind, raw, specs, j, bad);
  }

  /** The moves of `WrongShapeIsReported` stop at the replaced field. */
  lemma WrongShapeStopsRun(kind: string, raw: RawMap, specs: seq<MoveSpec>, j: nat, bad: Raw)
    requires j < |specs| && specs[j].expected.Some? && !Matches(bad, specs[j].expected.value)
    requires forall i :: 0 <= i < |specs| && i != j ==> SourceName(specs[i]) != SourceName(specs[j])
    requires RunMoves(Open(kind, raw), specs).Ok?
    ensures var src := SourceName(specs[j]);
            RunMoves(Open(kind, raw[src := bad]), specs)
              == Err(InvalidRawFieldType(raw[src := bad], kind, src, bad, specs[j].expected.value))
  {
    var src := SourceName(specs[j]);
    var raw' := raw[src := bad];
    var before, after := specs[..j], specs[j..];
    RunMovesAt(Open(kind, raw'), specs, j);
    RunMovesAt(Open(kind, raw), specs, j);
    PrefixAvoidsField(specs, j);
    PrefixKeepsReplacedField(kind, raw, before, src, bad);
    var mid' := RunMoves(Open(kind, raw'), before).value;
    assert after[0] == specs[j];
    RunStopsAtWrongShape(mid', after);
  }

  /** A run whose first move meets a field of the wrong shape stops there. */
  lemma RunStopsAtWrongShape(st: MoverState, specs: seq<MoveSpec>)
    requires specs != [] && SourceName(specs[0]) in st.remaining && specs[0].expected.Some?
    requires !Matches(st.remaining[SourceName(specs[0])], specs[0].expected.value)
    ensures RunMoves(st, specs) == Err(InvalidRawFieldType(st.source, st.kind, SourceName(specs[0]),
                                                          st.remaining[SourceName(specs[0])], specs[0].expected.value))
  {
  }

  /** `RawFieldMover`. */
  class RawFieldMover {
    const kind: string
    const source: RawMap
    var remaining: RawMap
    var target: map<string, Value>
    /** The warnings logged so far. */
    var warnings: seq<DecodeError>

    function State(): MoverState
      reads this
    {
      MoverState(kind, source, remaining, target)
    }

    constructor (kind: string, source: RawMap)
      ensures State() == Open(kind, source)
      ensures warnings == []
    {
      this.kind := kind;
      this.source := source;
      this.remaining := source;
      this.target := map[];
      this.warnings := [];
    }

    /** `move`: pop, check the shape, filter, write. */
    method Move(spec: MoveSpec) returns (r: Result<Value>)
      modifies this`remaining, this`target
      ensures MoveOut(State(), r) == MoveStep(old(State()), spec)
    {
      var src := SourceName(spec);
      var value: Value;
      if src !in remaining {
        if spec.required {
          return Err(MissingRawField(source, kind, src));
        }
        value := VRaw(Null);
      } else {
        var popped := remaining[src];
        remaining := remaining - {src};
        if spec.expected.Some? {
          var ok := IsOfType(popped, spec.expected.value);
          if !ok {
            return Err(InvalidRawFieldType(source, kind, src, popped, spec.expected.value));
          }
        }
        if spec.filter.None? {
          value := VRaw(popped);
        } else {
          var filtered := spec.filter.value(popped);
          match filtered
          case Pass(v) =>
            value := v;
          case Reject(fault) =>
            return Err(InvalidRawFieldValue(source, kind, src, popped, fault));
          case Raise(e) =>
            return Err(e);
        }
      }
      if spec.name != "" {
        target := target[spec.name := value];
      }
      r := Ok(value);
    }

    /** `_collect_ctor_args_from_raw` for a class whose moves are `specs`. */
    method MoveAll(specs: seq<MoveSpec>) returns (r: Result<()>)
      modifies this`remaining, this`target
      ensures r.Ok? <==> RunMoves(old(State()), specs).Ok?
      ensures r.Ok? ==> State() == RunMoves(old(State()), specs).value
      ensures r.Err? ==> r.error == RunMoves(old(State()), specs).error
    {
      var i := 0;
      while i < |specs|
        invariant 0 <= i <= |specs|
        invariant RunMoves(old(State()), specs) == RunMoves(State(), specs[i..])
      {
        ghost var before := State();
        assert specs[i..][0] == specs[i] && specs[i..][1..] == specs[i + 1..];
        var moved := Move(specs[i]);
        if moved.Err? {
          return Err(moved.error);
        }
        i := i + 1;
      }
      return Ok(());
    }

    /** `check_extra`: the leftover names; raises if strict, else warns. */
    method CheckExtra(strict: bool) returns (r: Result<set<string>>)
      modifies this`warnings
      ensures r == CheckExtraStep(State(), strict)
      ensures warnings == old(warnings) + ExtraWarnings(State(), strict)
    {
      var fields := remaining.Keys;
      if fields != {} {
        var exc := ExtraRawFields(source, kind, remaining.Keys);
        if strict {
          return Err(exc);
        }
        warnings := warnings + [exc];
      }
      assert fields == {} <==> remaining == map[];
      return Ok(fields);
    }
  }

  /** `FromRaw.from_raw`: a fresh mover, the class's moves, the extra-field
      check unless `strict` is None, and the leftover fields as extras; also
      returns the warnings the mover logged. */
  method FromRaw(kind: string, raw: RawMap, specs: seq<MoveSpec>, strict: Strictness)
    returns (r: Result<Args>, warnings: seq<DecodeError>)
    ensures r == DecodeArgs(kind, raw, specs, strict)
    ensures warnings == DecodeWarnings(kind, raw, specs, strict)
  {
    var mover := new RawFieldMover(kind, raw);
    var moved := mover.MoveAll(specs);
    if moved.Err? {
      return Err(moved.error), mover.warnings;
    }
    if strict != Unchecked {
      var extra := mover.CheckExtra(strict == Strict);
      if extra.Err? {
        return Err(extra.error), mover.warnings;
      }
    }
    return Ok(Args(mover.target, mover.remaining)), mover.warnings;
  }

  /** A resource converter of the resource layer: whether it accepts a raw value. */
  type Converter = (ResourceKind, Raw) -> bool

  /** `raw_to_jira_resource(kind)`: any failure of the resource constructor
      becomes a `RawFieldValueError`. */
  function ResourceFilter(kind: ResourceKind, accepts: Converter): Filter
  {
    v => if accepts(kind, v) then Pass(VResource(Resource(kind, v))) else Reject(InvalidResource(kind))
  }

  /** A map with nothing left outside `keys` has no key outside `keys`. */
  lemma NothingLeftOutside(raw: RawMap, keys: set<string>)
    ensures raw - keys == map[] <==> raw.Keys <= keys
  {
    if raw - keys == map[] {
      forall k | k in raw ensures k in keys {
        assert k !in raw - keys;
      }
    } else {
      var k :| k in raw - keys;
    }
  }

  /** Whether an error was raised by a mover of the given kind over `raw`. */
  predicate RaisedByMover(e: DecodeError, kind: string, raw: RawMap)
  {
    && (e.MissingRawField? || e.InvalidRawFieldType? || e.InvalidRawFieldValue? || e.ExtraRawFields?)
    && e.kind == kind && e.raw == raw
  }

  /** `mover.move(name, source_name=source, type=t)`: required, checked, unfiltered. */
  function TypedMove(name: string, source: string, t: PyType): MoveSpec
  {
    MoveSpec(name, Some(source), Some(One(Real(t))), None, true)
  }

  /** A typed move succeeds exactly on a present field of that type, and
      returns the field as it is. */
  lemma TypedMoveOutcome(st: MoverState, name: string, source: string, t: PyType)
    ensures var o := MoveStep(st, TypedMove(name, source, t));
            && (o.result.Ok? <==> source in st.remaining && IsInstance(st.remaining[source], t))
            && (o.result.Ok? ==> o.result.value == VRaw(st.remaining[source]))
  {
    if source in st.remaining {
      SingleIsOneElementList(st.remaining[source], Real(t));
    }
  }

  /** `mover.move(name, source_name=source, type=t, filter=f)`: required, checked, filtered. */
  function FilteredMove(name: string, source: string, t: PyType, f: Filter): MoveSpec
  {
    MoveSpec(name, Some(source), Some(One(Real(t))), Some(f), true)
  }

  /** A filtered move of a present field of the right type yields what the
      filter yields, a rejection being reported against the field. */
  lemma FilteredMoveOutcome(st: MoverState, name: string, source: string, t: PyType, f: Filter)
    ensures var o := MoveStep(st, FilteredMove(name, source, t, f));
            && (source !in st.remaining ==> o.result == Err(MissingRawField(st.source, st.kind, source)))
            && (source in st.remaining && !IsInstance(st.remaining[source], t) ==>
                  o.result == Err(InvalidRawFieldType(st.source, st.kind, source, st.remaining[source], One(Real(t)))))
            && (source in st.remaining && IsInstance(st.remaining[source], t) ==>
                  o.result == match f(st.remaining[source])
                              case Pass(v) => Ok(v)
                              case Reject(fault) =>
                                Err(InvalidRawFieldValue(st.source, st.kind, source, st.remaining[source], fault))
                              case Raise(e) => Err(e))
  {
    if source in st.remaining {
      SingleIsOneElementList(st.remaining[source], Real(t));
    }
  }

  /** A required, type-checked, unfiltered move: target name, source name, class. */
  datatype TypedField = TypedField(name: string, source: string, t: PyType)

  /** No two typed moves pop the same source field. */
  predicate DistinctSources(fs: seq<TypedField>)
  {
    forall i, j :: 0 <= i < j < |fs| ==> fs[i].source != fs[j].source
  }

  /** The source fields a sequence of typed moves pops. */
  function TypedSources(fs: seq<TypedField>): set<string>
  {
    set i | 0 <= i < |fs| :: fs[i].source
  }

  /** Typed moves in a row, returning the raw values in order. */
  function MoveTypedFields(st: MoverState, fs: seq<TypedField>): (r: Result<(MoverState, seq<Raw>)>)
    ensures r.Ok? ==> r.value.0.kind == st.kind && r.value.0.source == st.source && |r.value.1| == |fs|
    ensures r.Err? ==> RaisedByMover(r.error, st.kind, st.source)
    decreases |fs|
  {
    if fs == [] then Ok((st, []))
    else
      TypedMoveOutcome(st, fs[0].name, fs[0].source, fs[0].t);
      var a :- MoveStep(st, TypedMove(fs[0].name, fs[0].source, fs[0].t));
      var rest :- MoveTypedFields(a.0, fs[1..]);
      Ok((rest.0, [a.1.raw] + rest.1))
  }

  /** Each value typed moves return is an instance of its move's class. */
  lemma {:induction false} TypedFieldsHaveTheirTypes(st: MoverState, fs: seq<TypedField>)
    ensures var r := MoveTypedFields(st, fs);
            r.Ok? ==> forall i :: 0 <= i < |fs| ==> IsInstance(r.value.1[i], fs[i].t)
    decreases |fs|
  {
    if fs != [] {
      TypedMoveOutcome(st, fs[0].name, fs[0].source, fs[0].t);
      var o := MoveStep(st, TypedMove(fs[0].name, fs[0].source, fs[0].t));
      if o.result.Ok? {
        TypedFieldsHaveTheirTypes(o.state, fs[1..]);
      }
    }
  }

  /** Typed moves with distinct sources succeed exactly when every source
      field is present with its class; they then return those fields'
      values in order and pop exactly those fields. */
  lemma {:induction false} TypedFieldsMoved(st: MoverState, fs: seq<TypedField>)
    requires DistinctSources(fs)
    ensures var r := MoveTypedFields(st, fs);
            && (r.Ok? <==> forall i :: 0 <= i < |fs| ==>
                             fs[i].source in st.remaining && IsInstance(st.remaining[fs[i].source], fs[i].t))
            && (r.Ok? ==> && (forall i :: 0 <= i < |fs| ==> r.value.1[i] == st.remaining[fs[i].source])
                          && r.value.0.remaining == st.remaining - TypedSources(fs))
    decreases |fs|
  {
    if fs != [] {
      var f := fs[0];
      TypedMoveOutcome(st, f.name, f.source, f.t);
      var o := MoveStep(st, TypedMove(f.name, f.source, f.t));
      if o.result.Ok? {
        TailIsDistinct(fs);
        TypedFieldsMoved(o.state, fs[1..]);
        var rest := MoveTypedFields(o.state, fs[1..]);
        assert MoveTypedFields(st, fs) == AfterMoved([st.remaining[f.source]], rest);
        TypedFieldsStep(st.remaining, fs, o.state.remaining, rest);
      }
    }
  }

  /** The error of a typed move of `f` whose field is absent or not of its class. */
  function TypedFieldError(st: MoverState, f: TypedField): DecodeError
  {
    if f.source !in st.remaining then MissingRawField(st.source, st.kind, f.source)
    else InvalidRawFieldType(st.source, st.kind, f.source, st.remaining[f.source], One(Real(f.t)))
  }

  /** Typed moves with distinct sources stop at the first field, in their
      order, that is absent or not of its class, and fail with that move's
      error: the fields after it are not looked at. */
  lemma {:induction false} TypedFieldsStopAt(st: MoverState, fs: seq<TypedField>, k: nat)
    requires DistinctSources(fs) && k < |fs|
    requires forall i :: 0 <= i < k ==> fs[i].source in st.remaining && IsInstance(st.remaining[fs[i].source], fs[i].t)
    requires !(fs[k].source in st.remaining && IsInstance(st.remaining[fs[k].source], fs[k].t))
    ensures MoveTypedFields(st, fs) == Err(TypedFieldError(st, fs[k]))
    decreases k
  {
    var f := fs[0];
    TypedMoveOutcome(st, f.name, f.source, f.t);
    var o := MoveStep(st, TypedMove(f.name, f.source, f.t));
    if k == 0 {
      if f.source in st.remaining {
        SingleIsOneElementList(st.remaining[f.source], Real(f.t));
      }
    } else {
      TailIsDistinct(fs);
      var tail := fs[1..];
      forall i | 0 <= i < k - 1
        ensures tail[i].source in o.state.remaining && IsInstance(o.state.remaining[tail[i].source], tail[i].t)
      {
        assert tail[i] == fs[i + 1];
      }
      assert tail[k - 1] == fs[k];
      TypedFieldsStopAt(o.state, tail, k - 1);
    }
  }

  /** The typed moves after the first pop distinct fields, none of them the first's. */
  lemma TailIsDistinct(fs: seq<TypedField>)
    requires fs != [] && DistinctSources(fs)
    ensures DistinctSources(fs[1..])
    ensures forall i :: 0 <= i < |fs[1..]| ==> fs[1..][i].source != fs[0].source
  {
    var tail := fs[1..];
    forall i, j | 0 <= i < j < |tail| ensures tail[i].source != tail[j].source {
      assert tail[i] == fs[i + 1] && tail[j] == fs[j + 1];
    }
    forall i | 0 <= i < |tail| ensures tail[i].source != fs[0].source {
      assert tail[i] == fs[i + 1];
    }
  }

  /** The fields typed moves pop: the first's, then those of the rest. */
  lemma TypedSourcesSplit(fs: seq<TypedField>)
    requires fs != []
    ensures TypedSources(fs) == {fs[0].source} + TypedSources(fs[1..])
  {
    var tail := fs[1..];
    forall x | x in TypedSources(fs) ensures x in {fs[0].source} + TypedSources(tail) {
      var i :| 0 <= i < |fs| && fs[i].source == x;
      if i > 0 { assert fs[i] == tail[i - 1]; }
    }
    forall x | x in TypedSources(tail) ensures x in TypedSources(fs) {
      var i :| 0 <= i < |tail| && tail[i].source == x;
      assert fs[i + 1] == tail[i];
    }
  }

  /** What `TypedFieldsMoved` states of typed moves `fs` on the fields `rem`
      and their outcome `r`. */
  predicate MovedAsTyped(rem: RawMap, fs: seq<TypedField>, r: Result<(MoverState, seq<Raw>)>)
  {
    && (r.Ok? <==> forall i :: 0 <= i < |fs| ==> fs[i].source in rem && IsInstance(rem[fs[i].source], fs[i].t))
    && (r.Ok? ==> && |r.value.1| == |fs|
                  && (forall i :: 0 <= i < |fs| ==> r.value.1[i] == rem[fs[i].source])
                  && r.value.0.remaining == rem - TypedSources(fs))
  }

  /** The inductive step of `TypedFieldsMoved`: a first move that pops its
      field, followed by later moves that behave as stated on what is left. */
  lemma TypedFieldsStep(rem: RawMap, fs: seq<TypedField>, next: RawMap, rest: Result<(MoverState, seq<Raw>)>)
    requires fs != [] && DistinctSources(fs)
    requires fs[0].source in rem && IsInstance(rem[fs[0].source], fs[0].t)
    requires next == rem - {fs[0].source}
    requires rest.Ok? ==> |rest.value.1| == |fs| - 1
    requires MovedAsTyped(next, fs[1..], rest)
    ensures MovedAsTyped(rem, fs, AfterMoved([rem[fs[0].source]], rest))
  {
    var f, tail := fs[0], fs[1..];
    TailIsDistinct(fs);
    var r := AfterMoved([rem[f.source]], rest);
    forall i | 0 <= i < |tail|
      ensures tail[i].source in next <==> tail[i].source in rem
      ensures tail[i].source in next ==> next[tail[i].source] == rem[tail[i].source]
    {
    }
    if forall i :: 0 <= i < |fs| ==> fs[i].source in rem && IsInstance(rem[fs[i].source], fs[i].t) {
      forall i | 0 <= i < |tail| ensures tail[i].source in next && IsInstance(next[tail[i].source], tail[i].t) {
        assert tail[i] == fs[i + 1];
      }
    }
    if r.Ok? {
      forall i | 0 <= i < |fs|
        ensures fs[i].source in rem && IsInstance(rem[fs[i].source], fs[i].t)
        ensures r.value.1[i] == rem[fs[i].source]
      {
        if i > 0 {
          assert fs[i] == tail[i - 1];
        }
      }
      TypedSourcesSplit(fs);
    }
  }

  /** The outcome of later typed moves, after the values already moved. */
  function AfterMoved(values: seq<Raw>, later: Result<(MoverState, seq<Raw>)>): Result<(MoverState, seq<Raw>)>
  {
    match later
    case Ok(rest) => Ok((rest.0, values + rest.1))
    case Err(e) => Err(e)
  }

  lemma NothingMovedYet(later: Result<(MoverState, seq<Raw>)>)
    ensures AfterMoved([], later) == later
  {
    if later.Ok? {
      assert [] + later.value.1 == later.value.1;
    }
  }

  /** `MoveTypedFields` on a mover: the typed moves one after the other. */
  method MoveTypedFieldsOn(mover: RawFieldMover, fs: seq<TypedField>) returns (r: Result<seq<Raw>>)
    modifies mover`remaining, mover`target
    ensures var spec := MoveTypedFields(old(mover.State()), fs);
            && (r.Ok? <==> spec.Ok?)
            && (r.Ok? ==> (mover.State(), r.value) == spec.value)
            && (r.Err? ==> r.error == spec.error)
  {
    var values: seq<Raw> := [];
    var i := 0;
    assert fs[i..] == fs;
    NothingMovedYet(MoveTypedFields(mover.State(), fs));
    while i < |fs|
      invariant 0 <= i <= |fs|
      invariant AfterMoved(values, MoveTypedFields(mover.State(), fs[i..])) == MoveTypedFields(old(mover.State()), fs)
    {
      var f := fs[i];
      ghost var before := mover.State();
      TypedMoveOutcome(before, f.name, f.source, f.t);
      assert fs[i..][1..] == fs[i + 1..];
      var a := mover.Move(TypedMove(f.name, f.source, f.t));
      if a.Err? { return Err(a.error); }
      assert (values + [a.value.raw]) + [] == values + [a.value.raw];
      forall rest: seq<Raw> ensures (values + [a.value.raw]) + rest == values + ([a.value.raw] + rest) { }
      values := values + [a.value.raw];
      i := i + 1;
    }
    assert fs[i..] == [];
    assert values + [] == values;
    r := Ok(values);
  }
}

=== FILE: records.dfy ===
/**
 * The immutable records the decoders build and the error values they raise:
 * the `InvalidRawData` family of jirax/raw.py, the `RawFieldValueError`s a
 * field filter may raise (jirax/raw.py, jirax/changelog.py), and the records
 * of jirax/changelog.py and jirax/issuelink.py.
 *
 * They live in one module because they refer to each other: a
 * `DuplicateField` error carries two field changes, a field change is stored
 * in a mover's target, and a rejected field value keeps the error that caused
 * the rejection.
 */
module Records {
  import opened Util

  /** The Jira resource classes that the resource layer builds from raw sub-maps. */
  datatype ResourceKind = User | Project | Board | Issue | Worklog | Comment | Attachment

  /** A resource built by that layer; the core sees only its kind and its raw map. */
  datatype Resource = Resource(kind: ResourceKind, raw: Raw)

  /** `datetime.fromtimestamp(millis / 1000)`, kept symbolic. */
  datatype DateTime = FromMillis(millis: Raw)

  /** `FieldValue`: a raw field value and its string form; either may be null. */
  datatype FieldValue = FieldValue(raw: Raw, str: Raw)

  /** `FieldChange`: one changed issue field. */
  datatype FieldChange = FieldChange(
    name: string,
    id: string,
    fieldType: string,
    oldValue: FieldValue,
    newValue: FieldValue,
    extras: RawMap)

  /** `Change`: a changelog entry, its field changes keyed by field ID. */
  datatype Change = Change(id: int, fields: map<string, FieldChange>, extras: RawMap)

  /** `IssueLinkType`. */
  datatype IssueLinkType = IssueLinkType(
    id: int,
    name: string,
    outward: string,
    inward: string,
    isSubtask: bool,
    isSystem: bool,
    extras: RawMap)

  /** `IssueLink`. */
  datatype IssueLink = IssueLink(
    id: int,
    linkType: IssueLinkType,
    source: int,
    destination: int,
    isSystem: bool,
    extras: RawMap)

  /** A value a mover writes into its target (a constructor argument). */
  datatype Value =
    | VRaw(raw: Raw)
    | VInt(i: int)
    | VTime(time: DateTime)
    | VResource(resource: Resource)
    | VFields(fields: map<string, FieldChange>)
    | VChange(change: Change)
    | VLinkType(linkType: IssueLinkType)
    | VLink(link: IssueLink)
    | VFieldValue(fieldValue: FieldValue)

  /**
   * A `RawFieldValueError` raised by a field filter: an empty changelog
   * entry, a field ID seen twice, a resource the resource layer rejected, or a
   * bare `RawFieldValueError` raised from a nested decode error.
   */
  datatype ValueFault =
    | EmptyChange
    | DuplicateField(first: FieldChange, second: FieldChange)
    | InvalidResource(resource: ResourceKind)
    | Because(cause: DecodeError)

  /**
   * What a decode raises. The first six are `InvalidRawData`; `TypeError`
   * (a failed `check_type` or an unhashable lookup key), `ValueError`
   * (a failed `int(...)`) and `TimestampOutOfRange` (the `ValueError`,
   * `OverflowError` or `OSError` of `datetime.fromtimestamp` for a timestamp
   * outside the years it can represent) are ordinary exceptions that escape
   * unwrapped.
   */
  datatype DecodeError =
    | MissingRawField(raw: RawMap, kind: string, name: string)
    | InvalidRawFieldType(raw: RawMap, kind: string, name: string, value: Raw, expected: Expected)
    | InvalidRawFieldValue(raw: RawMap, kind: string, name: string, value: Raw, cause: ValueFault)
    | ExtraRawFields(raw: RawMap, kind: string, names: set<string>)
    | MissingWebhookEventType(raw: RawMap)
    | UnknownWebhookEventType(raw: RawMap, eventType: string)
    | TypeError(actual: PyType)
    | ValueError(text: string)
    | TimestampOutOfRange(millis: Raw)

  /** Whether an error is an `InvalidRawData`. */
  predicate IsInvalidRawData(e: DecodeError)
  {
    !(e.TypeError? || e.ValueError? || e.TimestampOutOfRange?)
  }

  /** `InvalidRawData.KIND` and `InvalidWebhookEvent.KIND`. */
  const DataKind := "data"
  const WebhookEventKind := "webhook event"

  /** The `kind` property: the kind given at raise time, or the class's KIND. */
  function KindOf(e: DecodeError): (k: string)
    requires IsInvalidRawData(e)
    ensures k != ""
    ensures (e.MissingWebhookEventType? || e.UnknownWebhookEventType?) ==> k == WebhookEventKind
    ensures !(e.MissingWebhookEventType? || e.UnknownWebhookEventType?) && e.kind != "" ==> k == e.kind
  {
    if e.MissingWebhookEventType? || e.UnknownWebhookEventType? then WebhookEventKind
    else if e.kind != "" then e.kind
    else DataKind
  }

  /** A decode outcome: a value, or the error raised. */
  datatype Result<+T> = Ok(value: T) | Err(error: DecodeError) {
    predicate IsFailure() { Err? }

    function PropagateFailure<U>(): Result<U>
      requires Err?
    {
      Err(error)
    }

    function Extract(): T
      requires Ok?
    {
      value
    }
  }
}

=== FILE: util.dfy ===
/**
 * Runtime shapes of raw payload values and the "is of type" test of
 * jirax/util.py.
 *
 * A webhook body is parsed from JSON, so a raw value is one of a closed set
 * of shapes; the classes it is tested against form a small closed hierarchy
 * in which `bool` is a subclass of `int`, `dict` of `Mapping`, and `dict`,
 * `str` and `list` are all `Iterable`.
 */
module Util {

  /** A raw payload value, as produced by parsing a JSON body. */
  datatype Raw =
    | Null
    | Bool(b: bool)
    | Int(i: int)
    | Float(x: real)
    | Str(s: string)
    | Map(fields: map<string, Raw>)
    | Seq(items: seq<Raw>)

  /** A raw object: field name to raw value. */
  type RawMap = map<string, Raw>

  /** The classes raw values are tested against. */
  datatype PyType =
    | NoneType
    | BoolType
    | IntType
    | FloatType
    | StrType
    | DictType
    | ListType
    | MappingAbc
    | IterableAbc

  /** `type(v)`: the exact class of a raw value. */
  function TypeOf(v: Raw): PyType
  {
    match v
    case Null => NoneType
    case Bool(_) => BoolType
    case Int(_) => IntType
    case Float(_) => FloatType
    case Str(_) => StrType
    case Map(_) => DictType
    case Seq(_) => ListType
  }

  /** `__name__` of a class; for these classes it equals `__qualname__`. */
  function Name(t: PyType): string
  {
    match t
    case NoneType => "NoneType"
    case BoolType => "bool"
    case IntType => "int"
    case FloatType => "float"
    case StrType => "str"
    case DictType => "dict"
    case ListType => "list"
    case MappingAbc => "Mapping"
    case IterableAbc => "Iterable"
  }

  /** `issubclass(a, b)` within the closed hierarchy. */
  predicate IsSubclass(a: PyType, b: PyType)
  {
    || a == b
    || (a == BoolType && b == IntType)
    || (a == DictType && (b == MappingAbc || b == IterableAbc))
    || (a == MappingAbc && b == IterableAbc)
    || ((a == StrType || a == ListType) && b == IterableAbc)
  }

  /** `isinstance(v, t)`. */
  predicate IsInstance(v: Raw, t: PyType)
  {
    IsSubclass(TypeOf(v), t)
  }

  /** One expected type: a real class, or a class name. */
  datatype TypeSpec = Real(cls: PyType) | Named(name: string)

  /** The `type` argument: a single type or name, or an iterable of them. */
  datatype Expected = One(spec: TypeSpec) | Several(specs: seq<TypeSpec>)

  /** The expectation as a list: a single type or name is a one-element list. */
  function Listed(e: Expected): (specs: seq<TypeSpec>)
    ensures e.One? ==> specs == [e.spec]
    ensures e.Several? ==> specs == e.specs
  {
    match e
    case One(t) => [t]
    case Several(ts) => ts
  }

  /** Whether one expected type accepts a value: by instance for a real class,
      by the exact class's name for a name. */
  predicate Accepts(v: Raw, t: TypeSpec)
  {
    match t
    case Real(c) => IsInstance(v, c)
    case Named(n) => n == Name(TypeOf(v))
  }

  /** Reference definition of `is_of_type`: some listed type accepts the value. */
  predicate Matches(v: Raw, e: Expected)
  {
    exists i :: 0 <= i < |Listed(e)| && Accepts(v, Listed(e)[i])
  }

  /** The real classes listed in an expectation. */
  function RealTypes(specs: seq<TypeSpec>): set<PyType>
  {
    set i | 0 <= i < |specs| && specs[i].Real? :: specs[i].cls
  }

  /** The class names listed in an expectation. */
  function TypeNameSet(specs: seq<TypeSpec>): set<string>
  {
    set i | 0 <= i < |specs| && specs[i].Named? :: specs[i].name
  }

  /**
   * `is_of_type`: sorts the expected types into real classes and names, then
   * tests `isinstance` against the classes and the exact class's name
   * against the names.
   */
  method IsOfType(value: Raw, expected: Expected) returns (b: bool)
    ensures b == Matches(value, expected)
    ensures b <==> (exists t :: t in RealTypes(Listed(expected)) && IsInstance(value, t))
                   || Name(TypeOf(value)) in TypeNameSet(Listed(expected))
  {
    var specs := Listed(expected);
    var realTypes: set<PyType> := {};
    var names: set<string> := {};
    for k := 0 to |specs|
      invariant realTypes == RealTypes(specs[..k])
      invariant names == TypeNameSet(specs[..k])
    {
      assert specs[..k + 1] == specs[..k] + [specs[k]];
      match specs[k]
      case Real(t) =>
        realTypes := realTypes + {t};
      case Named(n) =>
        names := names + {n};
    }
    assert specs[..|specs|] == specs;
    b := (exists t :: t in realTypes && IsInstance(value, t)) || Name(TypeOf(value)) in names;
    if b {
      if t :| t in realTypes && IsInstance(value, t) {
        var i :| 0 <= i < |specs| && specs[i].Real? && specs[i].cls == t;
        assert Accepts(value, specs[i]);
      } else {
        var i :| 0 <= i < |specs| && specs[i].Named? && specs[i].name == Name(TypeOf(value));
        assert Accepts(value, specs[i]);
      }
    } else {
      forall i | 0 <= i < |specs| ensures !Accepts(value, specs[i]) {
        if specs[i].Real? {
          assert specs[i].cls in realTypes;
        } else {
          assert specs[i].name in names;
        }
      }
    }
  }

  /** `type_names`: each expected type's qualified name, names as they are. */
  function TypeNames(e: Expected): (r: seq<string>)
    ensures |r| == |Listed(e)|
    ensures forall i :: 0 <= i < |r| ==>
              r[i] == (match Listed(e)[i] case Real(c) => Name(c) case Named(n) => n)
  {
    var specs := Listed(e);
    seq(|specs|, i requires 0 <= i < |specs| =>
      match specs[i] case Real(c) => Name(c) case Named(n) => n)
  }

  /** Outcome of `check_type`: returns, or raises a `TypeError` naming the
      value's class and the expected names. */
  datatype Checked = Passed | Mismatch(actual: PyType, expected: seq<string>)

  /** `check_type`. */
  function CheckType(v: Raw, e: Expected): (r: Checked)
    ensures r.Passed? <==> Matches(v, e)
    ensures r.Mismatch? ==> r.actual == TypeOf(v) && r.expected == TypeNames(e)
  {
    if Matches(v, e) then Passed else Mismatch(TypeOf(v), TypeNames(e))
  }

  /** An empty expectation list never matches. */
  lemma EmptyNeverMatches(v: Raw)
    ensures !Matches(v, Several([]))
  {
  }

  /** A single type or name behaves exactly as the one-element list holding it. */
  lemma SingleIsOneElementList(v: Raw, t: TypeSpec)
    ensures Matches(v, One(t)) <==> Matches(v, Several([t]))
    ensures Matches(v, One(t)) <==> Accepts(v, t)
    ensures TypeNames(One(t)) == TypeNames(Several([t]))
  {
    assert Listed(One(t)) == Listed(Several([t])) == [t];
    if Accepts(v, t) {
      assert Accepts(v, Listed(One(t))[0]);
      assert Accepts(v, Listed(Several([t]))[0]);
    }
  }

  /** A name matches only the value's exact class, never a superclass:
      `"Mapping"` does not accept a dict, while the class `Mapping` does. */
  lemma NamesMatchExactClassOnly(v: Raw, n: string)
    ensures Matches(v, One(Named(n))) <==> n == Name(TypeOf(v))
  {
    SingleIsOneElementList(v, Named(n));
  }

  /** `bool` values pass an `int` check; `None` passes only `NoneType`. */
  lemma BoolIsInt(b: bool)
    ensures Matches(Bool(b), One(Real(IntType)))
    ensures !Matches(Null, One(Real(IntType)))
  {
    SingleIsOneElementList(Bool(b), Real(IntType));
    SingleIsOneElementList(Null, Real(IntType));
  }

  /** Python truthiness, used by `bool(...)`. */
  predicate Truthy(v: Raw)
  {
    match v
    case Null => false
    case Bool(b) => b
    case Int(i) => i != 0
    case Float(x) => x != 0.0
    case Str(s) => |s| > 0
    case Map(m) => |m| > 0
    case Seq(xs) => |xs| > 0
  }
}

=== FILE: webhook.dfy ===
/**
 * The webhook decoder of jirax/webhook.py: the registry of the 24 known
 * event types, the field moves of every event class, and the dispatcher
 * `webhook_event_from_raw`.
 *
 * Each event class collects its constructor arguments by calling `super()`
 * first and then moving its own fields, so a class moves the fields of its
 * bases in reverse method resolution order before its own. `EventMoves`
 * writes out the resulting sequence of moves for every class; a decode is
 * then `DecodeArgs` over that sequence. No event class sets its own `KIND`,
 * so every event mover reports the kind "data".
 */
module Webhook {
  import opened Wrappers
  import opened Util
  import opened Records
  import opened RawData
  import opened Changelog
  import opened IssueLinks

  /** The event classes: the generic `WebhookEvent` and the 24 registered ones. */
  datatype EventClass =
    | Generic
    | UserCreated | UserUpdated | UserDeleted
    | ProjectCreated | ProjectUpdated | ProjectDeleted
    | BoardCreated | BoardUpdated | BoardConfigChanged | BoardDeleted
    | IssueCreated | IssueUpdated | IssueDeleted | IssueWorkLogUpdated
    | WorklogCreated | WorklogUpdated | WorklogDeleted
    | CommentCreated | CommentUpdated | CommentDeleted
    | IssueLinkCreated | IssueLinkDeleted
    | AttachmentCreated | AttachmentDeleted

  /** A class that has its own entry in the registry. */
  type RegisteredClass = c: EventClass | c != Generic witness UserCreated

  /** The 24 registered classes, in the order `KNOWN_WEBHOOK_EVENTS` lists them. */
  const RegisteredClasses: seq<RegisteredClass> :=
    UserClasses + ProjectClasses + BoardClasses + IssueClasses
    + WorklogClasses + CommentClasses + IssueLinkClasses + AttachmentClasses

  const UserClasses: seq<RegisteredClass> := [UserCreated, UserUpdated, UserDeleted]
  const ProjectClasses: seq<RegisteredClass> := [ProjectCreated, ProjectUpdated, ProjectDeleted]
  const BoardClasses: seq<RegisteredClass> := [BoardCreated, BoardUpdated, BoardConfigChanged, BoardDeleted]
  const IssueClasses: seq<RegisteredClass> := [IssueCreated, IssueUpdated, IssueDeleted, IssueWorkLogUpdated]
  const WorklogClasses: seq<RegisteredClass> := [WorklogCreated, WorklogUpdated, WorklogDeleted]
  const CommentClasses: seq<RegisteredClass> := [CommentCreated, CommentUpdated, CommentDeleted]
  const IssueLinkClasses: seq<RegisteredClass> := [IssueLinkCreated, IssueLinkDeleted]
  const AttachmentClasses: seq<RegisteredClass> := [AttachmentCreated, AttachmentDeleted]

  /** The registry key of a registered class: one entry of
      `KNOWN_WEBHOOK_EVENTS` per case. */
  function EventTypeOf(c: RegisteredClass): (key: string)
  {
    match c
    case UserCreated => "user_created"
    case UserUpdated => "user_updated"
    case UserDeleted => "user_deleted"
    case ProjectCreated => "project_created"
    case ProjectUpdated => "project_updated"
    case ProjectDeleted => "project_deleted"
    case BoardCreated => "board_created"
    case BoardUpdated => "board_updated"
    case BoardConfigChanged => "board_configuration_changed"
    case BoardDeleted => "board_deleted"
    case IssueCreated => "jira:issue_created"
    case IssueUpdated => "jira:issue_updated"
    case IssueDeleted => "jira:issue_deleted"
    case IssueWorkLogUpdated => "jira:worklog_updated"
    case WorklogCreated => "worklog_created"
    case WorklogUpdated => "worklog_updated"
    case WorklogDeleted => "worklog_deleted"
    case CommentCreated => "comment_created"
    case CommentUpdated => "comment_updated"
    case CommentDeleted => "comment_deleted"
    case IssueLinkCreated => "issuelink_created"
    case IssueLinkDeleted => "issuelink_deleted"
    case AttachmentCreated => "attachment_created"
    case AttachmentDeleted => "attachment_deleted"
  }

  /** No two registered classes share a key. */
  lemma EventTypesAreDistinct(a: RegisteredClass, b: RegisteredClass)
    requires EventTypeOf(a) == EventTypeOf(b)
    ensures a == b
  {
  }

  /** The registered classes are 24 distinct classes: every class except
      the generic one, each once. */
  lemma RegisteredClassesAreAll(c: EventClass)
    ensures c in RegisteredClasses <==> c != Generic
  {
  }

  /** The class registered under `key` among `cs`, if there is one. */
  function FindClass(cs: seq<RegisteredClass>, key: string): (r: Option<RegisteredClass>)
    ensures r.Some? ==> r.value in cs && EventTypeOf(r.value) == key
    ensures r.None? ==> forall c | c in cs :: EventTypeOf(c) != key
  {
    if |cs| == 0 then None
    else if EventTypeOf(cs[0]) == key then Some(cs[0])
    else FindClass(cs[1..], key)
  }

  /** The registry keys. */
  const KnownEventTypes: set<string> := set c | c in RegisteredClasses :: EventTypeOf(c)

  /** `KNOWN_WEBHOOK_EVENTS`: each registered class under its key. */
  const KnownWebhookEvents: map<string, RegisteredClass> :=
    map key | key in KnownEventTypes :: FindClass(RegisteredClasses, key).value

  /** Every registered class is found under its own key. */
  lemma RegistryFindsEveryClass(c: RegisteredClass)
    ensures EventTypeOf(c) in KnownWebhookEvents && KnownWebhookEvents[EventTypeOf(c)] == c
  {
    RegisteredClassesAreAll(c);
    var d := KnownWebhookEvents[EventTypeOf(c)];
    EventTypesAreDistinct(c, d);
  }

  /** Every key names a registered class whose own key it is: the registry
      is one-to-one and never yields the generic class. */
  lemma RegistryKeysAreTheClassKeys(key: string)
    requires key in KnownWebhookEvents
    ensures EventTypeOf(KnownWebhookEvents[key]) == key
  {
  }

  /** Whether a class's comment is required (`COMMENT_REQUIRED`): the issue
      update events override it to False; every other class keeps True. */
  function CommentRequired(cls: EventClass): (required: bool)
  {
    !(cls == IssueUpdated || cls == IssueWorkLogUpdated)
  }

  /** The first and one past the last millisecond `datetime` can represent:
      0001-01-01 and 10000-01-01, both at midnight UTC. */
  const MinMillis: int := -62135596800000
  const MaxMillis: int := 253402300800000

  /** Whether a timestamp in milliseconds falls in the years `datetime`
      represents; a value of another type is not checked here. */
  predicate TimestampInRange(v: Raw)
  {
    match v
    case Int(i) => MinMillis <= i < MaxMillis
    case Float(x) => MinMillis as real <= x < MaxMillis as real
    case _ => true
  }

  /** `datetime.fromtimestamp(timestamp / 1000)`: the date is kept symbolic,
      and a timestamp outside the representable years raises. */
  const ToDateTime: Filter :=
    (v: Raw) => if TimestampInRange(v) then Pass(VTime(FromMillis(v))) else Raise(TimestampOutOfRange(v))

  /** A decoder of changelog entries; the event lemmas are stated for any
      such decoder and the events use `DecodeChange`. */
  type ChangeDecoder = RawMap -> Result<Change>

  /** `Change.from_raw` as a filter: its errors propagate as they are. */
  function ChangeFilter(decode: ChangeDecoder): Filter
  {
    (v: Raw) => if !v.Map? then Raise(TypeError(TypeOf(v)))
                else match decode(v.fields)
                  case Ok(c) => Pass(VChange(c))
                  case Err(e) => Raise(e)
  }

  /** A decoder of issue links; the event lemmas are stated for any such
      decoder and the events use `DecodeIssueLink`. */
  type LinkDecoder = RawMap -> Result<IssueLink>

  /** `IssueLink.from_raw` as a filter: its errors propagate as they are. */
  function LinkFilter(decode: LinkDecoder): Filter
  {
    (v: Raw) => if !v.Map? then Raise(TypeError(TypeOf(v)))
                else match decode(v.fields)
                  case Ok(l) => Pass(VLink(l))
                  case Err(e) => Raise(e)
  }

  /** `move('timestamp', type=(int, float), filter=...)`. */
  function TimestampMove(): MoveSpec
  {
    MoveSpec("timestamp", None, Some(Several([Real(IntType), Real(FloatType)])), Some(ToDateTime), true)
  }

  /** `move('type', type=str, source_name='webhookEvent')`. */
  function TypeMove(): MoveSpec
  {
    TypedMove("type", "webhookEvent", StrType)
  }

  /** `move(name, type=t, filter=raw_to_jira_resource(kind), required=required)`. */
  function ResourceMove(name: string, t: PyType, kind: ResourceKind, accepts: Converter, required: bool): MoveSpec
  {
    MoveSpec(name, None, Some(One(Real(t))), Some(ResourceFilter(kind, accepts)), required)
  }

  /** `move('issue_event_type', source_name='issue_event_type_name', type=str, required=False)`. */
  function IssueEventTypeMove(): MoveSpec
  {
    MoveSpec("issue_event_type", Some("issue_event_type_name"), Some(One(Real(StrType))), None, false)
  }

  /** `move('change', source_name='changelog', type=Mapping, filter=Change.from_raw, required=False)`. */
  function ChangeMove(decode: ChangeDecoder): MoveSpec
  {
    MoveSpec("change", Some("changelog"), Some(One(Real(MappingAbc))), Some(ChangeFilter(decode)), false)
  }

  /** `move('issue_link', type=dict, source_name='issueLink', filter=IssueLink.from_raw)`. */
  function IssueLinkMove(decode: LinkDecoder): MoveSpec
  {
    FilteredMove("issue_link", "issueLink", DictType, LinkFilter(decode))
  }

  /** The fragment of `WebhookEvent`. */
  function WebhookEventMoves(): seq<MoveSpec>
  {
    [TimestampMove(), TypeMove()]
  }

  /** The fragment of `IssueEvent`, after those of `WithIssue`, `WithUser` and
      `WebhookEvent`, its bases in reverse resolution order. */
  function IssueEventMoves(accepts: Converter): seq<MoveSpec>
  {
    [ResourceMove("issue", DictType, Issue, accepts, true),
     ResourceMove("user", DictType, User, accepts, true)]
    + WebhookEventMoves() + [IssueEventTypeMove()]
  }

  /** The moves of `UserEvent`: `WithUser`'s fragment, then `WebhookEvent`'s. */
  function UserEventMoves(accepts: Converter): seq<MoveSpec>
  {
    [ResourceMove("user", DictType, User, accepts, true)] + WebhookEventMoves()
  }

  /** The moves of `ProjectEvent`: `WebhookEvent`'s fragment, then its own. */
  function ProjectEventMoves(accepts: Converter): seq<MoveSpec>
  {
    WebhookEventMoves() + [ResourceMove("project", MappingAbc, Project, accepts, true)]
  }

  /** The moves of `BoardEvent`: `WebhookEvent`'s fragment, then its own. */
  function BoardEventMoves(accepts: Converter): seq<MoveSpec>
  {
    WebhookEventMoves() + [ResourceMove("board", MappingAbc, Board, accepts, true)]
  }

  /** The moves of `IssueUpdatedEvent`: `WithComment`'s fragment, those of
      `IssueEvent`, then its own. */
  function IssueUpdatedEventMoves(accepts: Converter, commentRequired: bool, decode: ChangeDecoder): seq<MoveSpec>
  {
    [ResourceMove("comment", DictType, Comment, accepts, commentRequired)]
    + IssueEventMoves(accepts) + [ChangeMove(decode)]
  }

  /** The moves of `WorklogEvent`: `WebhookEvent`'s fragment, then its own. */
  function WorklogEventMoves(accepts: Converter): seq<MoveSpec>
  {
    WebhookEventMoves() + [ResourceMove("worklog", MappingAbc, Worklog, accepts, true)]
  }

  /** The moves of `CommentEvent`: `WithComment`'s fragment, then `WebhookEvent`'s. */
  function CommentEventMoves(accepts: Converter, commentRequired: bool): seq<MoveSpec>
  {
    [ResourceMove("comment", DictType, Comment, accepts, commentRequired)] + WebhookEventMoves()
  }

  /** The moves of `IssueLinkEvent`: `WithIssueLink`'s fragment, then `WebhookEvent`'s. */
  function IssueLinkEventMoves(decode: LinkDecoder): seq<MoveSpec>
  {
    [IssueLinkMove(decode)] + WebhookEventMoves()
  }

  /** The moves of `AttachmentEvent`: `WebhookEvent`'s fragment, then its own. */
  function AttachmentEventMoves(accepts: Converter): seq<MoveSpec>
  {
    WebhookEventMoves() + [ResourceMove("attachment", MappingAbc, Attachment, accepts, true)]
  }

  /** The intermediate classes that define an event's fields; each
      registered class adds no moves of its own. */
  datatype EventFamily =
    | WebhookEventFamily | UserEventFamily | ProjectEventFamily | BoardEventFamily
    | IssueEventFamily | IssueUpdatedEventFamily | WorklogEventFamily
    | CommentEventFamily | IssueLinkEventFamily | AttachmentEventFamily

  /** The class whose moves a class inherits. */
  function FamilyOf(cls: EventClass): EventFamily
  {
    match cls
    case Generic => WebhookEventFamily
    case UserCreated | UserUpdated | UserDeleted => UserEventFamily
    case ProjectCreated | ProjectUpdated | ProjectDeleted => ProjectEventFamily
    case BoardCreated | BoardUpdated | BoardConfigChanged | BoardDeleted => BoardEventFamily
    case IssueCreated | IssueDeleted => IssueEventFamily
    case IssueUpdated | IssueWorkLogUpdated => IssueUpdatedEventFamily
    case WorklogCreated | WorklogUpdated | WorklogDeleted => WorklogEventFamily
    case CommentCreated | CommentUpdated | CommentDeleted => CommentEventFamily
    case IssueLinkCreated | IssueLinkDeleted => IssueLinkEventFamily
    case AttachmentCreated | AttachmentDeleted => AttachmentEventFamily
  }

  /** The moves of a family, given the class's `COMMENT_REQUIRED`. */
  function FamilyMoves(family: EventFamily, accepts: Converter, commentRequired: bool): seq<MoveSpec>
  {
    match family
    case WebhookEventFamily => WebhookEventMoves()
    case UserEventFamily => UserEventMoves(accepts)
    case ProjectEventFamily => ProjectEventMoves(accepts)
    case BoardEventFamily => BoardEventMoves(accepts)
    case IssueEventFamily => IssueEventMoves(accepts)
    case IssueUpdatedEventFamily => IssueUpdatedEventMoves(accepts, commentRequired, DecodeChange)
    case WorklogEventFamily => WorklogEventMoves(accepts)
    case CommentEventFamily => CommentEventMoves(accepts, commentRequired)
    case IssueLinkEventFamily => IssueLinkEventMoves(DecodeIssueLink)
    case AttachmentEventFamily => AttachmentEventMoves(accepts)
  }

  /**
   * `cls._collect_ctor_args_from_raw`: every fragment of the class's bases in
   * reverse method resolution order, then the class's own fragment.
   */
  function EventMoves(cls: EventClass, accepts: Converter): seq<MoveSpec>
  {
    FamilyMoves(FamilyOf(cls), accepts, CommentRequired(cls))
  }

  /** A decoded webhook event: its class, its constructor arguments, and its
      extra raw fields. */
  datatype WebhookEvent = WebhookEvent(cls: EventClass, args: map<string, Value>, extras: RawMap)

  /** `cls.from_raw(raw, strict=strict)` for an event class. */
  function DecodeEvent(cls: EventClass, raw: RawMap, strict: Strictness, accepts: Converter): Result<WebhookEvent>
  {
    var a :- DecodeArgs(DataKind, raw, EventMoves(cls, accepts), strict);
    Ok(WebhookEvent(cls, a.values, a.extras))
  }

  /** The fields `IssueUpdatedEvent` pops and the arguments it writes, in order. */
  lemma IssueUpdatedEventOrder(accepts: Converter, commentRequired: bool, decode: ChangeDecoder)
    ensures var specs := IssueUpdatedEventMoves(accepts, commentRequired, decode);
            && SourceOrder(specs) == ["comment", "issue", "user", "timestamp", "webhookEvent", "issue_event_type_name", "changelog"]
            && NameOrder(specs) == ["comment", "issue", "user", "timestamp", "type", "issue_event_type", "change"]
            && DistinctMoves(specs)
  {
    var specs := IssueUpdatedEventMoves(accepts, commentRequired, decode);
    assert specs
           == [ResourceMove("comment", DictType, Comment, accepts, commentRequired),
               ResourceMove("issue", DictType, Issue, accepts, true),
               ResourceMove("user", DictType, User, accepts, true),
               TimestampMove(), TypeMove(), IssueEventTypeMove(), ChangeMove(decode)];
    assert SourceOrder(specs) == ["comment", "issue", "user", "timestamp", "webhookEvent", "issue_event_type_name", "changelog"];
    assert NameOrder(specs) == ["comment", "issue", "user", "timestamp", "type", "issue_event_type", "change"];
  }

  /** The fields `WebhookEvent` pops and the arguments it writes. */
  lemma WebhookEventOrder()
    ensures SourceOrder(WebhookEventMoves()) == ["timestamp", "webhookEvent"]
    ensures NameOrder(WebhookEventMoves()) == ["timestamp", "type"]
    ensures DistinctMoves(WebhookEventMoves())
  {
  }

  /** The fields `UserEvent` pops and the arguments it writes, in order. */
  lemma UserEventOrder(accepts: Converter)
    ensures SourceOrder(UserEventMoves(accepts)) == ["user", "timestamp", "webhookEvent"]
    ensures NameOrder(UserEventMoves(accepts)) == ["user", "timestamp", "type"]
    ensures DistinctMoves(UserEventMoves(accepts))
  {
  }

  /** The fields an event with one resource after the common fields pops. */
  lemma ResourceEventOrder(specs: seq<MoveSpec>, name: string, t: PyType, kind: ResourceKind, accepts: Converter)
    requires specs == WebhookEventMoves() + [ResourceMove(name, t, kind, accepts, true)]
    ensures SourceOrder(specs) == ["timestamp", "webhookEvent", name]
    ensures NameOrder(specs) == ["timestamp", "type", name]
    ensures name !in {"", "timestamp", "webhookEvent", "type"} ==> DistinctMoves(specs)
  {
  }

  /** The fields `IssueEvent` pops and the arguments it writes, in order. */
  lemma IssueEventOrder(accepts: Converter)
    ensures SourceOrder(IssueEventMoves(accepts)) == ["issue", "user", "timestamp", "webhookEvent", "issue_event_type_name"]
    ensures NameOrder(IssueEventMoves(accepts)) == ["issue", "user", "timestamp", "type", "issue_event_type"]
    ensures DistinctMoves(IssueEventMoves(accepts))
  {
  }

  /** The fields `CommentEvent` pops and the arguments it writes, in order. */
  lemma CommentEventOrder(accepts: Converter, commentRequired: bool)
    ensures SourceOrder(CommentEventMoves(accepts, commentRequired)) == ["comment", "timestamp", "webhookEvent"]
    ensures NameOrder(CommentEventMoves(accepts, commentRequired)) == ["comment", "timestamp", "type"]
    ensures DistinctMoves(CommentEventMoves(accepts, commentRequired))
  {
  }

  /** The fields `IssueLinkEvent` pops and the arguments it writes, in order. */
  lemma IssueLinkEventOrder(decode: LinkDecoder)
    ensures SourceOrder(IssueLinkEventMoves(decode)) == ["issueLink", "timestamp", "webhookEvent"]
    ensures NameOrder(IssueLinkEventMoves(decode)) == ["issue_link", "timestamp", "type"]
    ensures DistinctMoves(IssueLinkEventMoves(decode))
  {
  }

  /** Every class pops distinct fields into distinct arguments. */
  lemma EventMovesAreDistinct(cls: EventClass, accepts: Converter)
    ensures DistinctMoves(EventMoves(cls, accepts))
  {
    FamilyMovesAreDistinct(FamilyOf(cls), accepts, CommentRequired(cls));
  }

  lemma FamilyMovesAreDistinct(family: EventFamily, accepts: Converter, commentRequired: bool)
    ensures DistinctMoves(FamilyMoves(family, accepts, commentRequired))
  {
    var specs := FamilyMoves(family, accepts, commentRequired);
    match family
    case WebhookEventFamily => WebhookEventOrder();
    case UserEventFamily => UserEventOrder(accepts);
    case ProjectEventFamily => ResourceEventOrder(specs, "project", MappingAbc, Project, accepts);
    case BoardEventFamily => ResourceEventOrder(specs, "board", MappingAbc, Board, accepts);
    case IssueEventFamily => IssueEventOrder(accepts);
    case IssueUpdatedEventFamily => IssueUpdatedEventOrder(accepts, commentRequired, DecodeChange);
    case WorklogEventFamily => ResourceEventOrder(specs, "worklog", MappingAbc, Worklog, accepts);
    case CommentEventFamily => CommentEventOrder(accepts, commentRequired);
    case IssueLinkEventFamily => IssueLinkEventOrder(DecodeIssueLink);
    case AttachmentEventFamily => ResourceEventOrder(specs, "attachment", MappingAbc, Attachment, accepts);
  }

  /** Every class moves the timestamp and the type of `WebhookEvent`. */
  lemma EveryClassHasTheCommonMoves(cls: EventClass, accepts: Converter)
    ensures TimestampMove() in EventMoves(cls, accepts)
    ensures TypeMove() in EventMoves(cls, accepts)
  {
    var common := WebhookEventMoves();
    assert common[0] == TimestampMove() && common[1] == TypeMove();
  }

  /** The timestamp and the type arguments of a decode by distinct moves
      that include those of `WebhookEvent`. */
  lemma CommonArguments(raw: RawMap, specs: seq<MoveSpec>, strict: Strictness)
    requires DistinctMoves(specs) && TimestampMove() in specs && TypeMove() in specs
    ensures var r := DecodeArgs(DataKind, raw, specs, strict);
            r.Ok? ==>
              && "timestamp" in raw && (IsInstance(raw["timestamp"], IntType) || IsInstance(raw["timestamp"], FloatType))
              && "timestamp" in r.value.values
              && TimestampInRange(raw["timestamp"])
              && r.value.values["timestamp"] == VTime(FromMillis(raw["timestamp"]))
              && "webhookEvent" in raw && raw["webhookEvent"].Str?
              && "type" in r.value.values
              && r.value.values["type"] == VRaw(raw["webhookEvent"])
  {
    TimestampArgument(raw, specs, strict);
    TypeArgument(raw, specs, strict);
  }

  /** The timestamp argument: an in-range `int` or `float` raw timestamp, as a date-time. */
  lemma TimestampArgument(raw: RawMap, specs: seq<MoveSpec>, strict: Strictness)
    requires DistinctMoves(specs) && TimestampMove() in specs
    ensures var r := DecodeArgs(DataKind, raw, specs, strict);
            r.Ok? ==>
              && "timestamp" in raw && (IsInstance(raw["timestamp"], IntType) || IsInstance(raw["timestamp"], FloatType))
              && "timestamp" in r.value.values
              && TimestampInRange(raw["timestamp"])
              && r.value.values["timestamp"] == VTime(FromMillis(raw["timestamp"]))
  {
    DistinctMovesStoreTheirFields(DataKind, raw, specs, strict);
    var t :| 0 <= t < |specs| && specs[t] == TimestampMove();
    if DecodeArgs(DataKind, raw, specs, strict).Ok? {
      assert Matches(raw["timestamp"], Several([Real(IntType), Real(FloatType)]));
    }
  }

  /** The type argument: the raw `webhookEvent` string. */
  lemma TypeArgument(raw: RawMap, specs: seq<MoveSpec>, strict: Strictness)
    requires DistinctMoves(specs) && TypeMove() in specs
    ensures var r := DecodeArgs(DataKind, raw, specs, strict);
            r.Ok? ==>
              && "webhookEvent" in raw && raw["webhookEvent"].Str?
              && "type" in r.value.values
              && r.value.values["type"] == VRaw(raw["webhookEvent"])
  {
    DistinctMovesStoreTheirFields(DataKind, raw, specs, strict);
    var w :| 0 <= w < |specs| && specs[w] == TypeMove();
    if DecodeArgs(DataKind, raw, specs, strict).Ok? {
      assert Matches(raw["webhookEvent"], One(Real(StrType)));
    }
  }

  /**
   * The arguments of a decoded event are exactly the names its class moves;
   * its timestamp is the raw millisecond timestamp, an `int` or a `float`
   * within the representable years, and its type is the raw `webhookEvent` string.
   */
  lemma DecodedEventArguments(cls: EventClass, raw: RawMap, strict: Strictness, accepts: Converter)
    ensures var r := DecodeEvent(cls, raw, strict, accepts);
            r.Ok? ==>
              && r.value.cls == cls
              && r.value.args.Keys == TargetNames(EventMoves(cls, accepts))
              && "timestamp" in raw && (IsInstance(raw["timestamp"], IntType) || IsInstance(raw["timestamp"], FloatType))
              && "timestamp" in r.value.args
              && TimestampInRange(raw["timestamp"])
              && r.value.args["timestamp"] == VTime(FromMillis(raw["timestamp"]))
              && "webhookEvent" in raw && raw["webhookEvent"].Str?
              && "type" in r.value.args
              && r.value.args["type"] == VRaw(raw["webhookEvent"])
  {
    var specs := EventMoves(cls, accepts);
    EventMovesAreDistinct(cls, accepts);
    DistinctMovesStoreTheirFields(DataKind, raw, specs, strict);
    EveryClassHasTheCommonMoves(cls, accepts);
    CommonArguments(raw, specs, strict);
  }

  /** What a resource move stores: a present field of its type that the
      resource layer accepts, as that resource; an absent optional field as None. */
  lemma ResourceArgument(raw: RawMap, specs: seq<MoveSpec>, j: nat, strict: Strictness,
                         name: string, t: PyType, kind: ResourceKind, accepts: Converter, required: bool)
    requires DistinctMoves(specs) && j < |specs| && specs[j] == ResourceMove(name, t, kind, accepts, required)
    ensures var r := DecodeArgs(DataKind, raw, specs, strict);
            r.Ok? ==>
              && name in r.value.values
              && (name in raw ==>
                    && IsInstance(raw[name], t) && accepts(kind, raw[name])
                    && r.value.values[name] == VResource(Resource(kind, raw[name])))
              && (name !in raw ==> !required && r.value.values[name] == VRaw(Null))
  {
    DistinctMovesStoreTheirFields(DataKind, raw, specs, strict);
    if DecodeArgs(DataKind, raw, specs, strict).Ok? && name in raw {
      assert Matches(raw[name], One(Real(t)));
    }
  }

  /** What an optional unfiltered move stores: a present field of its type as
      it is, an absent one as None. */
  lemma OptionalArgument(raw: RawMap, specs: seq<MoveSpec>, j: nat, strict: Strictness, t: PyType)
    requires DistinctMoves(specs) && j < |specs|
    requires specs[j].sourceName.Some? && specs[j].expected == Some(One(Real(t))) && specs[j].filter.None?
    ensures var r, src, name := DecodeArgs(DataKind, raw, specs, strict), specs[j].sourceName.value, specs[j].name;
            r.Ok? ==>
              && name in r.value.values
              && (src in raw ==> IsInstance(raw[src], t) && r.value.values[name] == VRaw(raw[src]))
              && (src !in raw ==> r.value.values[name] == VRaw(Null))
  {
    DistinctMovesStoreTheirFields(DataKind, raw, specs, strict);
    var src := specs[j].sourceName.value;
    if DecodeArgs(DataKind, raw, specs, strict).Ok? && src in raw {
      assert Matches(raw[src], One(Real(t)));
    }
  }

  /** The resources of an issue update: a required issue and user, and a
      comment that is None when absent. */
  lemma IssueUpdatedResources(raw: RawMap, specs: seq<MoveSpec>, strict: Strictness, accepts: Converter, commentRequired: bool,
                               decode: ChangeDecoder)
    requires specs == IssueUpdatedEventMoves(accepts, commentRequired, decode)
    ensures var r := DecodeArgs(DataKind, raw, specs, strict);
            r.Ok? ==>
              var args := r.value.values;
              && "issue" in raw && "issue" in args && args["issue"] == VResource(Resource(Issue, raw["issue"]))
              && "user" in raw && "user" in args && args["user"] == VResource(Resource(User, raw["user"]))
              && "comment" in args
              && ("comment" in raw ==> args["comment"] == VResource(Resource(Comment, raw["comment"])))
              && ("comment" !in raw ==> !commentRequired && args["comment"] == VRaw(Null))
  {
    IssueUpdatedEventOrder(accepts, commentRequired, decode);
    ResourceArgument(raw, specs, 0, strict, "comment", DictType, Comment, accepts, commentRequired);
    ResourceArgument(raw, specs, 1, strict, "issue", DictType, Issue, accepts, true);
    ResourceArgument(raw, specs, 2, strict, "user", DictType, User, accepts, true);
  }

  /** The optional issue event type name of an issue update: None when absent. */
  lemma IssueEventTypeArgument(raw: RawMap, specs: seq<MoveSpec>, strict: Strictness, accepts: Converter, commentRequired: bool,
                                decode: ChangeDecoder)
    requires specs == IssueUpdatedEventMoves(accepts, commentRequired, decode)
    ensures var r := DecodeArgs(DataKind, raw, specs, strict);
            r.Ok? ==>
              var args := r.value.values;
              && "issue_event_type" in args
              && ("issue_event_type_name" in raw ==>
                    raw["issue_event_type_name"].Str? && args["issue_event_type"] == VRaw(raw["issue_event_type_name"]))
              && ("issue_event_type_name" !in raw ==> args["issue_event_type"] == VRaw(Null))
  {
    IssueUpdatedEventOrder(accepts, commentRequired, decode);
    assert specs[5] == IssueEventTypeMove();
    OptionalArgument(raw, specs, 5, strict, StrType);
  }

  /** The optional changelog of an issue update: None when absent, and
      otherwise a mapping that decodes, as that changelog entry. */
  lemma ChangeArgument(raw: RawMap, specs: seq<MoveSpec>, strict: Strictness, accepts: Converter, commentRequired: bool,
                        decode: ChangeDecoder)
    requires specs == IssueUpdatedEventMoves(accepts, commentRequired, decode)
    ensures var r := DecodeArgs(DataKind, raw, specs, strict);
            r.Ok? ==>
              var args := r.value.values;
              && "change" in args
              && ("changelog" in raw ==>
                    && raw["changelog"].Map? && decode(raw["changelog"].fields).Ok?
                    && args["change"] == VChange(decode(raw["changelog"].fields).value))
              && ("changelog" !in raw ==> args["change"] == VRaw(Null))
  {
    IssueUpdatedEventOrder(accepts, commentRequired, decode);
    assert specs[6] == ChangeMove(decode);
    DistinctMovesStoreTheirFields(DataKind, raw, specs, strict);
  }

  /**
   * An issue update event holds its issue and user; its comment, its issue
   * event type name and its changelog are each optional and None when absent;
   * a present changelog is a mapping that decodes as a strict changelog entry.
   */
  lemma IssueUpdatedArguments(cls: EventClass, raw: RawMap, strict: Strictness, accepts: Converter)
    requires FamilyOf(cls) == IssueUpdatedEventFamily
    ensures var r := DecodeEvent(cls, raw, strict, accepts);
            r.Ok? ==>
              var args := r.value.args;
              && "issue" in raw && "issue" in args && args["issue"] == VResource(Resource(Issue, raw["issue"]))
              && "user" in raw && "user" in args && args["user"] == VResource(Resource(User, raw["user"]))
              && "comment" in args
              && ("comment" in raw ==> args["comment"] == VResource(Resource(Comment, raw["comment"])))
              && ("comment" !in raw ==> args["comment"] == VRaw(Null))
              && "issue_event_type" in args
              && ("issue_event_type_name" in raw ==>
                    raw["issue_event_type_name"].Str? && args["issue_event_type"] == VRaw(raw["issue_event_type_name"]))
              && ("issue_event_type_name" !in raw ==> args["issue_event_type"] == VRaw(Null))
              && "change" in args
              && ("changelog" in raw ==>
                    && raw["changelog"].Map? && DecodeChange(raw["changelog"].fields).Ok?
                    && args["change"] == VChange(DecodeChange(raw["changelog"].fields).value))
              && ("changelog" !in raw ==> args["change"] == VRaw(Null))
  {
    IssueUpdatedClassMoves(cls, accepts);
    IssueUpdatedMovesArguments(raw, strict, accepts, DecodeChange);
  }

  /** The issue update classes keep the comment optional. */
  lemma IssueUpdatedClassMoves(cls: EventClass, accepts: Converter)
    requires FamilyOf(cls) == IssueUpdatedEventFamily
    ensures EventMoves(cls, accepts) == IssueUpdatedEventMoves(accepts, false, DecodeChange)
  {
  }

  /** The moves of an issue update event, for any changelog decoder. */
  lemma IssueUpdatedMovesArguments(raw: RawMap, strict: Strictness, accepts: Converter, decode: ChangeDecoder)
    ensures var r := DecodeArgs(DataKind, raw, IssueUpdatedEventMoves(accepts, false, decode), strict);
            r.Ok? ==>
              var args := r.value.values;
              && "issue" in raw && "issue" in args && args["issue"] == VResource(Resource(Issue, raw["issue"]))
              && "user" in raw && "user" in args && args["user"] == VResource(Resource(User, raw["user"]))
              && "comment" in args
              && ("comment" in raw ==> args["comment"] == VResource(Resource(Comment, raw["comment"])))
              && ("comment" !in raw ==> args["comment"] == VRaw(Null))
              && "issue_event_type" in args
              && ("issue_event_type_name" in raw ==>
                    raw["issue_event_type_name"].Str? && args["issue_event_type"] == VRaw(raw["issue_event_type_name"]))
              && ("issue_event_type_name" !in raw ==> args["issue_event_type"] == VRaw(Null))
              && "change" in args
              && ("changelog" in raw ==>
                    && raw["changelog"].Map? && decode(raw["changelog"].fields).Ok?
                    && args["change"] == VChange(decode(raw["changelog"].fields).value))
              && ("changelog" !in raw ==> args["change"] == VRaw(Null))
  {
    var specs := IssueUpdatedEventMoves(accepts, false, decode);
    IssueUpdatedResources(raw, specs, strict, accepts, false, decode);
    IssueEventTypeArgument(raw, specs, strict, accepts, false, decode);
    ChangeArgument(raw, specs, strict, accepts, false, decode);
  }

  /**
   * An issue created or deleted event holds its issue and user, dicts the
   * resource layer accepts, and its issue event type name: the string when
   * present, None when absent.
   */
  lemma IssueEventArguments(cls: EventClass, raw: RawMap, strict: Strictness, accepts: Converter)
    requires FamilyOf(cls) == IssueEventFamily
    ensures var r := DecodeEvent(cls, raw, strict, accepts);
            r.Ok? ==>
              var args := r.value.args;
              && "issue" in raw && raw["issue"].Map? && accepts(Issue, raw["issue"])
              && "issue" in args && args["issue"] == VResource(Resource(Issue, raw["issue"]))
              && "user" in raw && raw["user"].Map? && accepts(User, raw["user"])
              && "user" in args && args["user"] == VResource(Resource(User, raw["user"]))
              && "issue_event_type" in args
              && ("issue_event_type_name" in raw ==>
                    raw["issue_event_type_name"].Str? && args["issue_event_type"] == VRaw(raw["issue_event_type_name"]))
              && ("issue_event_type_name" !in raw ==> args["issue_event_type"] == VRaw(Null))
  {
    IssueEventMovesArguments(raw, strict, accepts);
  }

  /** The moves of `IssueEvent` store the issue, the user and the optional
      issue event type name. */
  lemma IssueEventMovesArguments(raw: RawMap, strict: Strictness, accepts: Converter)
    ensures var r := DecodeArgs(DataKind, raw, IssueEventMoves(accepts), strict);
            r.Ok? ==>
              var args := r.value.values;
              && "issue" in raw && raw["issue"].Map? && accepts(Issue, raw["issue"])
              && "issue" in args && args["issue"] == VResource(Resource(Issue, raw["issue"]))
              && "user" in raw && raw["user"].Map? && accepts(User, raw["user"])
              && "user" in args && args["user"] == VResource(Resource(User, raw["user"]))
              && "issue_event_type" in args
              && ("issue_event_type_name" in raw ==>
                    raw["issue_event_type_name"].Str? && args["issue_event_type"] == VRaw(raw["issue_event_type_name"]))
              && ("issue_event_type_name" !in raw ==> args["issue_event_type"] == VRaw(Null))
  {
    IssueEventResources(raw, strict, accepts);
    IssueEventTypeOfMoves(raw, strict, accepts);
  }

  /** The resources of `IssueEvent`'s moves: a required issue and user. */
  lemma IssueEventResources(raw: RawMap, strict: Strictness, accepts: Converter)
    ensures var r := DecodeArgs(DataKind, raw, IssueEventMoves(accepts), strict);
            r.Ok? ==>
              var args := r.value.values;
              && "issue" in raw && raw["issue"].Map? && accepts(Issue, raw["issue"])
              && "issue" in args && args["issue"] == VResource(Resource(Issue, raw["issue"]))
              && "user" in raw && raw["user"].Map? && accepts(User, raw["user"])
              && "user" in args && args["user"] == VResource(Resource(User, raw["user"]))
  {
    var specs := IssueEventMoves(accepts);
    IssueEventOrder(accepts);
    ResourceArgument(raw, specs, 0, strict, "issue", DictType, Issue, accepts, true);
    ResourceArgument(raw, specs, 1, strict, "user", DictType, User, accepts, true);
  }

  /** The issue event type name of `IssueEvent`'s moves: the string, or None when absent. */
  lemma IssueEventTypeOfMoves(raw: RawMap, strict: Strictness, accepts: Converter)
    ensures var r := DecodeArgs(DataKind, raw, IssueEventMoves(accepts), strict);
            r.Ok? ==>
              var args := r.value.values;
              && "issue_event_type" in args
              && ("issue_event_type_name" in raw ==>
                    raw["issue_event_type_name"].Str? && args["issue_event_type"] == VRaw(raw["issue_event_type_name"]))
              && ("issue_event_type_name" !in raw ==> args["issue_event_type"] == VRaw(Null))
  {
    var specs := IssueEventMoves(accepts);
    IssueEventOrder(accepts);
    assert specs[4] == IssueEventTypeMove();
    OptionalArgument(raw, specs, 4, strict, StrType);
  }

  /** A decode whose first move fails fails with that move's error. */
  lemma FirstMoveFails(raw: RawMap, specs: seq<MoveSpec>, strict: Strictness)
    requires specs != [] && MoveStep(Open(DataKind, raw), specs[0]).result.Err?
    ensures DecodeArgs(DataKind, raw, specs, strict) == Err(MoveStep(Open(DataKind, raw), specs[0]).result.error)
  {
  }

  /** A comment event requires its comment: without one the decode reports
      it missing before anything else, and with one it holds that comment. */
  lemma CommentEventNeedsComment(cls: EventClass, raw: RawMap, strict: Strictness, accepts: Converter)
    requires FamilyOf(cls) == CommentEventFamily
    ensures "comment" !in raw ==> DecodeEvent(cls, raw, strict, accepts) == Err(MissingRawField(raw, DataKind, "comment"))
    ensures var r := DecodeEvent(cls, raw, strict, accepts);
            r.Ok? ==> "comment" in raw && "comment" in r.value.args
                      && r.value.args["comment"] == VResource(Resource(Comment, raw["comment"]))
  {
    CommentMovesNeedComment(raw, strict, accepts);
  }

  /** The moves of a comment event with a required comment: without one they
      report it missing, and with one they store it. */
  lemma CommentMovesNeedComment(raw: RawMap, strict: Strictness, accepts: Converter)
    ensures var r := DecodeArgs(DataKind, raw, CommentEventMoves(accepts, true), strict);
            && ("comment" !in raw ==> r == Err(MissingRawField(raw, DataKind, "comment")))
            && (r.Ok? ==> "comment" in raw && "comment" in r.value.values
                          && r.value.values["comment"] == VResource(Resource(Comment, raw["comment"])))
  {
    var specs := CommentEventMoves(accepts, true);
    CommentEventOrder(accepts, true);
    if "comment" !in raw {
      FirstMoveFails(raw, specs, strict);
    }
    ResourceArgument(raw, specs, 0, strict, "comment", DictType, Comment, accepts, true);
  }

  /** A decode whose first move is filtered and whose filter raises on a
      present field of the right type fails with what the filter raised. */
  lemma FilterRaisesFirst(raw: RawMap, specs: seq<MoveSpec>, strict: Strictness,
                          name: string, src: string, t: PyType, f: Filter, e: DecodeError)
    requires specs != [] && specs[0] == FilteredMove(name, src, t, f)
    requires src in raw && IsInstance(raw[src], t) && f(raw[src]) == Raise(e)
    ensures DecodeArgs(DataKind, raw, specs, strict) == Err(e)
  {
    FilteredMoveOutcome(Open(DataKind, raw), name, src, t, f);
    FirstMoveFails(raw, specs, strict);
  }

  /** The issue link family's moves, for any link decoder, hold the link
      the `issueLink` field decodes to. */
  lemma LinkMovesArguments(raw: RawMap, strict: Strictness, decode: LinkDecoder)
    ensures var r := DecodeArgs(DataKind, raw, IssueLinkEventMoves(decode), strict);
            r.Ok? ==>
              && "issueLink" in raw && raw["issueLink"].Map? && decode(raw["issueLink"].fields).Ok?
              && "issue_link" in r.value.values
              && r.value.values["issue_link"] == VLink(decode(raw["issueLink"].fields).value)
  {
    IssueLinkEventOrder(decode);
    DistinctMovesStoreTheirFields(DataKind, raw, IssueLinkEventMoves(decode), strict);
  }

  /** An issue link event holds the link its `issueLink` field decodes to. */
  lemma IssueLinkEventArguments(cls: EventClass, raw: RawMap, strict: Strictness, accepts: Converter)
    requires FamilyOf(cls) == IssueLinkEventFamily
    ensures var r := DecodeEvent(cls, raw, strict, accepts);
            r.Ok? ==>
              && "issueLink" in raw && raw["issueLink"].Map? && DecodeIssueLink(raw["issueLink"].fields).Ok?
              && "issue_link" in r.value.args
              && r.value.args["issue_link"] == VLink(DecodeIssueLink(raw["issueLink"].fields).value)
  {
    LinkMovesArguments(raw, strict, DecodeIssueLink);
  }

  /** The issue link family's moves, for any link decoder, fail with the
      decoder's error when the link does not decode. */
  lemma LinkMovesFail(raw: RawMap, strict: Strictness, decode: LinkDecoder)
    requires "issueLink" in raw && raw["issueLink"].Map? && decode(raw["issueLink"].fields).Err?
    ensures DecodeArgs(DataKind, raw, IssueLinkEventMoves(decode), strict) == Err(decode(raw["issueLink"].fields).error)
  {
    FilterRaisesFirst(raw, IssueLinkEventMoves(decode), strict, "issue_link", "issueLink", DictType, LinkFilter(decode),
                      decode(raw["issueLink"].fields).error);
  }

  /**
   * When an issue link event's link fails to decode, its error leaves the
   * event decode as it is: an error of kind "issue link" over the link's own
   * fields, not a field value error of the event.
   */
  lemma IssueLinkErrorPropagates(cls: EventClass, raw: RawMap, strict: Strictness, accepts: Converter)
    requires FamilyOf(cls) == IssueLinkEventFamily
    requires "issueLink" in raw && raw["issueLink"].Map? && DecodeIssueLink(raw["issueLink"].fields).Err?
    ensures DecodeEvent(cls, raw, strict, accepts) == Err(DecodeIssueLink(raw["issueLink"].fields).error)
    ensures RaisedByMover(DecodeIssueLink(raw["issueLink"].fields).error, LinkKind, raw["issueLink"].fields)
  {
    LinkMovesFail(raw, strict, DecodeIssueLink);
  }

  /** Searching the registered classes is looking the key up in the registry. */
  lemma FindClassIsRegistryLookup(key: string)
    ensures FindClass(RegisteredClasses, key)
              == if key in KnownWebhookEvents then Some(KnownWebhookEvents[key]) else None
  {
    var found := FindClass(RegisteredClasses, key);
    if found.Some? {
      RegistryFindsEveryClass(found.value);
    } else if key in KnownWebhookEvents {
      RegistryKeysAreTheClassKeys(key);
      RegisteredClassesAreAll(KnownWebhookEvents[key]);
    }
  }

  /** The dispatcher's choice: the class to decode with and the warnings it
      logged on the way. */
  datatype Dispatch = Dispatch(cls: EventClass, warnings: seq<DecodeError>)

  /**
   * The class lookup of `webhook_event_from_raw`. A missing tag raises
   * `MissingWebhookEventType`; a tag that is not a `str` raises `TypeError`
   * (an unhashable one in the lookup, any other when `UnknownWebhookEventType`
   * checks its type); an unregistered `str` tag raises
   * `UnknownWebhookEventType` when strict, is logged and falls back to the
   * generic class when lenient, and falls back silently when unchecked.
   */
  function ChooseClass(raw: RawMap, strict: Strictness): (r: Result<Dispatch>)
    ensures "webhookEvent" !in raw ==> r == Err(MissingWebhookEventType(raw))
    ensures "webhookEvent" in raw && !raw["webhookEvent"].Str? ==> r == Err(TypeError(TypeOf(raw["webhookEvent"])))
  {
    if "webhookEvent" !in raw then Err(MissingWebhookEventType(raw))
    else if !raw["webhookEvent"].Str? then Err(TypeError(TypeOf(raw["webhookEvent"])))
    else
      var key := raw["webhookEvent"].s;
      match FindClass(RegisteredClasses, key)
      case Some(c) => Ok(Dispatch(c, []))
      case None =>
        if strict == Strict then Err(UnknownWebhookEventType(raw, key))
        else if strict == Lenient then Ok(Dispatch(Generic, [UnknownWebhookEventType(raw, key)]))
        else Ok(Dispatch(Generic, []))
  }

  /**
   * What the dispatcher chooses: a registered class only under its own key
   * and silently; the generic class only for an unregistered tag and never
   * when strict, with a warning exactly when lenient; and an error for an
   * unregistered tag only when strict.
   */
  lemma ChoiceFollowsTheRegistry(raw: RawMap, strict: Strictness)
    ensures var r := ChooseClass(raw, strict);
            && (r.Ok? && r.value.cls != Generic ==>
                  && "webhookEvent" in raw && raw["webhookEvent"] == Str(EventTypeOf(r.value.cls))
                  && r.value.warnings == [])
            && (r.Ok? && r.value.cls == Generic ==>
                  && "webhookEvent" in raw && raw["webhookEvent"].Str?
                  && raw["webhookEvent"].s !in KnownWebhookEvents
                  && strict != Strict
                  && r.value.warnings == (if strict == Lenient then [UnknownWebhookEventType(raw, raw["webhookEvent"].s)] else []))
            && (r.Err? && "webhookEvent" in raw && raw["webhookEvent"].Str? ==>
                  && strict == Strict && raw["webhookEvent"].s !in KnownWebhookEvents
                  && r.error == UnknownWebhookEventType(raw, raw["webhookEvent"].s))
  {
    if "webhookEvent" in raw && raw["webhookEvent"].Str? {
      FindClassIsRegistryLookup(raw["webhookEvent"].s);
    }
  }

  /** A registered class's key chooses that class, whatever the strictness. */
  lemma KeyChoosesItsClass(raw: RawMap, strict: Strictness, c: RegisteredClass)
    requires "webhookEvent" in raw && raw["webhookEvent"] == Str(EventTypeOf(c))
    ensures ChooseClass(raw, strict) == Ok(Dispatch(c, []))
  {
    RegistryFindsEveryClass(c);
  }

  /** A decoded webhook event and the warnings logged while decoding it:
      the dispatcher's, then the event mover's. */
  datatype Decoded = Decoded(event: WebhookEvent, warnings: seq<DecodeError>)

  /** `webhook_event_from_raw(raw, strict)`: check that the payload is a
      mapping, choose the class, and decode with it. */
  function DecodeWebhookEvent(raw: Raw, strict: Strictness, accepts: Converter): (r: Result<Decoded>)
    ensures !raw.Map? ==> r == Err(TypeError(TypeOf(raw)))
    ensures r.Ok? ==> raw.Map? && ChooseClass(raw.fields, strict).Ok?
                      && var d := ChooseClass(raw.fields, strict).value;
                      && r.value.event.cls == d.cls
                      && r.value.warnings == d.warnings + DecodeWarnings(DataKind, raw.fields, EventMoves(d.cls, accepts), strict)
  {
    if !raw.Map? then Err(TypeError(TypeOf(raw)))
    else
      var d :- ChooseClass(raw.fields, strict);
      var event :- DecodeEvent(d.cls, raw.fields, strict, accepts);
      Ok(Decoded(event, d.warnings + DecodeWarnings(DataKind, raw.fields, EventMoves(d.cls, accepts), strict)))
  }

  /**
   * A decoded webhook event's type argument is its raw tag; for a registered
   * class that tag is the class's own registry key, and the generic class is
   * used only for an unregistered tag when decoding is not strict.
   */
  lemma DecodedTypeIsTheTag(raw: Raw, strict: Strictness, accepts: Converter)
    ensures var r := DecodeWebhookEvent(raw, strict, accepts);
            r.Ok? ==>
              && raw.Map? && "webhookEvent" in raw.fields && raw.fields["webhookEvent"].Str?
              && "type" in r.value.event.args
              && r.value.event.args["type"] == VRaw(raw.fields["webhookEvent"])
              && (r.value.event.cls != Generic ==>
                    r.value.event.args["type"] == VRaw(Str(EventTypeOf(r.value.event.cls))))
              && (r.value.event.cls == Generic ==>
                    raw.fields["webhookEvent"].s !in KnownWebhookEvents && strict != Strict)
  {
    if DecodeWebhookEvent(raw, strict, accepts).Ok? {
      ChoiceFollowsTheRegistry(raw.fields, strict);
      var cls := ChooseClass(raw.fields, strict).value.cls;
      DecodedEventArguments(cls, raw.fields, strict, accepts);
    }
  }

  /** A registered tag decodes the payload with its own class, adding only
      that class's mover warnings. */
  lemma RegisteredKeyDecodes(raw: Raw, strict: Strictness, accepts: Converter)
    requires raw.Map? && "webhookEvent" in raw.fields && raw.fields["webhookEvent"].Str?
    requires raw.fields["webhookEvent"].s in KnownWebhookEvents
    ensures var cls := KnownWebhookEvents[raw.fields["webhookEvent"].s];
            DecodeWebhookEvent(raw, strict, accepts) ==
              match DecodeEvent(cls, raw.fields, strict, accepts)
              case Ok(event) => Ok(Decoded(event, DecodeWarnings(DataKind, raw.fields, EventMoves(cls, accepts), strict)))
              case Err(e) => Err(e)
  {
    var key := raw.fields["webhookEvent"].s;
    RegistryKeysAreTheClassKeys(key);
    RegisteredClassDecodes(raw, strict, accepts, KnownWebhookEvents[key]);
  }

  /** A registered class's own key decodes the payload with that class. */
  lemma RegisteredClassDecodes(raw: Raw, strict: Strictness, accepts: Converter, cls: RegisteredClass)
    requires raw.Map? && "webhookEvent" in raw.fields && raw.fields["webhookEvent"] == Str(EventTypeOf(cls))
    ensures DecodeWebhookEvent(raw, strict, accepts) ==
              match DecodeEvent(cls, raw.fields, strict, accepts)
              case Ok(event) => Ok(Decoded(event, DecodeWarnings(DataKind, raw.fields, EventMoves(cls, accepts), strict)))
              case Err(e) => Err(e)
  {
    var d := Dispatch(cls, []);
    KeyChoosesItsClass(raw.fields, strict, cls);
    DispatchedDecode(raw, strict, accepts, d);
    assert d.cls == cls;
    assert d.warnings + DecodeWarnings(DataKind, raw.fields, EventMoves(cls, accepts), strict)
        == DecodeWarnings(DataKind, raw.fields, EventMoves(cls, accepts), strict);
  }

  /** Once the dispatcher has chosen, the payload is decoded with the chosen
      class and the mover's warnings follow the dispatcher's. */
  lemma DispatchedDecode(raw: Raw, strict: Strictness, accepts: Converter, d: Dispatch)
    requires raw.Map? && ChooseClass(raw.fields, strict) == Ok(d)
    ensures DecodeWebhookEvent(raw, strict, accepts) ==
              match DecodeEvent(d.cls, raw.fields, strict, accepts)
              case Ok(event) => Ok(Decoded(event, d.warnings + DecodeWarnings(DataKind, raw.fields, EventMoves(d.cls, accepts), strict)))
              case Err(e) => Err(e)
  {
  }

  /** An unregistered tag raises `UnknownWebhookEventType` when strict, and
      otherwise decodes the payload as a generic event, after one warning
      when `strict` is False and none when it is None. */
  lemma UnknownTagDecodesGeneric(raw: Raw, strict: Strictness, accepts: Converter)
    requires raw.Map? && "webhookEvent" in raw.fields && raw.fields["webhookEvent"].Str?
    requires raw.fields["webhookEvent"].s !in KnownWebhookEvents
    ensures var key := raw.fields["webhookEvent"].s;
            DecodeWebhookEvent(raw, strict, accepts) ==
              if strict == Strict then Err(UnknownWebhookEventType(raw.fields, key))
              else match DecodeEvent(Generic, raw.fields, strict, accepts)
                case Ok(event) =>
                  Ok(Decoded(event, (if strict == Lenient then [UnknownWebhookEventType(raw.fields, key)] else [])
                                    + DecodeWarnings(DataKind, raw.fields, EventMoves(Generic, accepts), strict)))
                case Err(e) => Err(e)
  {
    var key := raw.fields["webhookEvent"].s;
    FindClassIsRegistryLookup(key);
    if strict != Strict {
      var d := Dispatch(Generic, if strict == Lenient then [UnknownWebhookEventType(raw.fields, key)] else []);
      DispatchedDecode(raw, strict, accepts, d);
    }
  }

  /** The lookup step of `webhook_event_from_raw`, with its `try` blocks as branches. */
  method LookUpClass(source: RawMap, strict: Strictness) returns (r: Result<Dispatch>)
    ensures r == ChooseClass(source, strict)
  {
    if "webhookEvent" !in source {
      return Err(MissingWebhookEventType(source));
    }
    var tag := source["webhookEvent"];
    if !tag.Str? {
      return Err(TypeError(TypeOf(tag)));
    }
    var found := FindClass(RegisteredClasses, tag.s);
    if found.Some? {
      return Ok(Dispatch(found.value, []));
    }
    var unknown := UnknownWebhookEventType(source, tag.s);
    if strict == Strict {
      return Err(unknown);
    } else if strict == Lenient {
      return Ok(Dispatch(Generic, [unknown]));
    }
    return Ok(Dispatch(Generic, []));
  }

  /** `webhook_event_from_raw`, step by step, decoding with `FromRaw`. */
  method WebhookEventFromRaw(raw: Raw, strict: Strictness, accepts: Converter) returns (r: Result<Decoded>)
    ensures r == DecodeWebhookEvent(raw, strict, accepts)
  {
    if !raw.Map? {
      return Err(TypeError(TypeOf(raw)));
    }
    var chosen := LookUpClass(raw.fields, strict);
    if chosen.Err? {
      return Err(chosen.error);
    }
    var cls := chosen.value.cls;
    var args, logged := FromRaw(DataKind, raw.fields, EventMoves(cls, accepts), strict);
    if args.Err? {
      return Err(args.error);
    }
    return Ok(Decoded(WebhookEvent(cls, args.value.values, args.value.extras), chosen.value.warnings + logged));
  }

  /** An error raised by one of the nested decoders an event runs as a
      filter: `Change.from_raw` on the changelog or `IssueLink.from_raw` on
      the issue link. */
  predicate NestedDecodeRaised(raw: RawMap, e: DecodeError)
  {
    || ("changelog" in raw && ChangeFilter(DecodeChange)(raw["changelog"]) == Raise(e))
    || ("issueLink" in raw && LinkFilter(DecodeIssueLink)(raw["issueLink"]) == Raise(e))
  }

  /** The error the timestamp conversion raises on the raw timestamp. */
  predicate TimestampRaised(raw: RawMap, e: DecodeError)
  {
    "timestamp" in raw && ToDateTime(raw["timestamp"]) == Raise(e)
  }

  /** A move whose filter, if it raises at all, raises an error that escapes
      unwrapped: a nested decode error or the timestamp conversion's. */
  ghost predicate RaisesOnlyEscapes(spec: MoveSpec, raw: RawMap)
  {
    forall e :: FilterRaised(spec, raw, e) ==> NestedDecodeRaised(raw, e) || TimestampRaised(raw, e)
  }

  /** The resource converters and the unfiltered moves never raise; the
      timestamp conversion raises exactly for an out-of-range timestamp, and
      the nested decoders raise only nested errors. */
  lemma EveryMoveRaisesOnlyEscapes(raw: RawMap, accepts: Converter)
    ensures forall e :: FilterRaised(TimestampMove(), raw, e) <==>
              "timestamp" in raw && !TimestampInRange(raw["timestamp"]) && e == TimestampOutOfRange(raw["timestamp"])
    ensures RaisesOnlyEscapes(TimestampMove(), raw)
    ensures RaisesOnlyEscapes(TypeMove(), raw)
    ensures RaisesOnlyEscapes(IssueEventTypeMove(), raw)
    ensures RaisesOnlyEscapes(ChangeMove(DecodeChange), raw)
    ensures RaisesOnlyEscapes(IssueLinkMove(DecodeIssueLink), raw)
    ensures forall name, t, kind, required ::
              RaisesOnlyEscapes(ResourceMove(name, t, kind, accepts, required), raw)
  {
  }

  /** Every move of a sequence raises only errors that escape unwrapped. */
  ghost predicate AllRaiseOnlyEscapes(specs: seq<MoveSpec>, raw: RawMap)
  {
    forall i :: 0 <= i < |specs| ==> RaisesOnlyEscapes(specs[i], raw)
  }

  lemma AppendRaisesOnlyEscapes(a: seq<MoveSpec>, b: seq<MoveSpec>, raw: RawMap)
    requires AllRaiseOnlyEscapes(a, raw) && AllRaiseOnlyEscapes(b, raw)
    ensures AllRaiseOnlyEscapes(a + b, raw)
  {
    forall i | 0 <= i < |a + b| ensures RaisesOnlyEscapes((a + b)[i], raw) {
      if i >= |a| {
        assert (a + b)[i] == b[i - |a|];
      }
    }
  }

  /** The fragments every family is built from raise only errors that escape unwrapped. */
  lemma FragmentsRaiseOnlyEscapes(raw: RawMap, accepts: Converter)
    ensures AllRaiseOnlyEscapes(WebhookEventMoves(), raw)
    ensures AllRaiseOnlyEscapes(IssueEventMoves(accepts), raw)
    ensures AllRaiseOnlyEscapes([IssueLinkMove(DecodeIssueLink)], raw)
    ensures AllRaiseOnlyEscapes([ChangeMove(DecodeChange)], raw)
    ensures forall name, t, kind, required ::
              AllRaiseOnlyEscapes([ResourceMove(name, t, kind, accepts, required)], raw)
  {
    EveryMoveRaisesOnlyEscapes(raw, accepts);
    var issue := IssueEventMoves(accepts);
    forall i | 0 <= i < |issue| ensures RaisesOnlyEscapes(issue[i], raw) {
      assert issue[i] in [ResourceMove("issue", DictType, Issue, accepts, true),
                          ResourceMove("user", DictType, User, accepts, true),
                          TimestampMove(), TypeMove(), IssueEventTypeMove()];
    }
  }

  /** Every move of every class raises only errors that escape unwrapped. */
  lemma EventMovesRaiseOnlyEscapes(cls: EventClass, raw: RawMap, accepts: Converter)
    ensures AllRaiseOnlyEscapes(EventMoves(cls, accepts), raw)
  {
    FamilyMovesRaiseOnlyEscapes(FamilyOf(cls), raw, accepts, CommentRequired(cls));
  }

  lemma FamilyMovesRaiseOnlyEscapes(family: EventFamily, raw: RawMap, accepts: Converter, commentRequired: bool)
    ensures AllRaiseOnlyEscapes(FamilyMoves(family, accepts, commentRequired), raw)
  {
    FragmentsRaiseOnlyEscapes(raw, accepts);
    var common := WebhookEventMoves();
    match family
    case WebhookEventFamily =>
    case UserEventFamily =>
      AppendRaisesOnlyEscapes([ResourceMove("user", DictType, User, accepts, true)], common, raw);
    case ProjectEventFamily =>
      AppendRaisesOnlyEscapes(common, [ResourceMove("project", MappingAbc, Project, accepts, true)], raw);
    case BoardEventFamily =>
      AppendRaisesOnlyEscapes(common, [ResourceMove("board", MappingAbc, Board, accepts, true)], raw);
    case IssueEventFamily =>
    case IssueUpdatedEventFamily =>
      var comment := [ResourceMove("comment", DictType, Comment, accepts, commentRequired)];
      AppendRaisesOnlyEscapes(comment, IssueEventMoves(accepts), raw);
      AppendRaisesOnlyEscapes(comment + IssueEventMoves(accepts), [ChangeMove(DecodeChange)], raw);
    case WorklogEventFamily =>
      AppendRaisesOnlyEscapes(common, [ResourceMove("worklog", MappingAbc, Worklog, accepts, true)], raw);
    case CommentEventFamily =>
      AppendRaisesOnlyEscapes([ResourceMove("comment", DictType, Comment, accepts, commentRequired)], common, raw);
    case IssueLinkEventFamily =>
      AppendRaisesOnlyEscapes([IssueLinkMove(DecodeIssueLink)], common, raw);
    case AttachmentEventFamily =>
      AppendRaisesOnlyEscapes(common, [ResourceMove("attachment", MappingAbc, Attachment, accepts, true)], raw);
  }

  /**
   * A failed event decode failed in the event's own mover, with kind "data"
   * over the event's raw fields, in the timestamp conversion, or in a nested
   * decoder; the last two errors propagate unwrapped.
   */
  lemma EventErrorOrigin(cls: EventClass, raw: RawMap, strict: Strictness, accepts: Converter)
    ensures var r := DecodeEvent(cls, raw, strict, accepts);
            r.Err? ==>
              || RaisedByMover(r.error, DataKind, raw)
              || TimestampRaised(raw, r.error)
              || NestedDecodeRaised(raw, r.error)
  {
    var specs := EventMoves(cls, accepts);
    var st := Open(DataKind, raw);
    RunMovesErrorOrigin(st, specs);
    RunMovesFootprint(st, specs);
    EventMovesRaiseOnlyEscapes(cls, raw, accepts);
  }

  /** A generic event whose numeric timestamp is out of range raises the
      conversion's error, whatever else the payload holds. */
  lemma OutOfRangeTimestampEscapes(raw: RawMap, strict: Strictness, accepts: Converter)
    requires "timestamp" in raw && (raw["timestamp"].Int? || raw["timestamp"].Float?)
    requires !TimestampInRange(raw["timestamp"])
    ensures DecodeEvent(Generic, raw, strict, accepts) == Err(TimestampOutOfRange(raw["timestamp"]))
  {
    var specs := EventMoves(Generic, accepts);
    assert specs == [TimestampMove(), TypeMove()];
    var first := MoveStep(Open(DataKind, raw), TimestampMove());
    var listed := Listed(Several([Real(IntType), Real(FloatType)]));
    if raw["timestamp"].Int? {
      assert Accepts(raw["timestamp"], listed[0]);
    } else {
      assert Accepts(raw["timestamp"], listed[1]);
    }
    assert first.result == Err(TimestampOutOfRange(raw["timestamp"]));
  }

  /**
   * What `webhook_event_from_raw` raises: a `TypeError` for a payload that
   * is not a mapping or a tag that is not a `str`, `MissingWebhookEventType`
   * for a missing tag, `UnknownWebhookEventType` for an unregistered tag when
   * strict, and otherwise an error of the event's mover, the error of
   * `datetime.fromtimestamp` for an out-of-range timestamp, or an error of a
   * nested decoder.
   */
  lemma WebhookDecodeErrors(raw: Raw, strict: Strictness, accepts: Converter)
    ensures var r := DecodeWebhookEvent(raw, strict, accepts);
            r.Err? ==>
              || (!raw.Map? && r.error == TypeError(TypeOf(raw)))
              || (raw.Map? && "webhookEvent" !in raw.fields && r.error == MissingWebhookEventType(raw.fields))
              || (raw.Map? && "webhookEvent" in raw.fields && !raw.fields["webhookEvent"].Str?
                    && r.error == TypeError(TypeOf(raw.fields["webhookEvent"])))
              || (raw.Map? && "webhookEvent" in raw.fields && raw.fields["webhookEvent"].Str?
                    && raw.fields["webhookEvent"].s !in KnownWebhookEvents && strict == Strict
                    && r.error == UnknownWebhookEventType(raw.fields, raw.fields["webhookEvent"].s))
              || (raw.Map? && RaisedByMover(r.error, DataKind, raw.fields))
              || (raw.Map? && "timestamp" in raw.fields && !TimestampInRange(raw.fields["timestamp"])
                    && r.error == TimestampOutOfRange(raw.fields["timestamp"]))
              || (raw.Map? && NestedDecodeRaised(raw.fields, r.error))
  {
    if raw.Map? {
      ChoiceFollowsTheRegistry(raw.fields, strict);
      var d := ChooseClass(raw.fields, strict);
      if d.Ok? {
        EventErrorOrigin(d.value.cls, raw.fields, strict, accepts);
      }
    }
  }

  /** The families whose own fragment moves one resource after the common
      fields, with that resource's field name and kind. */
  predicate HasTrailingResource(family: EventFamily)
  {
    family in {ProjectEventFamily, BoardEventFamily, WorklogEventFamily, AttachmentEventFamily}
  }

  function TrailingResource(family: EventFamily): (field: (string, ResourceKind))
    requires HasTrailingResource(family)
  {
    match family
    case ProjectEventFamily => ("project", Project)
    case BoardEventFamily => ("board", Board)
    case WorklogEventFamily => ("worklog", Worklog)
    case AttachmentEventFamily => ("attachment", Attachment)
  }

  /** A project, board, worklog or attachment event holds its resource, a
      mapping the resource layer accepts. */
  lemma TrailingResourceArgument(cls: EventClass, raw: RawMap, strict: Strictness, accepts: Converter)
    requires HasTrailingResource(FamilyOf(cls))
    ensures var r, (name, kind) := DecodeEvent(cls, raw, strict, accepts), TrailingResource(FamilyOf(cls));
            r.Ok? ==>
              && name in raw && IsInstance(raw[name], MappingAbc) && accepts(kind, raw[name])
              && name in r.value.args && r.value.args[name] == VResource(Resource(kind, raw[name]))
  {
    var (name, kind) := TrailingResource(FamilyOf(cls));
    TrailingFamilyMoves(FamilyOf(cls), accepts, CommentRequired(cls));
    TrailingResourceMoves(raw, strict, accepts, name, kind);
  }

  /** The families with a trailing resource move the common fields, then it. */
  lemma TrailingFamilyMoves(family: EventFamily, accepts: Converter, commentRequired: bool)
    requires HasTrailingResource(family)
    ensures var (name, kind) := TrailingResource(family);
            FamilyMoves(family, accepts, commentRequired)
              == WebhookEventMoves() + [ResourceMove(name, MappingAbc, kind, accepts, true)]
  {
  }

  /** The common fields then a required resource mapping: the decode holds
      that resource, accepted by the resource layer. */
  lemma TrailingResourceMoves(raw: RawMap, strict: Strictness, accepts: Converter, name: string, kind: ResourceKind)
    requires name in {"project", "board", "worklog", "attachment"}
    ensures var r := DecodeArgs(DataKind, raw, WebhookEventMoves() + [ResourceMove(name, MappingAbc, kind, accepts, true)], strict);
            r.Ok? ==>
              && name in raw && IsInstance(raw[name], MappingAbc) && accepts(kind, raw[name])
              && name in r.value.values && r.value.values[name] == VResource(Resource(kind, raw[name]))
  {
    var specs := WebhookEventMoves() + [ResourceMove(name, MappingAbc, kind, accepts, true)];
    ResourceEventOrder(specs, name, MappingAbc, kind, accepts);
    ResourceArgument(raw, specs, 2, strict, name, MappingAbc, kind, accepts, true);
  }

  /** A user event holds its user, a dict the resource layer accepts. */
  lemma UserArgument(cls: EventClass, raw: RawMap, strict: Strictness, accepts: Converter)
    requires FamilyOf(cls) == UserEventFamily
    ensures var r := DecodeEvent(cls, raw, strict, accepts);
            r.Ok? ==>
              && "user" in raw && raw["user"].Map? && accepts(User, raw["user"])
              && "user" in r.value.args && r.value.args["user"] == VResource(Resource(User, raw["user"]))
  {
    UserMovesArgument(raw, strict, accepts);
  }

  /** The moves of a user event store the user, a dict the resource layer accepts. */
  lemma UserMovesArgument(raw: RawMap, strict: Strictness, accepts: Converter)
    ensures var r := DecodeArgs(DataKind, raw, UserEventMoves(accepts), strict);
            r.Ok? ==>
              && "user" in raw && raw["user"].Map? && accepts(User, raw["user"])
              && "user" in r.value.values && r.value.values["user"] == VResource(Resource(User, raw["user"]))
  {
    UserEventOrder(accepts);
    ResourceArgument(raw, UserEventMoves(accepts), 0, strict, "user", DictType, User, accepts, true);
  }

  /** The common fields are well formed: an in-range `int` or `float`
      timestamp and a `str` tag. */
  predicate CommonFieldsValid(raw: RawMap)
  {
    && "timestamp" in raw
    && (IsInstance(raw["timestamp"], IntType) || IsInstance(raw["timestamp"], FloatType))
    && TimestampInRange(raw["timestamp"])
    && "webhookEvent" in raw && raw["webhookEvent"].Str?
  }

  /** What the common moves and a required resource move accept. */
  lemma CommonMovesAccept(raw: RawMap, name: string, t: PyType, kind: ResourceKind, accepts: Converter)
    ensures MoveAccepts(TimestampMove(), raw) && MoveAccepts(TypeMove(), raw) <==> CommonFieldsValid(raw)
    ensures MoveAccepts(ResourceMove(name, t, kind, accepts, true), raw) <==>
              name in raw && IsInstance(raw[name], t) && accepts(kind, raw[name])
  {
    TimestampMoveAccepts(raw);
    TypeMoveAccepts(raw);
    ResourceMoveAccepts(raw, name, t, kind, accepts);
  }

  /** The timestamp move accepts an in-range `int` or `float`. */
  lemma TimestampMoveAccepts(raw: RawMap)
    ensures MoveAccepts(TimestampMove(), raw) <==>
              && "timestamp" in raw
              && (IsInstance(raw["timestamp"], IntType) || IsInstance(raw["timestamp"], FloatType))
              && TimestampInRange(raw["timestamp"])
  {
    var listed := Listed(Several([Real(IntType), Real(FloatType)]));
    if "timestamp" in raw {
      assert Matches(raw["timestamp"], Several([Real(IntType), Real(FloatType)])) <==>
               Accepts(raw["timestamp"], listed[0]) || Accepts(raw["timestamp"], listed[1]);
    }
  }

  /** The type move accepts a `str` tag. */
  lemma TypeMoveAccepts(raw: RawMap)
    ensures MoveAccepts(TypeMove(), raw) <==> "webhookEvent" in raw && raw["webhookEvent"].Str?
  {
    if "webhookEvent" in raw {
      assert Matches(raw["webhookEvent"], One(Real(StrType))) <==>
               Accepts(raw["webhookEvent"], Listed(One(Real(StrType)))[0]);
    }
  }

  /** A required resource move accepts a field of its class that the resource layer accepts. */
  lemma ResourceMoveAccepts(raw: RawMap, name: string, t: PyType, kind: ResourceKind, accepts: Converter)
    ensures MoveAccepts(ResourceMove(name, t, kind, accepts, true), raw) <==>
              name in raw && IsInstance(raw[name], t) && accepts(kind, raw[name])
  {
    if name in raw {
      assert Matches(raw[name], One(Real(t))) <==> Accepts(raw[name], Listed(One(Real(t)))[0]);
    }
  }

  /** An event decodes exactly when each of its class's moves accepts its
      field and, when strict, no other field is present. */
  lemma EventDecodes(cls: EventClass, raw: RawMap, strict: Strictness, accepts: Converter)
    ensures var specs := EventMoves(cls, accepts);
            DecodeEvent(cls, raw, strict, accepts).Ok? <==>
              && (forall i :: 0 <= i < |specs| ==> MoveAccepts(specs[i], raw))
              && (strict == Strict ==> raw.Keys <= SourceNames(specs))
  {
    EventMovesAreDistinct(cls, accepts);
    DecodeArgsSucceeds(DataKind, raw, EventMoves(cls, accepts), strict);
  }

  /** A generic event decodes exactly when its common fields are well formed
      and, when strict, nothing else is present. */
  lemma GenericEventDecodes(raw: RawMap, strict: Strictness, accepts: Converter)
    ensures DecodeEvent(Generic, raw, strict, accepts).Ok? <==>
              && CommonFieldsValid(raw)
              && (strict == Strict ==> raw.Keys <= {"timestamp", "webhookEvent"})
  {
    var specs := EventMoves(Generic, accepts);
    assert specs == [TimestampMove(), TypeMove()];
    EventDecodes(Generic, raw, strict, accepts);
    CommonMovesAccept(raw, "timestamp", IntType, User, accepts);
    assert SourceNames(specs) == {"timestamp", "webhookEvent"} by {
      assert SourceName(specs[0]) == "timestamp" && SourceName(specs[1]) == "webhookEvent";
    }
  }

  /** A user event decodes exactly when its user is a dict the resource
      layer accepts, its common fields are well formed and, when strict,
      nothing else is present. */
  lemma UserEventDecodes(cls: EventClass, raw: RawMap, strict: Strictness, accepts: Converter)
    requires FamilyOf(cls) == UserEventFamily
    ensures DecodeEvent(cls, raw, strict, accepts).Ok? <==>
              && "user" in raw && raw["user"].Map? && accepts(User, raw["user"])
              && CommonFieldsValid(raw)
              && (strict == Strict ==> raw.Keys <= {"user", "timestamp", "webhookEvent"})
  {
    UserMovesDecode(raw, strict, accepts);
  }

  /** The moves of a user event decode exactly when the user and the common
      fields are well formed and, when strict, nothing else is present. */
  lemma UserMovesDecode(raw: RawMap, strict: Strictness, accepts: Converter)
    ensures DecodeArgs(DataKind, raw, UserEventMoves(accepts), strict).Ok? <==>
              && "user" in raw && raw["user"].Map? && accepts(User, raw["user"])
              && CommonFieldsValid(raw)
              && (strict == Strict ==> raw.Keys <= {"user", "timestamp", "webhookEvent"})
  {
    var specs := UserEventMoves(accepts);
    assert specs == [ResourceMove("user", DictType, User, accepts, true), TimestampMove(), TypeMove()];
    UserEventOrder(accepts);
    DecodeArgsSucceeds(DataKind, raw, specs, strict);
    CommonMovesAccept(raw, "user", DictType, User, accepts);
    if "user" in raw {
      assert IsInstance(raw["user"], DictType) <==> raw["user"].Map?;
    }
    assert SourceNames(specs) == {"user", "timestamp", "webhookEvent"} by {
      assert SourceName(specs[0]) == "user" && SourceName(specs[1]) == "timestamp" && SourceName(specs[2]) == "webhookEvent";
    }
  }

  /** A project, board, worklog or attachment event decodes exactly when
      its resource is a mapping the resource layer accepts, its common fields
      are well formed and, when strict, nothing else is present. */
  lemma TrailingResourceDecodes(cls: EventClass, raw: RawMap, strict: Strictness, accepts: Converter)
    requires HasTrailingResource(FamilyOf(cls))
    ensures var (name, kind) := TrailingResource(FamilyOf(cls));
            DecodeEvent(cls, raw, strict, accepts).Ok? <==>
              && name in raw && IsInstance(raw[name], MappingAbc) && accepts(kind, raw[name])
              && CommonFieldsValid(raw)
              && (strict == Strict ==> raw.Keys <= {"timestamp", "webhookEvent", name})
  {
    var (name, kind) := TrailingResource(FamilyOf(cls));
    TrailingFamilyMoves(FamilyOf(cls), accepts, CommentRequired(cls));
    TrailingMovesDecode(raw, strict, accepts, name, kind);
  }

  /** The common fields then a required resource mapping decode exactly when
      each is well formed and, when strict, nothing else is present. */
  lemma TrailingMovesDecode(raw: RawMap, strict: Strictness, accepts: Converter, name: string, kind: ResourceKind)
    requires name in {"project", "board", "worklog", "attachment"}
    ensures DecodeArgs(DataKind, raw, WebhookEventMoves() + [ResourceMove(name, MappingAbc, kind, accepts, true)], strict).Ok? <==>
              && name in raw && IsInstance(raw[name], MappingAbc) && accepts(kind, raw[name])
              && CommonFieldsValid(raw)
              && (strict == Strict ==> raw.Keys <= {"timestamp", "webhookEvent", name})
  {
    var specs := WebhookEventMoves() + [ResourceMove(name, MappingAbc, kind, accepts, true)];
    assert specs == [TimestampMove(), TypeMove(), ResourceMove(name, MappingAbc, kind, accepts, true)];
    ResourceEventOrder(specs, name, MappingAbc, kind, accepts);
    DecodeArgsSucceeds(DataKind, raw, specs, strict);
    CommonMovesAccept(raw, name, MappingAbc, kind, accepts);
    assert SourceNames(specs) == {"timestamp", "webhookEvent", name} by {
      assert SourceName(specs[0]) == "timestamp" && SourceName(specs[1]) == "webhookEvent" && SourceName(specs[2]) == name;
    }
  }
}

=== FILE: wrappers.dfy ===
/** Optional values, used for the keyword arguments that default to `None`. */
module Wrappers {

  datatype Option<+T> = None | Some(value: T)

}
